=== FILE: README.md ===
# brjs bundling engine and helpers — a Dafny model

This project models the core of the BladeRunnerJS (brjs) bundler in Dafny:

- **Bundle-set construction** (`BundleSetBuilder`). Starting from seed linked assets, the builder walks:
  - the runtime dependencies of each linked asset, plus an implicit `br-bootstrap` dependency;
  - the aliases the assets use;
  - the asset locations, with their seed resources and dependent locations.

  It then orders the discovered source modules pass by pass over the order-dependency relation. A pass that places nothing ends in a `CircularDependencyException`.
- **Scoped require resolution** (`DefaultRequirePlugin.getAsset`). The outcome is unique, ambiguous, out of bundle scope, or unresolvable.
- **Alias definitions** (`AliasDefinition`). Covers require paths derived from class names and `equals`.
- **Namespaced-JS source modules** (`NamespacedJsSourceModule`):
  - the require path and class name derived from the `src`-relative file path;
  - the order dependencies read from `caplin.extend(…)`-style calls.
- **The source-module dependency graph** (`SourceModuleDependencyCreator`).
- **The service-data JSON** (`ServiceDataSerializer`). An abstract bundle set is serialised into the `service!` metadata document.
- **Directory-to-logical-name mapping** (`DirectoryContentsNamedNodeLocator`).
- **Browser selection** (`TestRunnerConfiguration.getBrowsers`).
- **Browser-side locale helpers** (`LocaleUtility.js`): locale choice, cookie lookup and localized page URLs.
- **ISO 8601 date validation** (`ISODateValidator.js`). Covers the basic form `YYYYMMDD` and the extended form `YYYY-MM-DD` of section 4.1.2.2 of ISO 8601:2004. Validity is a round trip through the JavaScript `Date` constructor. Its two-digit years are remapped to 1900–1999 (section 21.4.2.1 of ECMA-262).

The model is functional throughout. Each entity is an immutable datatype and each operation is a pure function, except for a few methods with loops. Java exceptions and JavaScript `null`/`undefined` become `Result` and `Option` values.

Assets, source modules, linked assets and asset locations are opaque identities. Their relations are given as an environment:
- dependencies, order dependencies and alias names;
- seed resources and dependent locations;
- the asset a container holds for a require path;
- the resolution of a require path.

The builder's `LinkedHashSet`s are duplicate-free sequences in insertion order. The traversal is a mutual recursion whose termination measure is the unvisited part of a finite asset universe.

Files:
- `wrappers.dfy`: `Option` and `Result`.
- `sequences.dfy`: `LinkedHashSet` as a sequence.
- `strings.dfy`: the Java and JavaScript string calls used.
- `asset_model.dfy`: the shared vocabulary.
- `aliasing.dfy`, `require_resolution.dfy`, `namespaced_js.dfy`, `ordering.dfy`, `bundle_set_builder.dfy`, `dependency_graph.dfy`, `service_data.dfy`, `named_node_locator.dfy`, `test_runner_config.dfy`, `locale_utility.dfy`, `iso_date_validator.dfy`: one per source component.

## Model

| member | source | states |
|---|---|---|
| Sequences.AddUniqueProperties | brjs-core/src/main/java/org/bladerunnerjs/utility/BundleSetBuilder.java:82 | Adding to an insertion-ordered set keeps it duplicate-free and keeps the old contents as a prefix. The elements become the old ones plus the new one. |
| Sequences.AddAllUniqueProperties | brjs-core/src/main/java/org/bladerunnerjs/utility/BundleSetBuilder.java:93 | `addAll` keeps the set duplicate-free, keeps the old contents as a prefix, and yields the union of the elements. |
| Strings.ReplaceChar | plugins/brjs-plugins/src/main/java/org/bladerunnerjs/plugin/bundlers/aliasing/AliasDefinition.java:38 | Replacing one literal character keeps the length. Each occurrence becomes the replacement and every other character is kept. |
| Strings.JoinSplit | brjs-sdk/sdk/libs/javascript/br-locale-utility/LocaleUtility.js:127-131 | Joining the result of `split(c)` with `c` gives back the original string. |
| Strings.SplitJoin | brjs-sdk/sdk/libs/javascript/br-locale-utility/LocaleUtility.js:29-30 | Splitting a join of separator-free parts gives back exactly those parts. |
| Strings.JoinConcat | brjs-sdk/sdk/libs/javascript/br-locale-utility/LocaleUtility.js:129-131 | Joining two non-empty lists equals joining each and putting one separator between them. |
| Strings.SplitTrailingSeparator | brjs-sdk/sdk/libs/javascript/br-locale-utility/LocaleUtility.js:127-128 | A trailing separator adds exactly one empty last segment to `split`. |
| Strings.TrimStart | brjs-legacy/src/main/java/org/bladerunnerjs/legacy/conf/TestRunnerConfiguration.java:148 | Removes exactly the leading characters at or below space, and the result is a suffix of the input. |
| Strings.TrimEnd | brjs-legacy/src/main/java/org/bladerunnerjs/legacy/conf/TestRunnerConfiguration.java:148 | Removes exactly the trailing characters at or below space, and the result is a prefix of the input. |
| Strings.Find | plugins/brjs-plugins/src/main/java/org/bladerunnerjs/plugin/plugins/require/ServiceDataSerializer.java:92 | Gives the first index at which the literal occurs, or `None` exactly when it occurs nowhere. This is what `replaceFirst` rewrites. |
| Strings.ToUpperAscii | brjs-sdk/sdk/libs/javascript/br-locale-utility/LocaleUtility.js:30 | Same length. Each lower-case ASCII letter becomes upper case and every other character is kept. |
| Aliasing.DotsToSlashes | plugins/brjs-plugins/src/main/java/org/bladerunnerjs/plugin/bundlers/aliasing/AliasDefinition.java:38 | Same length and no `.` left. Each `.` becomes `/` and every other character is kept. |
| Aliasing.UndottedClassNameIsRequirePath | plugins/brjs-plugins/src/main/java/org/bladerunnerjs/plugin/bundlers/aliasing/AliasDefinition.java:38 | A name without dots is its own slash form. |
| Aliasing.AccessorsReturnConstructorArguments | plugins/brjs-plugins/src/main/java/org/bladerunnerjs/plugin/bundlers/aliasing/AliasDefinition.java:10-14 | `getName`, `getClassName` and `getInterfaceName` return the constructor arguments. |
| Aliasing.RequirePath | plugins/brjs-plugins/src/main/java/org/bladerunnerjs/plugin/bundlers/aliasing/AliasDefinition.java:33-39 | A null class name gives `br/UnknownClass`. Otherwise the result is the class name with every `.` turned into `/`, of the same length and with no `.`. |
| Aliasing.InterfaceRequirePath | plugins/brjs-plugins/src/main/java/org/bladerunnerjs/plugin/bundlers/aliasing/AliasDefinition.java:24-27 | Null exactly when the interface name is null, otherwise its slash form. |
| Aliasing.Equals | plugins/brjs-plugins/src/main/java/org/bladerunnerjs/plugin/bundlers/aliasing/AliasDefinition.java:16-18 | With all fields non-null, true iff the three fields are pairwise equal. A null pointer failure happens exactly when the comparison reaches a null field of the receiver. `true` implies equal definitions. |
| RequireResolution.MatchesOfPrefix | plugins/brjs-plugins/src/main/java/org/bladerunnerjs/plugin/require/DefaultRequirePlugin.java:29-42 | The matches found in a prefix of the container list are a prefix of all matches, so scope order is kept. |
| RequireResolution.GetAsset | plugins/brjs-plugins/src/main/java/org/bladerunnerjs/plugin/require/DefaultRequirePlugin.java:26-54 | One match in scope gives that asset. A second match fails as ambiguous, naming the first two matches in scope order and the suffix. With no match in scope, the first app-wide match gives out of bundle scope. With no match at all the path is unresolvable. |
| NamespacedJs.NamespacedName | brjs-core/src/main/java/org/bladerunnerjs/plugin/plugins/bundlers/namespacedjs/NamespacedJsSourceModule.java:37-38 | The class name is the require path without its leading `/`, with every `/` turned into `.`. |
| NamespacedJs.IsEncapsulatedModule | brjs-core/src/main/java/org/bladerunnerjs/plugin/plugins/bundlers/namespacedjs/NamespacedJsSourceModule.java:68-71 | A namespaced module is never encapsulated. |
| NamespacedJs.DerivedPaths | brjs-core/src/main/java/org/bladerunnerjs/plugin/plugins/bundlers/namespacedjs/NamespacedJsSourceModule.java:34-38 | The require path is `/` plus the relative path with one trailing `.js` removed. The class name is the dot form of the require path without its `/`. |
| NamespacedJs.AliasOfClassNameReachesModule | brjs-core/src/main/java/org/bladerunnerjs/plugin/plugins/bundlers/namespacedjs/NamespacedJsSourceModule.java:37-38 | An alias naming the module's class has the module's require path, for a relative path without dots. |
| NamespacedJs.CallPrefixLengthMeaning | brjs-core/src/main/java/org/bladerunnerjs/plugin/plugins/bundlers/namespacedjs/NamespacedJsSourceModule.java:24 | A recognised call opening is one of `caplin.extend(`, `caplin.implement(`, `br.extend(` and `br.implement(`. |
| NamespacedJs.CallOpeningRecognised | brjs-core/src/main/java/org/bladerunnerjs/plugin/plugins/bundlers/namespacedjs/NamespacedJsSourceModule.java:24 | Each of the four openings is recognised with its full length. |
| NamespacedJs.MatchShape | brjs-core/src/main/java/org/bladerunnerjs/plugin/plugins/bundlers/namespacedjs/NamespacedJsSourceModule.java:82-83 | A match ends with `)`. Its group 3 is the non-empty, `)`-free text just before that `)`. |
| NamespacedJs.WrittenCallIsMatched | brjs-core/src/main/java/org/bladerunnerjs/plugin/plugins/bundlers/namespacedjs/NamespacedJsSourceModule.java:24 | Text `p first, ws target) rest` with the pattern's constraints is matched at its start. Group 3 is `target`, and the match ends just after the `)`. |
| NamespacedJs.CandidatesShape | brjs-core/src/main/java/org/bladerunnerjs/plugin/plugins/bundlers/namespacedjs/NamespacedJsSourceModule.java:82-83 | Every candidate found by the successive matches is non-empty and has no `)`. |
| NamespacedJs.NoParenthesisNoCandidates | brjs-core/src/main/java/org/bladerunnerjs/plugin/plugins/bundlers/namespacedjs/NamespacedJsSourceModule.java:75-98 | Text without `(` yields no candidates. |
| NamespacedJs.CandidatePaths | brjs-core/src/main/java/org/bladerunnerjs/plugin/plugins/bundlers/namespacedjs/NamespacedJsSourceModule.java:83-84 | One require path per candidate, in order. Each is `/` plus the candidate with dots turned into slashes. |
| NamespacedJs.ResolveCandidates | brjs-core/src/main/java/org/bladerunnerjs/plugin/plugins/bundlers/namespacedjs/NamespacedJsSourceModule.java:86-96 | Succeeds iff no candidate fails other than as unresolvable. Every result is the resolution of some candidate. Otherwise it fails with the first such error, wrapped. |
| NamespacedJs.AllResolvedKeepsEveryMatch | brjs-core/src/main/java/org/bladerunnerjs/plugin/plugins/bundlers/namespacedjs/NamespacedJsSourceModule.java:82-88 | When every candidate resolves, there is one module per match, in match order, with duplicates kept. |
| NamespacedJs.UnresolvableCandidateIsDropped | brjs-core/src/main/java/org/bladerunnerjs/plugin/plugins/bundlers/namespacedjs/NamespacedJsSourceModule.java:89-91 | Removing an unresolvable candidate from the list does not change the result. |
| NamespacedJs.OrderDependentSourceModules | brjs-core/src/main/java/org/bladerunnerjs/plugin/plugins/bundlers/namespacedjs/NamespacedJsSourceModule.java:74-98 | An unreadable file fails with a read error. Otherwise the result resolves the candidates of the text, and text with no `(` gives an empty list. |
| Ordering.DependenciesHaveBeenMet | brjs-core/src/main/java/org/bladerunnerjs/utility/BundleSetBuilder.java:188-196 | Fails exactly when the order dependencies cannot be read, with their error. Otherwise true iff every order dependency is already met. |
| Ordering.Pass | brjs-core/src/main/java/org/bladerunnerjs/utility/BundleSetBuilder.java:163-175 | Fails iff some order dependency cannot be read. Otherwise: the output only grows; progress happens iff fewer modules are left; a pass without progress changes nothing; the modules left are among the pass's modules. |
| Ordering.Preamble | brjs-core/src/main/java/org/bladerunnerjs/utility/BundleSetBuilder.java:148-157 | The bootstrap goes first exactly when it resolves and the module set is non-empty. Otherwise nothing goes first. |
| Ordering.OrderSourceModules | brjs-core/src/main/java/org/bladerunnerjs/utility/BundleSetBuilder.java:143-186 | The output has no duplicates and holds the modules plus the preamble. It starts with the preamble. Every module after the preamble comes after all of its order dependencies. It fails with a read error iff some order dependency cannot be read. A circular error carries modules that are stuck and that no valid ordering could place. |
| Ordering.OrderLoopCorrect | brjs-core/src/main/java/org/bladerunnerjs/utility/BundleSetBuilder.java:159-183 | The pass loop, started from a state that keeps the ordering invariant, ends in a correct ordering, a wrapped read error, or a circular error. The circular error carries exactly the stuck modules. |
| Ordering.PassKeepsOrder | brjs-core/src/main/java/org/bladerunnerjs/utility/BundleSetBuilder.java:163-175 | A pass only appends modules whose order dependencies are already placed, and keeps the output duplicate-free. |
| Ordering.PassElements | brjs-core/src/main/java/org/bladerunnerjs/utility/BundleSetBuilder.java:163-175 | Each module of a pass ends up in exactly one place: newly placed, or left unprocessed. Nothing is lost. |
| Ordering.PassStuck | brjs-core/src/main/java/org/bladerunnerjs/utility/BundleSetBuilder.java:177-180 | A pass without progress means every remaining module has an unmet order dependency. |
| Ordering.StuckAfterPass | brjs-core/src/main/java/org/bladerunnerjs/utility/BundleSetBuilder.java:177-180 | The modules of a pass without progress are stuck, and no valid ordering can place any of them. |
| Ordering.AcyclicNeverCircular | brjs-core/src/main/java/org/bladerunnerjs/utility/BundleSetBuilder.java:159-183 | If every order dependency is the bootstrap or a lower-ranked module of the set, ordering succeeds. |
| Ordering.AcyclicNotStuck | brjs-core/src/main/java/org/bladerunnerjs/utility/BundleSetBuilder.java:164 | Under such a ranking no set of modules is stuck. |
| Ordering.ExternalDependencyIsCircular | brjs-core/src/main/java/org/bladerunnerjs/utility/BundleSetBuilder.java:177-179 | A module with an order dependency that is outside the set, and is not the bootstrap, ends in the circular-dependency error. |
| Ordering.NeverPlaced | brjs-core/src/main/java/org/bladerunnerjs/utility/BundleSetBuilder.java:164-170 | Such a module is in no valid partial ordering. |
| DependencyGraph.ExtractSourceModules | brjs-core/src/main/java/org/bladerunnerjs/utility/SourceModuleDependencyCreator.java:25-33 | An id is in the result iff some source-module asset of the input carries it. The result is never longer than the input. |
| DependencyGraph.ExtractDistributes | brjs-core/src/main/java/org/bladerunnerjs/utility/SourceModuleDependencyCreator.java:27-31 | Filtering distributes over concatenation, so input order is kept. |
| DependencyGraph.ExtractKeepsSourceModules | brjs-core/src/main/java/org/bladerunnerjs/utility/SourceModuleDependencyCreator.java:27-31 | A list of source modules only is kept whole, in order. |
| DependencyGraph.ExtractPreservesMultiplicity | brjs-core/src/main/java/org/bladerunnerjs/utility/SourceModuleDependencyCreator.java:27-31 | Each id occurs as often as the source-module assets carrying it. |
| DependencyGraph.CreateGraph | brjs-core/src/main/java/org/bladerunnerjs/utility/SourceModuleDependencyCreator.java:15-23 | An empty input gives an empty map. The graph succeeds iff every module's dependent assets can be read. Its keys are exactly the modules, and each value is the module's filtered assets. Otherwise it fails with the first failing module's error. |
| BundleSetBuilder.AddBootstrapToDependencies | brjs-core/src/main/java/org/bladerunnerjs/utility/BundleSetBuilder.java:223-235 | The bootstrap is appended, last, exactly when the list is non-empty and the bootstrap resolves. Otherwise the list is unchanged. |
| BundleSetBuilder.DependentSourceModules | brjs-core/src/main/java/org/bladerunnerjs/utility/BundleSetBuilder.java:216-221 | An asset's dependencies fail with their own error, or are given with the bootstrap added by the rule above. |
| BundleSetBuilder.GetAliases | brjs-core/src/main/java/org/bladerunnerjs/utility/BundleSetBuilder.java:124-141 | Fails with the first failing lookup. Otherwise an alias is in the result iff some name has it as its (non-null) definition, and there are at most as many aliases as names. |
| BundleSetBuilder.OneAliasLookup | brjs-core/src/main/java/org/bladerunnerjs/utility/BundleSetBuilder.java:128-133 | One name gives its definition, nothing for a null lookup, or the lookup's error. |
| BundleSetBuilder.GetAliasesDistribute | brjs-core/src/main/java/org/bladerunnerjs/utility/BundleSetBuilder.java:128-133 | The lookups of concatenated name lists succeed iff both parts' do, and give the parts' aliases in order. With the one-name case, this pins the result to one alias per non-null lookup, in name order. |
| BundleSetBuilder.AddLinkedAsset | brjs-core/src/main/java/org/bladerunnerjs/utility/BundleSetBuilder.java:88-109 | An asset is processed once. Its dependencies enter the source-module set, its aliases become active and its location is visited. Sets only grow, with insertion order kept, and everything newly added is complete. |
| BundleSetBuilder.AddSourceModule | brjs-core/src/main/java/org/bladerunnerjs/utility/BundleSetBuilder.java:81-86 | A source module is recorded once. Its aliases become active, it is processed as a linked asset, and test modules are untouched. |
| BundleSetBuilder.AddTestSourceModule | brjs-core/src/main/java/org/bladerunnerjs/utility/BundleSetBuilder.java:74-79 | A test module goes to the test set, with its aliases and its processing as a linked asset. |
| BundleSetBuilder.AddAssetLocation | brjs-core/src/main/java/org/bladerunnerjs/utility/BundleSetBuilder.java:111-122 | A location is recorded once. Its seed resources and dependent locations are processed, and test modules are untouched. |
| BundleSetBuilder.AddLinkedAssets | brjs-core/src/main/java/org/bladerunnerjs/utility/BundleSetBuilder.java:114-116 | Every listed asset is processed, and the traversal invariant holds. |
| BundleSetBuilder.AddSourceModules | brjs-core/src/main/java/org/bladerunnerjs/utility/BundleSetBuilder.java:102-104 | Every listed module enters the source-module set. |
| BundleSetBuilder.AddAssetLocations | brjs-core/src/main/java/org/bladerunnerjs/utility/BundleSetBuilder.java:118-120 | Every listed location is visited. |
| BundleSetBuilder.AddTestSourceModules | brjs-core/src/main/java/org/bladerunnerjs/utility/BundleSetBuilder.java:68-72 | Every listed test module enters the test set. |
| BundleSetBuilder.AddSeedFiles | brjs-core/src/main/java/org/bladerunnerjs/utility/BundleSetBuilder.java:62-66 | Every seed is processed, test modules are untouched, and a closed state stays closed. |
| BundleSetBuilder.AddTests | brjs-core/src/main/java/org/bladerunnerjs/utility/BundleSetBuilder.java:68-79 | Every test module is in the test set, and a closed state stays closed. |
| BundleSetBuilder.AddAliasTargets | brjs-core/src/main/java/org/bladerunnerjs/utility/BundleSetBuilder.java:51-57 | Every alias's require path resolves to a module in the source-module set. An unresolvable first alias aborts with a wrapped require-path error. |
| BundleSetBuilder.CreateBundleSet | brjs-core/src/main/java/org/bladerunnerjs/utility/BundleSetBuilder.java:43-60 | The alias and location lists are the snapshots taken before alias targets are added. Every active alias's target module is bundled. The ordered modules are duplicate-free and respect order dependencies after the bootstrap. A closed state stays closed, and an unresolvable first alias aborts the operation. |
| BundleSetBuilder.BuildIsClosed | brjs-core/src/main/java/org/bladerunnerjs/utility/BundleSetBuilder.java:62-122 | After seeding and adding tests, the fixed point is closed: every dependency of a processed asset is a source module; every processed asset's location is visited; every visited location's seeds and dependent locations are processed. |
| BundleSetBuilder.RelinkIsNoOp | brjs-core/src/main/java/org/bladerunnerjs/utility/BundleSetBuilder.java:90 | Processing linked assets that were already processed changes nothing. |
| BundleSetBuilder.SeedingTwiceIsSeedingOnce | brjs-core/src/main/java/org/bladerunnerjs/utility/BundleSetBuilder.java:62-66 | Adding the same seeds again leaves the state as it was, so everything is processed once. |
| BundleSetBuilder.AliasToMissingClassFails | brjs-core/src/main/java/org/bladerunnerjs/utility/BundleSetBuilder.java:51-57 | An active alias whose class does not resolve aborts `createBundleSet` with that require-path error. |
| ServiceData.GetAliasDefinitions | plugins/brjs-plugins/src/main/java/org/bladerunnerjs/plugin/plugins/require/ServiceDataSerializer.java:108-131 | One definition per alias module, in order. It is the re-resolved definition, or the module's own one when the alias is not found. A content-file error fails as a runtime error. |
| ServiceData.ChooseDefinitions | plugins/brjs-plugins/src/main/java/org/bladerunnerjs/plugin/plugins/require/ServiceDataSerializer.java:113-128 | The per-module choice: the re-resolved definition, or the module's own one when the alias is not found. |
| ServiceData.FirstServing | plugins/brjs-plugins/src/main/java/org/bladerunnerjs/plugin/plugins/require/ServiceDataSerializer.java:91-104 | The index of the first alias, in list order, that serves the service. `None` exactly when no alias does. |
| ServiceData.ResolveService | plugins/brjs-plugins/src/main/java/org/bladerunnerjs/plugin/plugins/require/ServiceDataSerializer.java:89-106 | No module exactly when no alias serves the service. Otherwise the result is the first matching module of the first serving alias in list order. |
| ServiceData.ServiceDependencies | plugins/brjs-plugins/src/main/java/org/bladerunnerjs/plugin/plugins/require/ServiceDataSerializer.java:73-81 | A suffix is listed iff `service!` plus that suffix is a dependent asset's path. The list is never longer than the assets. |
| ServiceData.ServiceDependenciesDistribute | plugins/brjs-plugins/src/main/java/org/bladerunnerjs/plugin/plugins/require/ServiceDataSerializer.java:73-81 | The listing distributes over concatenation, so it keeps the order of the dependent assets. |
| ServiceData.DependenciesText | plugins/brjs-plugins/src/main/java/org/bladerunnerjs/plugin/plugins/require/ServiceDataSerializer.java:83-86 | Empty exactly when there are no service dependencies, so an empty list renders `[]`. Otherwise it starts with a newline and ends with a newline and two tabs. |
| ServiceData.Quoted | plugins/brjs-plugins/src/main/java/org/bladerunnerjs/plugin/plugins/require/ServiceDataSerializer.java:80 | Each suffix is quoted and indented by three tabs. |
| ServiceData.EntryFor | plugins/brjs-plugins/src/main/java/org/bladerunnerjs/plugin/plugins/require/ServiceDataSerializer.java:33-64 | No entry exactly when the asset is skipped or no alias serves it. An entry is keyed by the asset's path, names the resolved module, and lists its service dependencies. An error reading those dependencies is passed on. |
| ServiceData.Collect | plugins/brjs-plugins/src/main/java/org/bladerunnerjs/plugin/plugins/require/ServiceDataSerializer.java:30-45 | Succeeds iff every asset's outcome does, otherwise fails with the first failure. On success, an entry is in the result iff some outcome writes it, and there are at most as many entries as outcomes. Order and multiplicity are fixed by `CollectDistribute` and `OneOutcome`. |
| ServiceData.OneOutcome | plugins/brjs-plugins/src/main/java/org/bladerunnerjs/plugin/plugins/require/ServiceDataSerializer.java:39-43 | One outcome gives its entry, nothing when the asset writes none, or its failure. |
| ServiceData.CollectDistribute | plugins/brjs-plugins/src/main/java/org/bladerunnerjs/plugin/plugins/require/ServiceDataSerializer.java:30-45 | Collecting concatenated outcomes succeeds iff both parts do, and gives the parts' entries in order. With `OneOutcome`, this fixes the result to one entry per written outcome, in outcome order. |
| ServiceData.Entries | plugins/brjs-plugins/src/main/java/org/bladerunnerjs/plugin/plugins/require/ServiceDataSerializer.java:29-45 | The service assets' entries, or the first failure. On success, an entry is in the result iff some asset writes it, and there are at most as many entries as assets. Order and multiplicity are fixed by `EntriesDistribute` and `EntriesOfOneAsset`. |
| ServiceData.EntriesDistribute | plugins/brjs-plugins/src/main/java/org/bladerunnerjs/plugin/plugins/require/ServiceDataSerializer.java:30-44 | The entries of concatenated asset lists are the two lists' entries in `serviceAssets` order, and they succeed iff both parts do. |
| ServiceData.EntriesOfOneAsset | plugins/brjs-plugins/src/main/java/org/bladerunnerjs/plugin/plugins/require/ServiceDataSerializer.java:32-43 | One asset gives its entry, nothing when it writes none, or its failure. |
| ServiceData.EntriesMatchWrittenAssets | plugins/brjs-plugins/src/main/java/org/bladerunnerjs/plugin/plugins/require/ServiceDataSerializer.java:31-45 | There are no entries iff no service asset is written. Every written asset has an entry under its own path. |
| ServiceData.EntryText | plugins/brjs-plugins/src/main/java/org/bladerunnerjs/plugin/plugins/require/ServiceDataSerializer.java:58-63 | An entry starts with its tab-indented quoted key and `: {`, and ends with `]`, a newline, a tab and `}`. |
| ServiceData.AccumulatedIsJoinPlusSeparator | plugins/brjs-plugins/src/main/java/org/bladerunnerjs/plugin/plugins/require/ServiceDataSerializer.java:41-44 | Appending each entry and then `,\n` builds the entries joined by `,\n`, plus one final `,\n`. |
| ServiceData.StripFinalSeparator | plugins/brjs-plugins/src/main/java/org/bladerunnerjs/plugin/plugins/require/ServiceDataSerializer.java:46-48 | Cutting the separator's length off the buffer leaves exactly the joined entries. |
| ServiceData.AccumulatedEmptyIff | plugins/brjs-plugins/src/main/java/org/bladerunnerjs/plugin/plugins/require/ServiceDataSerializer.java:46 | The buffer is empty exactly when no entry was written. |
| ServiceData.AccumulatedAppend | plugins/brjs-plugins/src/main/java/org/bladerunnerjs/plugin/plugins/require/ServiceDataSerializer.java:41-44 | One more entry appends its text and one separator. |
| ServiceData.FillBuffer | plugins/brjs-plugins/src/main/java/org/bladerunnerjs/plugin/plugins/require/ServiceDataSerializer.java:30-45 | The loop over the entries builds the accumulated buffer. |
| ServiceData.CreateJson | plugins/brjs-plugins/src/main/java/org/bladerunnerjs/plugin/plugins/require/ServiceDataSerializer.java:23-51 | On success the output is `{ }` when there are no entries, else `{\n`, the entries joined by `,\n`, and `\n}`. Otherwise it is the first failure. |
| ServiceData.DocumentEmptyIff | plugins/brjs-plugins/src/main/java/org/bladerunnerjs/plugin/plugins/require/ServiceDataSerializer.java:46-50 | The document is `{ }` exactly when there are no entries. |
| ServiceData.EmptyDocumentIffNothingWritten | plugins/brjs-plugins/src/main/java/org/bladerunnerjs/plugin/plugins/require/ServiceDataSerializer.java:30-50 | The output is `{ }` exactly when no service asset writes an entry. |
| NamedNodeLocator.FilteredName | brjs-core/src/main/java/org/bladerunnerjs/model/engine/DirectoryContentsNamedNodeLocator.java:77-89 | A null filter keeps the name. `^p` prepends `p`. Otherwise `s$` appends `s`, and any other filter keeps the name. |
| NamedNodeLocator.GetDirName | brjs-core/src/main/java/org/bladerunnerjs/model/engine/DirectoryContentsNamedNodeLocator.java:74-92 | A sub-directory gives `subDirPath/` plus the filtered name. Without a filter and sub-directory the name is unchanged. |
| NamedNodeLocator.GetDirNameMatcher | brjs-core/src/main/java/org/bladerunnerjs/model/engine/DirectoryContentsNamedNodeLocator.java:94-104 | Null exactly for a null filter. Otherwise `filter.*` for a `^` filter, else `.*filter`. |
| NamedNodeLocator.CouldSupportLogicalNodeName | brjs-core/src/main/java/org/bladerunnerjs/model/engine/DirectoryContentsNamedNodeLocator.java:68-72 | Every logical name could be supported. |
| NamedNodeLocator.ListNames | brjs-core/src/main/java/org/bladerunnerjs/model/engine/DirectoryContentsNamedNodeLocator.java:45-62 | A name is listed iff some entry is a directory that: matches the name matcher; passes the contents filter; misses the exclude matcher. The listed name is that entry's name with the filter removed, in listing order. |
| NamedNodeLocator.ListNamesDistribute | brjs-core/src/main/java/org/bladerunnerjs/model/engine/DirectoryContentsNamedNodeLocator.java:45-62 | The listing distributes over concatenation, so listing order is kept. |
| NamedNodeLocator.GetLogicalNodeNames | brjs-core/src/main/java/org/bladerunnerjs/model/engine/DirectoryContentsNamedNodeLocator.java:33-66 | A missing child directory gives an empty list. Otherwise the names of the kept directories are listed, as above. |
| NamedNodeLocator.AnchorOf | brjs-core/src/main/java/org/bladerunnerjs/model/engine/DirectoryContentsNamedNodeLocator.java:81-88 | Reads a literal `^p` filter as a leading anchor and a literal `s$` filter as a trailing one, with `^` taking precedence as in `getDirName`. |
| NamedNodeLocator.MatcherKeepsAnchor | brjs-core/src/main/java/org/bladerunnerjs/model/engine/DirectoryContentsNamedNodeLocator.java:100 | The matcher built from an anchored literal filter has the same anchor. |
| NamedNodeLocator.DirNameRoundTrip | brjs-core/src/main/java/org/bladerunnerjs/model/engine/DirectoryContentsNamedNodeLocator.java:54-57 | The directory name made from a logical name matches the filter's matcher. Removing the filter from it gives the logical name back. |
| NamedNodeLocator.ListedNameRoundTrip | brjs-core/src/main/java/org/bladerunnerjs/model/engine/DirectoryContentsNamedNodeLocator.java:49-57 | For a directory that matches, the directory name of its listed logical name is the directory itself. |
| NamedNodeLocator.ListedNamesLeadBackToDirectories | brjs-core/src/main/java/org/bladerunnerjs/model/engine/DirectoryContentsNamedNodeLocator.java:44-60 | Every listed logical name maps back, through `getDirName`, to a listed directory. |
| NamedNodeLocator.DirectoryOfNameIsListed | brjs-core/src/main/java/org/bladerunnerjs/model/engine/DirectoryContentsNamedNodeLocator.java:44-60 | A logical name whose directory exists and is accepted is listed. |
| NamedNodeLocator.BladesetDirectoryName | brjs-core-tests/src/test/java/org/bladerunnerjs/spec/model/BladesetTest.java:44-47 | Under the `-bladeset$` filter, bladeset `bs` lives in directory `bs-bladeset`. |
| TestRunnerConfig.Lookup | brjs-legacy/src/main/java/org/bladerunnerjs/legacy/conf/TestRunnerConfiguration.java:154 | `Map.get` finds a value exactly for a key of the map, and in a proper map that value is the key's. |
| TestRunnerConfig.GetBrowserPathsForOS | brjs-legacy/src/main/java/org/bladerunnerjs/legacy/conf/TestRunnerConfiguration.java:67-77 | Gives the operating system's paths, or `NoBrowsersDefined` exactly when the OS has no entry. |
| TestRunnerConfig.AddAllBrowsers | brjs-legacy/src/main/java/org/bladerunnerjs/legacy/conf/TestRunnerConfiguration.java:140-144 | Every path of the map, one per entry, in iteration order. |
| TestRunnerConfig.TrimmedNames | brjs-legacy/src/main/java/org/bladerunnerjs/legacy/conf/TestRunnerConfiguration.java:147-148 | Each command-line name, trimmed. |
| TestRunnerConfig.SelectedPaths | brjs-legacy/src/main/java/org/bladerunnerjs/legacy/conf/TestRunnerConfiguration.java:146-157 | A path is added iff some name is a key of the map other than `none`. Empty exactly when no name selects. |
| TestRunnerConfig.AddBrowsersFromArguments | brjs-legacy/src/main/java/org/bladerunnerjs/legacy/conf/TestRunnerConfiguration.java:146-157 | As above for the trimmed names. Every added path is a real one, and unknown names and `none` add nothing. |
| TestRunnerConfig.ArgumentsDistribute | brjs-legacy/src/main/java/org/bladerunnerjs/legacy/conf/TestRunnerConfiguration.java:147-156 | Selection distributes over the argument list, so argument order is kept. |
| TestRunnerConfig.AddDefaultBrowser | brjs-legacy/src/main/java/org/bladerunnerjs/legacy/conf/TestRunnerConfiguration.java:159-163 | The default's path is added only when nothing was added and the untrimmed first name is not `none`. |
| TestRunnerConfig.GetBrowsers | brjs-legacy/src/main/java/org/bladerunnerjs/legacy/conf/TestRunnerConfiguration.java:51-65 | Fails exactly when the operating system has no paths. |
| TestRunnerConfig.AllGivesEveryPath | brjs-legacy/src/main/java/org/bladerunnerjs/legacy/conf/TestRunnerConfiguration.java:56-57 | Exactly `["ALL"]` gives every path of the OS map and no default. |
| TestRunnerConfig.SelectedNamesExcludeDefault | brjs-legacy/src/main/java/org/bladerunnerjs/legacy/conf/TestRunnerConfiguration.java:59-62 | When some name selects a browser, the result is the selected paths and nothing else. |
| TestRunnerConfig.NoSelectionGivesDefaultOrNothing | brjs-legacy/src/main/java/org/bladerunnerjs/legacy/conf/TestRunnerConfiguration.java:159-163 | With no selecting name, the result is the default's path, or nothing when the first name is `none`. |
| TestRunnerConfig.EmptyResultIff | brjs-legacy/src/main/java/org/bladerunnerjs/legacy/conf/TestRunnerConfiguration.java:51-65 | No browser exactly for `["ALL"]` over an empty map, or when no name selects and the first name is `none`. |
| LocaleUtility.NormaliseLocale | brjs-sdk/sdk/libs/javascript/br-locale-utility/LocaleUtility.js:36-39 | Only the first `-` becomes `_`, and the length is kept. |
| LocaleUtility.UserLanguageKeepsTwoSubtags | brjs-sdk/sdk/libs/javascript/br-locale-utility/LocaleUtility.js:29-30 | `lang-region[-more]` becomes `lang-REGION`, and a name without `-` is kept. |
| LocaleUtility.GetBrowserAcceptedLocales | brjs-sdk/sdk/libs/javascript/br-locale-utility/LocaleUtility.js:19-42 | The source is `navigator.languages`, else `navigator.language`, else the `userLanguage` fallback. Each element is normalised. |
| LocaleUtility.FirstMatchIndex | brjs-sdk/sdk/libs/javascript/br-locale-utility/LocaleUtility.js:74-81 | The index of the first accepted locale with a truthy supported entry, or `None` exactly when there is none. |
| LocaleUtility.GetFirstMatchingLocale | brjs-sdk/sdk/libs/javascript/br-locale-utility/LocaleUtility.js:71-84 | The earliest supported accepted locale, or `undefined` exactly when none is supported. |
| LocaleUtility.GetActiveLocale | brjs-sdk/sdk/libs/javascript/br-locale-utility/LocaleUtility.js:86-107 | A supported preference is returned as is. Otherwise a non-empty first matching accepted locale is returned. When there is no match, or the match is the falsy empty string, the first key of the supported object is returned. The result is `undefined` exactly when the object is empty. |
| LocaleUtility.NoMatchFallsBackToFirstKey | brjs-sdk/sdk/libs/javascript/br-locale-utility/LocaleUtility.js:95-101 | With the preference unsupported and no accepted locale supported, the first key of a non-empty object is chosen, whatever its flag. |
| LocaleUtility.EmptyMatchFallsThrough | brjs-sdk/sdk/libs/javascript/br-locale-utility/LocaleUtility.js:95-101 | A first match that is the empty string is falsy. It is passed over for the first key, even when a later accepted locale is supported. |
| LocaleUtility.FirstAcceptedMatchWins | brjs-sdk/sdk/libs/javascript/br-locale-utility/LocaleUtility.js:92-97 | With the preference unsupported, the first supported non-empty accepted locale is chosen. |
| LocaleUtility.ActiveLocaleIsAKey | brjs-sdk/sdk/libs/javascript/br-locale-utility/LocaleUtility.js:86-107 | The active locale is a key of the supported object, or `undefined` exactly when the object has no keys. |
| LocaleUtility.UndefinedPreferenceLooksUpItsName | brjs-sdk/sdk/libs/javascript/br-locale-utility/LocaleUtility.js:89-90 | An `undefined` preference is looked up under the key `"undefined"`. |
| LocaleUtility.StripLeadingSpacesRemovesSpaces | brjs-sdk/sdk/libs/javascript/br-locale-utility/LocaleUtility.js:49-51 | The loop removes a run of leading spaces and nothing else, leaving no leading space. |
| LocaleUtility.StrippedSegments | brjs-sdk/sdk/libs/javascript/br-locale-utility/LocaleUtility.js:46-51 | One stripped segment per `;`-separated segment. |
| LocaleUtility.FirstCookieIndex | brjs-sdk/sdk/libs/javascript/br-locale-utility/LocaleUtility.js:47-56 | The first segment starting with `name=`, or `None` exactly when no segment does. |
| LocaleUtility.GetCookie | brjs-sdk/sdk/libs/javascript/br-locale-utility/LocaleUtility.js:44-58 | `null` exactly when no stripped segment starts with `name=`. Otherwise the rest of the first such segment. |
| LocaleUtility.CookieNamePrefix | brjs-sdk/sdk/libs/javascript/br-locale-utility/LocaleUtility.js:53 | A stored `k=v` segment starts with `name=` iff `k` is `name`. |
| LocaleUtility.StrippedCookieSegments | brjs-sdk/sdk/libs/javascript/br-locale-utility/LocaleUtility.js:46-51 | Splitting a `k1=v1; k2=v2` cookie string and stripping spaces gives back the stored segments. |
| LocaleUtility.CookieRoundTrip | brjs-sdk/sdk/libs/javascript/br-locale-utility/LocaleUtility.js:44-58 | Reading a cookie string back gives each stored name its own value. |
| LocaleUtility.SlashedPath | brjs-sdk/sdk/libs/javascript/br-locale-utility/LocaleUtility.js:123-124 | The path gets a leading and a trailing `/`, adding at most two characters. A path that already has both is unchanged. |
| LocaleUtility.GetLocalizedPageUrl | brjs-sdk/sdk/libs/javascript/br-locale-utility/LocaleUtility.js:113-135 | The page `dir/file.html` (any cut into a directory ending `/` and a slash-free file name ending `.html`) becomes protocol, `//`, host, `dir/locale/file.html`, query and fragment. A path not ending `.html/` gets `locale/` appended instead. |
| LocaleUtility.HtmlPageLocalized | brjs-sdk/sdk/libs/javascript/br-locale-utility/LocaleUtility.js:126-131 | Every cut of a page path into a directory ending `/` and a file name ending `.html` localizes to `dir/locale/file.html`. |
| LocaleUtility.LastSegmentOf | brjs-sdk/sdk/libs/javascript/br-locale-utility/LocaleUtility.js:126-128 | A slash-free name after a directory ending in `/` is the path's last segment, so the cut is unique. |
| LocaleUtility.HtmlPageGetsLocaleDirectory | brjs-sdk/sdk/libs/javascript/br-locale-utility/LocaleUtility.js:126-131 | A path `dir/file.html/` becomes `dir/locale/file.html`. |
| LocaleUtility.LastSegmentsOfSlashEnded | brjs-sdk/sdk/libs/javascript/br-locale-utility/LocaleUtility.js:127-128 | Splitting such a path gives at least three segments, of which the popped last one is empty. |
| IsoDateValidator.MonthLength | brjs-sdk/sdk/libs/javascript/br-validation/src/ISODateValidator.js:51-53 | Months have 28 to 31 days, and 29 exactly for February of a Gregorian leap year. |
| IsoDateValidator.ConstructorYear | brjs-sdk/sdk/libs/javascript/br-validation/src/ISODateValidator.js:51 | The `Date` constructor takes years 0–99 as 1900–1999 and keeps every other year. |
| IsoDateValidator.CarryDays | brjs-sdk/sdk/libs/javascript/br-validation/src/ISODateValidator.js:51-53 | Carrying days month by month always ends at a real calendar day. It never goes back a year from a positive day, and it keeps a real day unchanged. |
| IsoDateValidator.NewDate | brjs-sdk/sdk/libs/javascript/br-validation/src/ISODateValidator.js:51 | The date read back is a real calendar day. For a non-negative month and positive day it is no earlier than the constructor's year. |
| IsoDateValidator.RoundTripIsCalendarDate | brjs-sdk/sdk/libs/javascript/br-validation/src/ISODateValidator.js:46-55 | The round trip keeps year, month and day exactly for a calendar date whose year is not in 0–99. |
| IsoDateValidator.NumberOfFormat | brjs-sdk/sdk/libs/javascript/br-validation/src/ISODateValidator.js:46-48 | `Number` of a zero-padded numeral gives the number back. |
| IsoDateValidator.FormatOfNumber | brjs-sdk/sdk/libs/javascript/br-validation/src/ISODateValidator.js:46-48 | Zero-padding the `Number` of a digit string gives the string back. |
| IsoDateValidator.MatchDate | brjs-sdk/sdk/libs/javascript/br-validation/src/ISODateValidator.js:38-44 | Matches exactly the extended and basic shapes. The groups are four, two and two digits, and they reassemble the string. |
| IsoDateValidator.Validate | brjs-sdk/sdk/libs/javascript/br-validation/src/ISODateValidator.js:29-61 | Unset or empty is valid, with the null/undefined/empty message. A valid value carries no message, and any other value carries the invalid-format message. A value without `match` is invalid. Only the two shapes can be valid. |
| IsoDateValidator.ShapedStringValidity | brjs-sdk/sdk/libs/javascript/br-validation/src/ISODateValidator.js:44-56 | A well-shaped string is valid iff its groups name a calendar date with year at least 100. |
| IsoDateValidator.IsoDateIsValid | brjs-sdk/sdk/libs/javascript/br-validation/src/ISODateValidator.js:38-56 | Every ISO 8601 date from year 100 to 9999, written in either form, is valid. |
| IsoDateValidator.ValidIsIsoDate | brjs-sdk/sdk/libs/javascript/br-validation/src/ISODateValidator.js:38-56 | Every valid non-empty string is such a date. |
| IsoDateValidator.ValidIffIsoDate | brjs-sdk/sdk/libs/javascript/br-validation/src/ISODateValidator.js:29-61 | A value is valid iff it is unset or empty, or an ISO 8601 calendar date of year 100 to 9999. |
| IsoDateValidator.IsValidIsoDate | brjs-sdk/sdk/libs/javascript/br-validation/src/ISODateValidator.js:68-73 | `isValidISODate` holds exactly for unset or empty values and ISO 8601 calendar dates. |

## Left out

- Logging, `sourceFilePaths` formatting and the debug messages of `BundleSetBuilder` are not modelled. They have no effect on the result.
- BundleSetBuilder: `activeAliases` is a `LinkedHashSet` of `AliasDefinition`, which does not override `equals(Object)` or `hashCode`. Java therefore removes duplicates by object identity, while the model removes them by value. This assumes the alias store hands out one object per alias name.
- BundleSetBuilder: the environment is a closed, finite universe. Every dependency, seed resource, dependent location and resolved path is an asset or location of the node. This is what gives the traversal a termination measure.
- BundleSetBuilder.BuildIsClosed: proves completeness only, meaning every reachable item is collected. It does not prove the converse, that everything collected is reachable from the seeds.
- `BundleSet` is reduced to its lists. `BundleSet.assets` prefix lookup and `sourceModules(Class)` are inputs of the serializer's view (`assetsWithPrefix`, `aliasModules`).
- Aliasing.Equals: an alias with a null `name` is not modelled, because alias names are never null. On such an alias, `equals` would throw at its first dereference. A null argument to `equals` is not modelled either, because a datatype value cannot be null. That call would throw as well.
- ServiceData: the require path of `ServiceDataSourceModule` (`PRIMARY_REQUIRE_PATH`) is a parameter, because that class is not part of this model.
- ServiceData.ResolveService: the `getRequirePath() != null` test always holds, because `AliasDefinition.getRequirePath` never returns null. It is therefore left out.
- DependencyGraph.CreateGraph: the `HashMap` is a Dafny `map`. Iteration over the `Set` of modules is taken in the given sequence order, which only matters for which error is reported first.
- Regular expressions are not modelled in general.
  - `extendPattern` is a hand-written matcher.
  - Directory filters are modelled only as literal `^p` and `s$` anchors (`LiteralEngine`), over names without line terminators. Java's `$` also matches before a final line terminator, and that case is not modelled.
  - The same `$` caveat applies to the `.js` suffix removal in `NamespacedJs.RelativeRequirePath` (`replaceAll("\\.js$", "")`). A relative path ending in `.js` followed by a line terminator also loses its `.js` in Java; the model keeps such a path unchanged.
  - Any other filter is an input `RegexEngine`.
- NamedNodeLocator.BladesetDirectoryName: the `-bladeset$` filter value is inferred from the bladeset test's expectation. The class that configures it is not part of this model.
- File-system access is not modelled: `childDir.exists()`, `MemoizedFile` and the contents filter become inputs. Nor is reading a file, or relativising its URI, in `NamespacedJsSourceModule`.
- TestRunnerConfiguration: YAML loading, `FileUtils.getOS`, the jar path and port settings are not modelled. `browserPaths` and `operatingSystem` are inputs.
- TestRunnerConfig: Java maps are association lists in iteration order. A configuration value that is itself `null` is not modelled; paths are strings.
- `LocaleUtility.setCookie` (clock and `document` writes) and `getWindowUrl` are not modelled. `navigator`, `document.cookie` and the anchor element's URL parsing are inputs.
- LocaleUtility: a supported-locales object is its own keys in `for…in` order. Prototype-inherited enumerable properties are not modelled, nor is the engine's ordering of integer-like keys.
- LocaleUtility.GetBrowserAcceptedLocales: the normalised values are written back into `navigator.languages` in place, at line 38 of `LocaleUtility.js`. That write into the browser's array is not modelled, nor is the `TypeError` strict mode would raise if the array is read-only. The model returns the normalised list only.
- LocaleUtility.UserLanguageLocale: `toUpperCase` is modelled for ASCII letters only. Non-ASCII case mapping is not modelled.
- IsoDateValidator: the `i18n` lookup and `ValidationResult` are replaced by message tags and a result value.
- IsoDateValidator.NewDate: the `Date` round trip is modelled as calendar arithmetic on the proleptic Gregorian calendar. Local time zones and daylight-saving shifts are not modelled. The time-value range limit of about 275,760 years is not modelled either; four-digit years never reach it.
- Java `String.matches`/`replaceAll` for other patterns, and JavaScript regular expressions in general, are not modelled. Only the fixed patterns above are.

=== FILE: aliasing.dfy ===
/** `AliasDefinition`: an alias name bound to a class name and an optional
    interface name. Java `null` is `None`; the name itself is never null for an
    alias read from an alias file, so it is a plain string here. */
module Aliasing {
  import opened Wrappers
  import opened Strings

  /** The require path of an alias declared without a class. */
  const UnknownClassRequirePath: string := "br/UnknownClass"

  datatype AliasDefinition = AliasDefinition(name: string, className: Option<string>, interfaceName: Option<string>)

  /** The `NullPointerException` `equals` throws when it dereferences a null field. */
  datatype NullPointer = NullPointer

  /** Class names become require paths by turning every `.` into `/`. */
  function DotsToSlashes(s: string): (r: string)
    ensures |r| == |s| && '.' !in r
    ensures forall i :: 0 <= i < |s| ==> r[i] == if s[i] == '.' then '/' else s[i]
  {
    ReplaceChar(s, '.', '/')
  }

  /** A class name without dots is its own require path. */
  lemma UndottedClassNameIsRequirePath(s: string)
    requires '.' !in s
    ensures DotsToSlashes(s) == s
  {
    assert forall i :: 0 <= i < |s| ==> s[i] != '.';
  }

  /** The constructor stores its three arguments and the accessors hand them back. */
  lemma AccessorsReturnConstructorArguments(name: string, className: Option<string>, interfaceName: Option<string>)
    ensures AliasDefinition(name, className, interfaceName).name == name
    ensures AliasDefinition(name, className, interfaceName).className == className
    ensures AliasDefinition(name, className, interfaceName).interfaceName == interfaceName
  {
  }

  /** `getRequirePath`: the sentinel for a missing class, the slash form otherwise. */
  function RequirePath(a: AliasDefinition): (r: string)
    ensures a.className.None? ==> r == UnknownClassRequirePath
    ensures a.className.Some? ==> |r| == |a.className.value| && '.' !in r
    ensures a.className.Some? ==> forall i :: 0 <= i < |r| ==>
      (a.className.value[i] == '.' ==> r[i] == '/') && (a.className.value[i] != '.' ==> r[i] == a.className.value[i])
  {
    match a.className
    case None => UnknownClassRequirePath
    case Some(c) => DotsToSlashes(c)
  }

  /** `getInterfaceRequirePath`: null exactly when the interface name is null. */
  function InterfaceRequirePath(a: AliasDefinition): (r: Option<string>)
    ensures r.None? <==> a.interfaceName.None?
    ensures r.Some? ==> r.value == DotsToSlashes(a.interfaceName.value)
  {
    match a.interfaceName
    case None => None
    case Some(i) => Some(DotsToSlashes(i))
  }

  /** `equals(AliasDefinition)`: Java's `&&` compares name, then class name,
      then interface name, dereferencing this alias's field each time. */
  function Equals(a: AliasDefinition, b: AliasDefinition): (r: Result<bool, NullPointer>)
    ensures a.className.Some? && a.interfaceName.Some? ==> r == Success(a == b)
    ensures r.Failure? <==>
      (a.name == b.name && a.className.None?) ||
      (a.name == b.name && a.className.Some? && a.className == b.className && a.interfaceName.None?)
    ensures r == Success(true) ==> a == b
  {
    if a.name != b.name then Success(false)
    else match a.className
      case None => Failure(NullPointer)
      case Some(c) =>
        if b.className != Some(c) then Success(false)
        else match a.interfaceName
          case None => Failure(NullPointer)
          case Some(i) => Success(b.interfaceName == Some(i))
  }
}

=== FILE: asset_model.dfy ===
/** The abstract vocabulary shared by the resolution and bundling modules:
    asset identities, require-path errors and the causes that the source wraps
    in `ModelOperationException`. */
module AssetModel {

  /** An asset is identified by its asset path (stable within one bundling operation). */
  type AssetId = string

  /** An asset location is identified by its directory path. */
  type LocationId = string

  /** The three `RequirePathException` subclasses a require resolution can throw. */
  datatype RequirePathError =
    | Unresolvable(requirePath: string)
    | Ambiguous(message: string)
    | OutOfBundleScope(requirePath: string, assetPath: AssetId)

  /** What a `ModelOperationException` wraps. */
  datatype Cause =
    | RequirePathFailure(requireError: RequirePathError)
    | AliasFailure(aliasName: string)
    | ContentFileFailure
    | ReadFailure

  /** The errors of building a bundle set: a wrapped cause, or the modules
      left over when ordering made no progress (`CircularDependencyException`). */
  datatype BundlingError =
    | ModelOperation(cause: Cause)
    | CircularDependency(unprocessed: seq<AssetId>)

  /** The well-known library name of the implicit bootstrap dependency. */
  const BootstrapLibName: string := "br-bootstrap"
}

=== FILE: bundle_set_builder.dfy ===
/** `BundleSetBuilder`: the traversal that discovers a bundle's source
    modules, test modules, linked assets, asset locations and active aliases
    from its seeds, and `createBundleSet`, which resolves the active aliases
    and orders the modules. */
module BundleSetBuilder {
  import opened Wrappers
  import opened AssetModel
  import opened Sequences
  import Aliasing
  import Strings
  import Ordering

  /** What the bundlable node knows about one asset. */
  datatype AssetInfo = AssetInfo(
    dependencies: Result<seq<AssetId>, Cause>,
    aliasNames: seq<string>,
    location: LocationId,
    orderDependencies: Result<seq<AssetId>, Cause>)

  /** What the bundlable node knows about one asset location. */
  datatype LocationInfo = LocationInfo(seedResources: seq<AssetId>, dependentLocations: seq<LocationId>)

  /** The bundlable node: its assets and locations, `getSourceModule` and `getAlias`. */
  datatype Env = Env(
    assets: map<AssetId, AssetInfo>,
    locations: map<LocationId, LocationInfo>,
    resolve: string -> Result<AssetId, RequirePathError>,
    getAlias: string -> Result<Option<Aliasing.AliasDefinition>, Cause>)

  /** Every identity the node hands out is one of its own assets or locations. */
  ghost predicate WellFormed(env: Env) {
    (forall a :: a in env.assets ==> env.assets[a].location in env.locations)
    && (forall a :: a in env.assets && env.assets[a].dependencies.Success? ==>
          forall d :: d in env.assets[a].dependencies.value ==> d in env.assets)
    && (forall l :: l in env.locations ==> forall s :: s in env.locations[l].seedResources ==> s in env.assets)
    && (forall l :: l in env.locations ==>
          forall k :: k in env.locations[l].dependentLocations ==> k in env.locations)
    && (forall p :: env.resolve(p).Success? ==> env.resolve(p).value in env.assets)
  }

  /** The builder's fields. The `LinkedHashSet`s are duplicate-free sequences. */
  datatype BuilderState = BuilderState(
    sourceModules: seq<AssetId>,
    testSourceModules: seq<AssetId>,
    activeAliases: seq<Aliasing.AliasDefinition>,
    linkedAssets: set<AssetId>,
    assetLocations: seq<LocationId>)

  const Empty := BuilderState([], [], [], {}, [])

  predicate Valid(st: BuilderState) {
    NoDuplicates(st.sourceModules) && NoDuplicates(st.testSourceModules)
    && NoDuplicates(st.activeAliases) && NoDuplicates(st.assetLocations)
  }

  /** How much of the node is still unvisited: the termination measure. */
  function Unvisited(env: Env, st: BuilderState): nat {
    |env.assets.Keys - st.linkedAssets| + |env.assets.Keys - Elems(st.sourceModules)|
    + |env.assets.Keys - Elems(st.testSourceModules)| + |env.locations.Keys - Elems(st.assetLocations)|
  }

  /** `addBootstrapToDependencies`: the bootstrap module goes last, and only
      when there are other dependencies and it resolves. */
  function AddBootstrapToDependencies(deps: seq<AssetId>, bootstrap: Result<AssetId, RequirePathError>): (r: seq<AssetId>)
    ensures deps <= r
    ensures |r| == |deps| + 1 <==> deps != [] && bootstrap.Success?
    ensures |r| != |deps| + 1 ==> r == deps
    ensures |r| == |deps| + 1 ==> r[|deps|] == bootstrap.value
  {
    if deps != [] && bootstrap.Success? then deps + [bootstrap.value] else deps
  }

  /** `getDependentSourceModules`. */
  function DependentSourceModules(env: Env, a: AssetId): (r: Result<seq<AssetId>, Cause>)
    requires a in env.assets
    ensures r.Success? <==> env.assets[a].dependencies.Success?
    ensures r.Failure? ==> r.error == env.assets[a].dependencies.error
    ensures r.Success? ==> r.value == AddBootstrapToDependencies(env.assets[a].dependencies.value, env.resolve(BootstrapLibName))
  {
    match env.assets[a].dependencies
    case Failure(e) => Failure(e)
    case Success(ds) => Success(AddBootstrapToDependencies(ds, env.resolve(BootstrapLibName)))
  }

  /** `getAliases`: look each name up in order, skip the ones with no
      definition, and abort on the first alias or content-file error. */
  function GetAliases(env: Env, names: seq<string>): (r: Result<seq<Aliasing.AliasDefinition>, Cause>)
    ensures r.Success? <==> forall i :: 0 <= i < |names| ==> env.getAlias(names[i]).Success?
    ensures r.Failure? ==> exists i :: (0 <= i < |names| && env.getAlias(names[i]) == Failure(r.error)
      && forall k :: 0 <= k < i ==> env.getAlias(names[k]).Success?)
    ensures r.Success? ==> forall al :: al in r.value <==>
      exists i :: 0 <= i < |names| && env.getAlias(names[i]) == Success(Some(al))
    ensures r.Success? ==> |r.value| <= |names|
    decreases |names|
  {
    if names == [] then Success([])
    else
      match env.getAlias(names[0])
      case Failure(e) => Failure(e)
      case Success(found) =>
        match GetAliases(env, names[1..])
        case Failure(e) => Failure(e)
        case Success(rest) =>
          assert forall i :: 1 <= i < |names| ==> names[i] == names[1..][i - 1];
          Success(if found.Some? then [found.value] + rest else rest)
  }

  /** One name: its definition, nothing for a null lookup, or the lookup's error. */
  lemma OneAliasLookup(env: Env, n: string)
    ensures env.getAlias(n).Failure? ==> GetAliases(env, [n]) == Failure(env.getAlias(n).error)
    ensures env.getAlias(n) == Success(None) ==> GetAliases(env, [n]) == Success([])
    ensures env.getAlias(n).Success? && env.getAlias(n).value.Some? ==>
      GetAliases(env, [n]) == Success([env.getAlias(n).value.value])
  {
    assert [n][1..] == [];
    if env.getAlias(n).Success? && env.getAlias(n).value.Some? {
      var al := env.getAlias(n).value.value;
      assert [al] + [] == [al];
    }
  }

  /** The lookups of a concatenation are the lookups of its parts, in order:
      together with `OneAliasLookup` this pins the result to the non-null
      definitions in name order, one per name. */
  lemma {:induction false} GetAliasesDistribute(env: Env, a: seq<string>, b: seq<string>)
    ensures GetAliases(env, a + b).Success? <==> GetAliases(env, a).Success? && GetAliases(env, b).Success?
    ensures GetAliases(env, a + b).Success? ==>
      GetAliases(env, a + b).value == GetAliases(env, a).value + GetAliases(env, b).value
    decreases |a|
  {
    if a == [] {
      assert a + b == b;
    } else {
      assert (a + b)[0] == a[0] && (a + b)[1..] == a[1..] + b;
      GetAliasesDistribute(env, a[1..], b);
      if GetAliases(env, a + b).Success? {
        var found := env.getAlias(a[0]).value;
        var x, y := GetAliases(env, a[1..]).value, GetAliases(env, b).value;
        var head: seq<Aliasing.AliasDefinition> := if found.Some? then [found.value] else [];
        assert GetAliases(env, a + b).value == head + (x + y);
        assert GetAliases(env, a).value == head + x;
        Strings.AppendAssoc(head, x, y);
      }
    }
  }

  function AddAliases(st: BuilderState, aliases: seq<Aliasing.AliasDefinition>): BuilderState {
    st.(activeAliases := AddAllUnique(st.activeAliases, aliases))
  }

  // ---------------------------------------------------------------------------
  // Completeness of the items the traversal has visited
  // ---------------------------------------------------------------------------

  /** A processed linked asset: its dependencies are source modules, its
      aliases are active and its location is visited. */
  predicate LinkedComplete(env: Env, st: BuilderState, a: AssetId) {
    a in env.assets
    && DepsCovered(env, env.assets[a].dependencies, st.sourceModules)
    && AliasesActive(env, env.assets[a].aliasNames, st.activeAliases)
    && env.assets[a].location in st.assetLocations
  }

  /** The dependencies were read, and they and (when there are any) the
      resolvable bootstrap module are all among `modules`. */
  predicate DepsCovered(env: Env, deps: Result<seq<AssetId>, Cause>, modules: seq<AssetId>) {
    deps.Success?
    && (forall d :: d in deps.value ==> d in modules)
    && (deps.value != [] && env.resolve(BootstrapLibName).Success? ==> env.resolve(BootstrapLibName).value in modules)
  }

  /** Every alias name could be looked up, and each one that has a definition is active. */
  predicate AliasesActive(env: Env, names: seq<string>, active: seq<Aliasing.AliasDefinition>) {
    forall i :: 0 <= i < |names| ==>
      env.getAlias(names[i]).Success? && (env.getAlias(names[i]).value.Some? ==> env.getAlias(names[i]).value.value in active)
  }

  /** A processed (test) source module: its aliases are active and it has
      been processed as a linked asset. */
  predicate ModuleComplete(env: Env, st: BuilderState, m: AssetId) {
    m in env.assets && m in st.linkedAssets
    && AliasesActive(env, env.assets[m].aliasNames, st.activeAliases)
  }

  /** A visited location: its seed resources and dependent locations are processed. */
  predicate LocationComplete(env: Env, st: BuilderState, l: LocationId) {
    l in env.locations
    && (forall s :: s in env.locations[l].seedResources ==> s in st.linkedAssets)
    && (forall k :: k in env.locations[l].dependentLocations ==> k in st.assetLocations)
  }

  /** Every item added between `st` and `st2` is complete in `st2`. */
  predicate NewComplete(env: Env, st: BuilderState, st2: BuilderState) {
    (forall a {:trigger LinkedComplete(env, st2, a)} :: a in st2.linkedAssets && a !in st.linkedAssets ==> LinkedComplete(env, st2, a))
    && (forall m {:trigger ModuleComplete(env, st2, m)} :: m in st2.sourceModules && m !in st.sourceModules ==> ModuleComplete(env, st2, m))
    && (forall m {:trigger ModuleComplete(env, st2, m)} :: m in st2.testSourceModules && m !in st.testSourceModules ==> ModuleComplete(env, st2, m))
    && (forall l {:trigger LocationComplete(env, st2, l)} :: l in st2.assetLocations && l !in st.assetLocations ==> LocationComplete(env, st2, l))
  }

  /** The fixed point: every visited item is complete. */
  predicate Closed(env: Env, st: BuilderState) {
    NewComplete(env, Empty, st)
  }

  /** Sets only grow, and the insertion-ordered ones keep their order. */
  predicate Grows(st: BuilderState, st2: BuilderState) {
    st.sourceModules <= st2.sourceModules && st.testSourceModules <= st2.testSourceModules
    && st.activeAliases <= st2.activeAliases && st.linkedAssets <= st2.linkedAssets
    && st.assetLocations <= st2.assetLocations
  }

  /** What every traversal step guarantees. */
  predicate Step(env: Env, st: BuilderState, st2: BuilderState) {
    Grows(st, st2) && Unvisited(env, st2) <= Unvisited(env, st) && Valid(st2) && NewComplete(env, st, st2)
  }

  // ---------------------------------------------------------------------------
  // The traversal
  // ---------------------------------------------------------------------------

  /** `addLinkedAsset`. */
  function AddLinkedAsset(env: Env, st: BuilderState, a: AssetId): (r: Result<BuilderState, Cause>)
    requires WellFormed(env) && Valid(st) && a in env.assets
    ensures r.Success? ==> Step(env, st, r.value) && a in r.value.linkedAssets
    ensures r.Success? ==> r.value.testSourceModules == st.testSourceModules
    decreases Unvisited(env, st), 0, 0
  {
    if a in st.linkedAssets then
      StepRefl(env, st);
      Success(st)
    else
      var st1 := st.(linkedAssets := st.linkedAssets + {a});
      LinkedFirst(env, st, a);
      var deps :- DependentSourceModules(env, a);
      DependenciesAreAssets(env, a, deps);
      var aliases :- GetAliases(env, env.assets[a].aliasNames);
      var st2 := AddAliases(st1, aliases);
      AddAliasesStep(env, st1, aliases);
      var st3 :- AddSourceModules(env, st2, deps);
      var st4 :- AddAssetLocation(env, st3, env.assets[a].location);
      StepTrans(env, st2, st3, st4);
      LinkedReady(env, a, deps, aliases, st2, st3, st4);
      LinkedDone(env, st, a, aliases, st2, st4);
      Success(st4)
  }

  /** `addSourceModule`. */
  function AddSourceModule(env: Env, st: BuilderState, m: AssetId): (r: Result<BuilderState, Cause>)
    requires WellFormed(env) && Valid(st) && m in env.assets
    ensures r.Success? ==> Step(env, st, r.value) && m in r.value.sourceModules
    ensures r.Success? ==> r.value.testSourceModules == st.testSourceModules
    decreases Unvisited(env, st), 0, 0
  {
    if m in st.sourceModules then
      StepRefl(env, st);
      Success(st)
    else
      var st1 := st.(sourceModules := AddUnique(st.sourceModules, m));
      SourceFirst(env, st, m);
      var aliases :- GetAliases(env, env.assets[m].aliasNames);
      var st2 := AddAliases(st1, aliases);
      AddAliasesStep(env, st1, aliases);
      var st3 :- AddLinkedAsset(env, st2, m);
      ModuleReady(env, m, aliases, st2, st3);
      SourceDone(env, st, m, aliases, st2, st3);
      Success(st3)
  }

  /** `addTestSourceModule`. */
  function AddTestSourceModule(env: Env, st: BuilderState, m: AssetId): (r: Result<BuilderState, Cause>)
    requires WellFormed(env) && Valid(st) && m in env.assets
    ensures r.Success? ==> Step(env, st, r.value) && m in r.value.testSourceModules
    decreases Unvisited(env, st), 0, 0
  {
    if m in st.testSourceModules then
      StepRefl(env, st);
      Success(st)
    else
      var st1 := st.(testSourceModules := AddUnique(st.testSourceModules, m));
      TestFirst(env, st, m);
      var aliases :- GetAliases(env, env.assets[m].aliasNames);
      var st2 := AddAliases(st1, aliases);
      AddAliasesStep(env, st1, aliases);
      var st3 :- AddLinkedAsset(env, st2, m);
      ModuleReady(env, m, aliases, st2, st3);
      TestDone(env, st, m, aliases, st2, st3);
      Success(st3)
  }

  /** `addAssetLocation`. */
  function AddAssetLocation(env: Env, st: BuilderState, l: LocationId): (r: Result<BuilderState, Cause>)
    requires WellFormed(env) && Valid(st) && l in env.locations
    ensures r.Success? ==> Step(env, st, r.value) && l in r.value.assetLocations
    ensures r.Success? ==> r.value.testSourceModules == st.testSourceModules
    decreases Unvisited(env, st), 0, 0
  {
    if l in st.assetLocations then
      StepRefl(env, st);
      Success(st)
    else
      var st1 := st.(assetLocations := AddUnique(st.assetLocations, l));
      LocationFirst(env, st, l);
      var st2 :- AddLinkedAssets(env, st1, env.locations[l].seedResources);
      var st3 :- AddAssetLocations(env, st2, env.locations[l].dependentLocations);
      StepTrans(env, st1, st2, st3);
      LocationReady(env, l, st2, st3);
      LocationDone(env, st, l, st1, st3);
      Success(st3)
  }

  /** The `addLinkedAsset` loop (`addSeedFiles`, a location's seed resources). */
  function AddLinkedAssets(env: Env, st: BuilderState, xs: seq<AssetId>): (r: Result<BuilderState, Cause>)
    requires WellFormed(env) && Valid(st) && forall x :: x in xs ==> x in env.assets
    ensures r.Success? ==> Step(env, st, r.value) && (forall x :: x in xs ==> x in r.value.linkedAssets)
    ensures r.Success? ==> r.value.testSourceModules == st.testSourceModules
    decreases Unvisited(env, st), 1, |xs|
  {
    if xs == [] then
      StepRefl(env, st);
      Success(st)
    else
      var st1 :- AddLinkedAsset(env, st, xs[0]);
      var st2 :- AddLinkedAssets(env, st1, xs[1..]);
      StepTrans(env, st, st1, st2);
      assert forall x :: x in xs ==> x == xs[0] || x in xs[1..];
      Success(st2)
  }

  /** The `addSourceModule` loop over a linked asset's dependencies. */
  function AddSourceModules(env: Env, st: BuilderState, ms: seq<AssetId>): (r: Result<BuilderState, Cause>)
    requires WellFormed(env) && Valid(st) && forall x :: x in ms ==> x in env.assets
    ensures r.Success? ==> Step(env, st, r.value) && (forall x :: x in ms ==> x in r.value.sourceModules)
    ensures r.Success? ==> r.value.testSourceModules == st.testSourceModules
    decreases Unvisited(env, st), 1, |ms|
  {
    if ms == [] then
      StepRefl(env, st);
      Success(st)
    else
      var st1 :- AddSourceModule(env, st, ms[0]);
      var st2 :- AddSourceModules(env, st1, ms[1..]);
      StepTrans(env, st, st1, st2);
      PrefixMembers(st1.sourceModules, st2.sourceModules);
      assert forall x :: x in ms ==> x == ms[0] || x in ms[1..];
      Success(st2)
  }

  /** The `addAssetLocation` loop over a location's dependent locations. */
  function AddAssetLocations(env: Env, st: BuilderState, ls: seq<LocationId>): (r: Result<BuilderState, Cause>)
    requires WellFormed(env) && Valid(st) && forall x :: x in ls ==> x in env.locations
    ensures r.Success? ==> Step(env, st, r.value) && (forall x :: x in ls ==> x in r.value.assetLocations)
    ensures r.Success? ==> r.value.testSourceModules == st.testSourceModules
    decreases Unvisited(env, st), 1, |ls|
  {
    if ls == [] then
      StepRefl(env, st);
      Success(st)
    else
      var st1 :- AddAssetLocation(env, st, ls[0]);
      var st2 :- AddAssetLocations(env, st1, ls[1..]);
      StepTrans(env, st, st1, st2);
      PrefixMembers(st1.assetLocations, st2.assetLocations);
      assert forall x :: x in ls ==> x == ls[0] || x in ls[1..];
      Success(st2)
  }

  /** The `addTestSourceModule` loop of `addTestSourceModules`. */
  function AddTestSourceModules(env: Env, st: BuilderState, ms: seq<AssetId>): (r: Result<BuilderState, Cause>)
    requires WellFormed(env) && Valid(st) && forall x :: x in ms ==> x in env.assets
    ensures r.Success? ==> Step(env, st, r.value) && (forall x :: x in ms ==> x in r.value.testSourceModules)
    decreases |ms|
  {
    if ms == [] then
      StepRefl(env, st);
      Success(st)
    else
      var st1 :- AddTestSourceModule(env, st, ms[0]);
      var st2 :- AddTestSourceModules(env, st1, ms[1..]);
      StepTrans(env, st, st1, st2);
      PrefixMembers(st1.testSourceModules, st2.testSourceModules);
      assert forall x :: x in ms ==> x == ms[0] || x in ms[1..];
      Success(st2)
  }

  /** `addSeedFiles`: a closed state stays closed. */
  function AddSeedFiles(env: Env, st: BuilderState, seeds: seq<AssetId>): (r: Result<BuilderState, Cause>)
    requires WellFormed(env) && Valid(st) && forall x :: x in seeds ==> x in env.assets
    ensures r.Success? ==> Step(env, st, r.value) && (forall x :: x in seeds ==> x in r.value.linkedAssets)
    ensures r.Success? ==> r.value.testSourceModules == st.testSourceModules
    ensures r.Success? && Closed(env, st) ==> Closed(env, r.value)
  {
    match AddLinkedAssets(env, st, seeds)
    case Failure(e) => Failure(e)
    case Success(st2) =>
      ClosedStep(env, st, st2);
      Success(st2)
  }

  /** `addTestSourceModules`: a closed state stays closed. */
  function AddTests(env: Env, st: BuilderState, ms: seq<AssetId>): (r: Result<BuilderState, Cause>)
    requires WellFormed(env) && Valid(st) && forall x :: x in ms ==> x in env.assets
    ensures r.Success? ==> Step(env, st, r.value) && (forall x :: x in ms ==> x in r.value.testSourceModules)
    ensures r.Success? && Closed(env, st) ==> Closed(env, r.value)
  {
    match AddTestSourceModules(env, st, ms)
    case Failure(e) => Failure(e)
    case Success(st2) =>
      ClosedStep(env, st, st2);
      Success(st2)
  }

  // ---------------------------------------------------------------------------
  // Creating the bundle set
  // ---------------------------------------------------------------------------

  /** The bundle set: ordered source modules, test modules, and the active
      aliases and asset locations as they were before the alias targets were added. */
  datatype BundleSet = BundleSet(
    sourceModules: seq<AssetId>,
    testSourceModules: seq<AssetId>,
    activeAliases: seq<Aliasing.AliasDefinition>,
    resourceLocations: seq<LocationId>)

  /** The bundle set together with the builder state it was created from. */
  datatype Created = Created(state: BuilderState, bundleSet: BundleSet)

  /** `getOrderDependentSourceModules`, asked of the node's assets. */
  function OrderDepsOf(env: Env): Ordering.OrderDeps {
    x => if x in env.assets then env.assets[x].orderDependencies else Success([])
  }

  /** The loop of `createBundleSet`: each alias's require path is resolved and
      the module it names is added; a resolution error is wrapped as a model
      operation error, and an error adding the module passes through. */
  function AddAliasTargets(env: Env, st: BuilderState, aliases: seq<Aliasing.AliasDefinition>)
    : (r: Result<BuilderState, BundlingError>)
    requires WellFormed(env) && Valid(st)
    ensures r.Success? ==> Step(env, st, r.value) && r.value.testSourceModules == st.testSourceModules
    ensures r.Success? ==> forall al :: al in aliases ==>
      env.resolve(Aliasing.RequirePath(al)).Success? && env.resolve(Aliasing.RequirePath(al)).value in r.value.sourceModules
    ensures aliases != [] && env.resolve(Aliasing.RequirePath(aliases[0])).Failure? ==>
      r == Failure(ModelOperation(RequirePathFailure(env.resolve(Aliasing.RequirePath(aliases[0])).error)))
    decreases |aliases|
  {
    if aliases == [] then
      StepRefl(env, st);
      Success(st)
    else
      match env.resolve(Aliasing.RequirePath(aliases[0]))
      case Failure(e) => Failure(ModelOperation(RequirePathFailure(e)))
      case Success(m) =>
        match AddSourceModule(env, st, m)
        case Failure(c) => Failure(ModelOperation(c))
        case Success(st1) =>
          match AddAliasTargets(env, st1, aliases[1..])
          case Failure(e) => Failure(e)
          case Success(st2) =>
            StepTrans(env, st, st1, st2);
            PrefixMembers(st1.sourceModules, st2.sourceModules);
            assert forall al :: al in aliases ==> al == aliases[0] || al in aliases[1..];
            Success(st2)
  }

  /** `createBundleSet`. */
  function CreateBundleSet(env: Env, st: BuilderState): (r: Result<Created, BundlingError>)
    requires WellFormed(env) && Valid(st)
    ensures r.Success? ==> r.value.bundleSet.activeAliases == st.activeAliases
    ensures r.Success? ==> r.value.bundleSet.resourceLocations == st.assetLocations
    ensures r.Success? ==> r.value.bundleSet.testSourceModules == st.testSourceModules
    ensures r.Success? ==> Step(env, st, r.value.state)
    ensures r.Success? ==> forall al :: al in st.activeAliases ==>
      env.resolve(Aliasing.RequirePath(al)).Success?
      && env.resolve(Aliasing.RequirePath(al)).value in r.value.bundleSet.sourceModules
    ensures r.Success? ==> forall m :: m in st.sourceModules ==> m in r.value.bundleSet.sourceModules
    ensures r.Success? ==> NoDuplicates(r.value.bundleSet.sourceModules)
    ensures r.Success? ==> (Elems(r.value.bundleSet.sourceModules) ==
      Elems(r.value.state.sourceModules) + Elems(Ordering.Preamble(r.value.state.sourceModules, env.resolve(BootstrapLibName))))
    ensures r.Success? ==> Ordering.DepsOrdered(r.value.bundleSet.sourceModules, OrderDepsOf(env),
      |Ordering.Preamble(r.value.state.sourceModules, env.resolve(BootstrapLibName))|)
    ensures r.Success? && Closed(env, st) ==> Closed(env, r.value.state)
    ensures st.activeAliases != [] && env.resolve(Aliasing.RequirePath(st.activeAliases[0])).Failure? ==>
      r == Failure(ModelOperation(RequirePathFailure(env.resolve(Aliasing.RequirePath(st.activeAliases[0])).error)))
  {
    var st2 :- AddAliasTargets(env, st, st.activeAliases);
    ClosedStep(env, st, st2);
    PrefixMembers(st.sourceModules, st2.sourceModules);
    var ordered :- Ordering.OrderSourceModules(st2.sourceModules, env.resolve(BootstrapLibName), OrderDepsOf(env));
    assert forall x :: x in st2.sourceModules ==> x in Elems(ordered);
    Success(Created(st2, BundleSet(ordered, st2.testSourceModules, st.activeAliases, st.assetLocations)))
  }

  // ---------------------------------------------------------------------------
  // Properties of the whole build
  // ---------------------------------------------------------------------------

  /** Seeding a fresh builder and then adding test modules ends in a closed
      state holding every seed and every test module. */
  lemma BuildIsClosed(env: Env, seeds: seq<AssetId>, tests: seq<AssetId>)
    requires WellFormed(env)
    requires forall x :: x in seeds ==> x in env.assets
    requires forall x :: x in tests ==> x in env.assets
    ensures AddSeedFiles(env, Empty, seeds).Success? ==>
      var st := AddSeedFiles(env, Empty, seeds).value;
      (forall x :: x in seeds ==> x in st.linkedAssets) && Closed(env, st)
      && (AddTests(env, st, tests).Success? ==>
            Closed(env, AddTests(env, st, tests).value)
            && (forall x :: x in tests ==> x in AddTests(env, st, tests).value.testSourceModules)
            && (forall x :: x in seeds ==> x in AddTests(env, st, tests).value.linkedAssets))
  {
    assert Closed(env, Empty);
  }

  /** Linking assets that are all already linked changes nothing. */
  lemma {:induction false} RelinkIsNoOp(env: Env, st: BuilderState, xs: seq<AssetId>)
    requires WellFormed(env) && Valid(st)
    requires forall x :: x in xs ==> x in env.assets && x in st.linkedAssets
    ensures AddLinkedAssets(env, st, xs) == Success(st)
    decreases |xs|
  {
    if xs != [] {
      assert AddLinkedAsset(env, st, xs[0]) == Success(st);
      RelinkIsNoOp(env, st, xs[1..]);
    }
  }

  /** `addSeedFiles` is idempotent: seeding the result again returns it unchanged. */
  lemma SeedingTwiceIsSeedingOnce(env: Env, st: BuilderState, seeds: seq<AssetId>)
    requires WellFormed(env) && Valid(st) && forall x :: x in seeds ==> x in env.assets
    ensures AddSeedFiles(env, st, seeds).Success? ==>
      AddSeedFiles(env, AddSeedFiles(env, st, seeds).value, seeds) == AddSeedFiles(env, st, seeds)
  {
    var r := AddSeedFiles(env, st, seeds);
    if r.Success? {
      RelinkIsNoOp(env, r.value, seeds);
    }
  }

  /** An active alias naming a class that resolves to no source module makes
      `createBundleSet` fail with the unresolvable require path, as in the
      dependency-insight command's alias scenario (an alias to `NonExistentClass`). */
  lemma AliasToMissingClassFails(env: Env, st: BuilderState, c: string)
    requires WellFormed(env) && Valid(st)
    requires st.activeAliases != [] && st.activeAliases[0].className == Some(c) && '.' !in c
    requires env.resolve(c) == Failure(Unresolvable(c))
    ensures CreateBundleSet(env, st) == Failure(ModelOperation(RequirePathFailure(Unresolvable(c))))
  {
    Aliasing.UndottedClassNameIsRequirePath(c);
  }

  // ---------------------------------------------------------------------------
  // Step lemmas
  // ---------------------------------------------------------------------------

  lemma PrefixMembers<T>(s: seq<T>, s2: seq<T>)
    requires s <= s2
    ensures forall x :: x in s ==> x in s2
  {
    forall x | x in s ensures x in s2 {
      var i :| 0 <= i < |s| && s[i] == x;
      assert s2[i] == x;
    }
  }

  lemma StepRefl(env: Env, st: BuilderState)
    requires Valid(st)
    ensures Step(env, st, st)
  {
  }

  /** A step from a closed state leads to a closed state. */
  lemma ClosedStep(env: Env, st: BuilderState, st2: BuilderState)
    requires Step(env, st, st2)
    ensures Closed(env, st) ==> Closed(env, st2)
  {
    GrowsKeepsComplete(env, st, st2);
  }

  /** Completeness survives growth. */
  lemma GrowsKeepsComplete(env: Env, st: BuilderState, st2: BuilderState)
    requires Grows(st, st2)
    ensures forall a :: LinkedComplete(env, st, a) ==> LinkedComplete(env, st2, a)
    ensures forall m :: ModuleComplete(env, st, m) ==> ModuleComplete(env, st2, m)
    ensures forall l :: LocationComplete(env, st, l) ==> LocationComplete(env, st2, l)
  {
    PrefixMembers(st.sourceModules, st2.sourceModules);
    PrefixMembers(st.activeAliases, st2.activeAliases);
    PrefixMembers(st.assetLocations, st2.assetLocations);
  }

  lemma StepTrans(env: Env, s1: BuilderState, s2: BuilderState, s3: BuilderState)
    requires Step(env, s1, s2) && Step(env, s2, s3)
    ensures Step(env, s1, s3)
  {
    GrowsKeepsComplete(env, s2, s3);
    PrefixMembers(s1.sourceModules, s2.sourceModules);
    PrefixMembers(s1.testSourceModules, s2.testSourceModules);
    PrefixMembers(s1.assetLocations, s2.assetLocations);
  }

  /** Removing one unvisited element lowers the count of the unvisited. */
  lemma CountDrops<T>(keys: set<T>, seen: set<T>, x: T)
    requires x in keys && x !in seen
    ensures |keys - (seen + {x})| < |keys - seen|
  {
    assert keys - seen == (keys - (seen + {x})) + {x};
  }

  lemma LinkedFirst(env: Env, st: BuilderState, a: AssetId)
    requires a in env.assets && a !in st.linkedAssets
    ensures Unvisited(env, st.(linkedAssets := st.linkedAssets + {a})) < Unvisited(env, st)
  {
    CountDrops(env.assets.Keys, st.linkedAssets, a);
  }

  lemma SourceFirst(env: Env, st: BuilderState, m: AssetId)
    requires Valid(st) && m in env.assets && m !in st.sourceModules
    ensures Unvisited(env, st.(sourceModules := AddUnique(st.sourceModules, m))) < Unvisited(env, st)
    ensures Valid(st.(sourceModules := AddUnique(st.sourceModules, m)))
  {
    AddUniqueProperties(st.sourceModules, m);
    CountDrops(env.assets.Keys, Elems(st.sourceModules), m);
  }

  lemma TestFirst(env: Env, st: BuilderState, m: AssetId)
    requires Valid(st) && m in env.assets && m !in st.testSourceModules
    ensures Unvisited(env, st.(testSourceModules := AddUnique(st.testSourceModules, m))) < Unvisited(env, st)
    ensures Valid(st.(testSourceModules := AddUnique(st.testSourceModules, m)))
  {
    AddUniqueProperties(st.testSourceModules, m);
    CountDrops(env.assets.Keys, Elems(st.testSourceModules), m);
  }

  lemma LocationFirst(env: Env, st: BuilderState, l: LocationId)
    requires Valid(st) && l in env.locations && l !in st.assetLocations
    ensures Unvisited(env, st.(assetLocations := AddUnique(st.assetLocations, l))) < Unvisited(env, st)
    ensures Valid(st.(assetLocations := AddUnique(st.assetLocations, l)))
  {
    AddUniqueProperties(st.assetLocations, l);
    CountDrops(env.locations.Keys, Elems(st.assetLocations), l);
  }

  lemma AddAliasesStep(env: Env, st: BuilderState, aliases: seq<Aliasing.AliasDefinition>)
    requires Valid(st)
    ensures Valid(AddAliases(st, aliases)) && Unvisited(env, AddAliases(st, aliases)) == Unvisited(env, st)
    ensures st.activeAliases <= AddAliases(st, aliases).activeAliases
    ensures forall al :: al in aliases ==> al in AddAliases(st, aliases).activeAliases
  {
    AddAllUniqueProperties(st.activeAliases, aliases);
    assert forall al :: al in aliases ==> al in Elems(AddAliases(st, aliases).activeAliases);
  }

  /** Chaining a first update from `st` to `st1` with a `Step` from `st1`
      to `st3`: it suffices that what the update added is complete in `st3`. */
  lemma ExtendComplete(env: Env, st: BuilderState, st1: BuilderState, st3: BuilderState)
    requires Grows(st, st1) && Unvisited(env, st1) <= Unvisited(env, st) && Step(env, st1, st3)
    requires st1.linkedAssets == st.linkedAssets
      || forall a :: a in st1.linkedAssets && a !in st.linkedAssets ==> LinkedComplete(env, st3, a)
    requires st1.sourceModules == st.sourceModules
      || forall m :: m in st1.sourceModules && m !in st.sourceModules ==> ModuleComplete(env, st3, m)
    requires st1.testSourceModules == st.testSourceModules
      || forall m :: m in st1.testSourceModules && m !in st.testSourceModules ==> ModuleComplete(env, st3, m)
    requires st1.assetLocations == st.assetLocations
      || forall l :: l in st1.assetLocations && l !in st.assetLocations ==> LocationComplete(env, st3, l)
    ensures Step(env, st, st3)
  {
    PrefixMembers(st.sourceModules, st1.sourceModules);
    PrefixMembers(st.testSourceModules, st1.testSourceModules);
    PrefixMembers(st.assetLocations, st1.assetLocations);
  }

  /** What `getAliases` returned, once active, makes the names' aliases active. */
  lemma AliasesActiveFrom(env: Env, names: seq<string>, aliases: seq<Aliasing.AliasDefinition>,
                          active: seq<Aliasing.AliasDefinition>)
    requires GetAliases(env, names) == Success(aliases)
    requires forall al :: al in aliases ==> al in active
    ensures AliasesActive(env, names, active)
  {
    forall i | 0 <= i < |names| && env.getAlias(names[i]).value.Some?
      ensures env.getAlias(names[i]).value.value in active
    {
      assert env.getAlias(names[i]) == Success(Some(env.getAlias(names[i]).value.value));
    }
  }

  /** In a well-formed node, the dependencies it reports are its own assets. */
  lemma DependenciesAreAssets(env: Env, a: AssetId, deps: seq<AssetId>)
    requires WellFormed(env) && a in env.assets && DependentSourceModules(env, a) == Success(deps)
    ensures forall x :: x in deps ==> x in env.assets
  {
    var ds := env.assets[a].dependencies.value;
    forall x | x in deps ensures x in env.assets {
      var i :| 0 <= i < |deps| && deps[i] == x;
      if i < |ds| {
        assert ds[i] == x;
      }
    }
  }

  /** What `getDependentSourceModules` returned, once added, covers the dependencies. */
  lemma DepsCoveredFrom(env: Env, a: AssetId, deps: seq<AssetId>, modules: seq<AssetId>)
    requires a in env.assets && DependentSourceModules(env, a) == Success(deps)
    requires forall d :: d in deps ==> d in modules
    ensures DepsCovered(env, env.assets[a].dependencies, modules)
  {
    var ds := env.assets[a].dependencies.value;
    assert forall d :: d in ds ==> d in deps by {
      PrefixMembers(ds, deps);
    }
    if ds != [] && env.resolve(BootstrapLibName).Success? {
      assert deps[|ds|] == env.resolve(BootstrapLibName).value;
    }
  }

  /** A linked asset whose dependencies, aliases and location were added is complete. */
  lemma LinkedReady(env: Env, a: AssetId, deps: seq<AssetId>, aliases: seq<Aliasing.AliasDefinition>,
                    st2: BuilderState, st3: BuilderState, st4: BuilderState)
    requires a in env.assets && DependentSourceModules(env, a) == Success(deps)
    requires GetAliases(env, env.assets[a].aliasNames) == Success(aliases)
    requires (forall al :: al in aliases ==> al in st2.activeAliases) && st2.activeAliases <= st4.activeAliases
    requires (forall d :: d in deps ==> d in st3.sourceModules) && st3.sourceModules <= st4.sourceModules
    requires env.assets[a].location in st4.assetLocations
    ensures LinkedComplete(env, st4, a)
  {
    PrefixMembers(st3.sourceModules, st4.sourceModules);
    PrefixMembers(st2.activeAliases, st4.activeAliases);
    DepsCoveredFrom(env, a, deps, st4.sourceModules);
    AliasesActiveFrom(env, env.assets[a].aliasNames, aliases, st4.activeAliases);
  }

  /** A (test) source module whose aliases were added and which was linked is complete. */
  lemma ModuleReady(env: Env, m: AssetId, aliases: seq<Aliasing.AliasDefinition>, st2: BuilderState, st3: BuilderState)
    requires m in env.assets && GetAliases(env, env.assets[m].aliasNames) == Success(aliases)
    requires (forall al :: al in aliases ==> al in st2.activeAliases) && st2.activeAliases <= st3.activeAliases
    requires m in st3.linkedAssets
    ensures ModuleComplete(env, st3, m)
  {
    PrefixMembers(st2.activeAliases, st3.activeAliases);
    AliasesActiveFrom(env, env.assets[m].aliasNames, aliases, st3.activeAliases);
  }

  /** A location whose seed resources and dependent locations were added is complete. */
  lemma LocationReady(env: Env, l: LocationId, st2: BuilderState, st3: BuilderState)
    requires l in env.locations
    requires (forall s :: s in env.locations[l].seedResources ==> s in st2.linkedAssets)
    requires st2.linkedAssets <= st3.linkedAssets
    requires forall k :: k in env.locations[l].dependentLocations ==> k in st3.assetLocations
    ensures LocationComplete(env, st3, l)
  {
  }

  lemma OnlyNewModule(env: Env, s: seq<AssetId>, m: AssetId, st3: BuilderState)
    requires m !in s && ModuleComplete(env, st3, m)
    ensures forall x :: x in AddUnique(s, m) && x !in s ==> ModuleComplete(env, st3, x)
  {
  }

  lemma OnlyNewLocation(env: Env, s: seq<LocationId>, l: LocationId, st3: BuilderState)
    requires l !in s && LocationComplete(env, st3, l)
    ensures forall x :: x in AddUnique(s, l) && x !in s ==> LocationComplete(env, st3, x)
  {
  }

  lemma LinkedDone(env: Env, st: BuilderState, a: AssetId, aliases: seq<Aliasing.AliasDefinition>,
                   st2: BuilderState, st4: BuilderState)
    requires a !in st.linkedAssets
    requires st2 == AddAliases(st.(linkedAssets := st.linkedAssets + {a}), aliases)
    requires Unvisited(env, st2) < Unvisited(env, st) && st.activeAliases <= st2.activeAliases
    requires Step(env, st2, st4) && LinkedComplete(env, st4, a)
    requires st4.testSourceModules == st2.testSourceModules
    ensures Step(env, st, st4) && a in st4.linkedAssets && st4.testSourceModules == st.testSourceModules
  {
    ExtendComplete(env, st, st2, st4);
  }

  lemma SourceDone(env: Env, st: BuilderState, m: AssetId, aliases: seq<Aliasing.AliasDefinition>,
                   st2: BuilderState, st3: BuilderState)
    requires Valid(st) && m !in st.sourceModules
    requires st2 == AddAliases(st.(sourceModules := AddUnique(st.sourceModules, m)), aliases)
    requires Unvisited(env, st2) < Unvisited(env, st) && st.activeAliases <= st2.activeAliases
    requires Step(env, st2, st3) && ModuleComplete(env, st3, m)
    requires st3.testSourceModules == st2.testSourceModules
    ensures Step(env, st, st3) && m in st3.sourceModules && st3.testSourceModules == st.testSourceModules
  {
    OnlyNewModule(env, st.sourceModules, m, st3);
    AddUniqueProperties(st.sourceModules, m);
    PrefixMembers(st2.sourceModules, st3.sourceModules);
    ExtendComplete(env, st, st2, st3);
  }

  lemma TestDone(env: Env, st: BuilderState, m: AssetId, aliases: seq<Aliasing.AliasDefinition>,
                 st2: BuilderState, st3: BuilderState)
    requires Valid(st) && m !in st.testSourceModules
    requires st2 == AddAliases(st.(testSourceModules := AddUnique(st.testSourceModules, m)), aliases)
    requires Unvisited(env, st2) < Unvisited(env, st) && st.activeAliases <= st2.activeAliases
    requires Step(env, st2, st3) && ModuleComplete(env, st3, m)
    ensures Step(env, st, st3) && m in st3.testSourceModules
  {
    OnlyNewModule(env, st.testSourceModules, m, st3);
    AddUniqueProperties(st.testSourceModules, m);
    PrefixMembers(st2.testSourceModules, st3.testSourceModules);
    ExtendComplete(env, st, st2, st3);
  }

  lemma LocationDone(env: Env, st: BuilderState, l: LocationId, st1: BuilderState, st3: BuilderState)
    requires Valid(st) && l !in st.assetLocations
    requires st1 == st.(assetLocations := AddUnique(st.assetLocations, l))
    requires Unvisited(env, st1) < Unvisited(env, st)
    requires Step(env, st1, st3) && LocationComplete(env, st3, l)
    requires st3.testSourceModules == st1.testSourceModules
    ensures Step(env, st, st3) && l in st3.assetLocations && st3.testSourceModules == st.testSourceModules
  {
    OnlyNewLocation(env, st.assetLocations, l, st3);
    AddUniqueProperties(st.assetLocations, l);
    PrefixMembers(st1.assetLocations, st3.assetLocations);
    ExtendComplete(env, st, st1, st3);
  }
}

=== FILE: dependency_graph.dfy ===
/** `SourceModuleDependencyCreator`: the map from each source module to the
    source modules among its pre-export define-time dependent assets. */
module DependencyGraph {
  import opened Wrappers
  import opened AssetModel
  import opened Sequences

  /** A dependent asset: its identity and whether it is a source module
      (the `instanceof SourceModule` test). */
  datatype Asset = Asset(id: AssetId, isSourceModule: bool)

  /** `getPreExportDefineTimeDependentAssets`, per module; it may fail. */
  type PreExportDeps = AssetId -> Result<seq<Asset>, Cause>

  /** `extractSourceModules`: the source modules among `assets`, in order,
      with repetitions kept. */
  function ExtractSourceModules(assets: seq<Asset>): (r: seq<AssetId>)
    ensures |r| <= |assets|
    ensures forall x :: x in r <==> exists i :: 0 <= i < |assets| && assets[i].isSourceModule && assets[i].id == x
    decreases |assets|
  {
    if assets == [] then []
    else
      var rest := ExtractSourceModules(assets[1..]);
      assert forall i :: 1 <= i < |assets| ==> assets[i] == assets[1..][i - 1];
      if assets[0].isSourceModule then [assets[0].id] + rest else rest
  }

  /** Filtering distributes over concatenation: the order of the kept
      assets is the order of the input, and nothing is merged. */
  lemma {:induction false} ExtractDistributes(a: seq<Asset>, b: seq<Asset>)
    ensures ExtractSourceModules(a + b) == ExtractSourceModules(a) + ExtractSourceModules(b)
    decreases |a|
  {
    if a != [] {
      assert (a + b)[0] == a[0] && (a + b)[1..] == a[1..] + b;
      ExtractDistributes(a[1..], b);
    } else {
      assert a + b == b;
    }
  }

  /** A list holding only source modules is kept whole, ids in the same order. */
  lemma {:induction false} ExtractKeepsSourceModules(assets: seq<Asset>)
    requires forall i :: 0 <= i < |assets| ==> assets[i].isSourceModule
    ensures |ExtractSourceModules(assets)| == |assets|
    ensures forall i :: 0 <= i < |assets| ==> ExtractSourceModules(assets)[i] == assets[i].id
    decreases |assets|
  {
    if assets != [] {
      ExtractKeepsSourceModules(assets[1..]);
    }
  }

  /** The count of an id among the kept modules is the count of source-module
      assets carrying it: multiplicity is preserved. */
  function CountSourceModules(assets: seq<Asset>, x: AssetId): nat
    decreases |assets|
  {
    if assets == [] then 0
    else (if assets[0].isSourceModule && assets[0].id == x then 1 else 0) + CountSourceModules(assets[1..], x)
  }

  lemma {:induction false} ExtractPreservesMultiplicity(assets: seq<Asset>, x: AssetId)
    ensures multiset(ExtractSourceModules(assets))[x] == CountSourceModules(assets, x)
    decreases |assets|
  {
    if assets != [] {
      ExtractPreservesMultiplicity(assets[1..], x);
      var rest := ExtractSourceModules(assets[1..]);
      if assets[0].isSourceModule {
        assert ExtractSourceModules(assets) == [assets[0].id] + rest;
        assert multiset([assets[0].id] + rest) == multiset([assets[0].id]) + multiset(rest);
      }
    }
  }

  /** `createGraph`: one entry per module, visiting the modules in order and
      stopping at the first module whose dependent assets cannot be read. */
  function CreateGraph(modules: seq<AssetId>, preExport: PreExportDeps): (r: Result<map<AssetId, seq<AssetId>>, Cause>)
    ensures modules == [] ==> r == Success(map[])
    ensures r.Success? <==> forall j :: 0 <= j < |modules| ==> preExport(modules[j]).Success?
    ensures r.Success? ==> r.value.Keys == Elems(modules)
    ensures r.Success? ==> forall m :: m in r.value ==> r.value[m] == ExtractSourceModules(preExport(m).value)
    ensures r.Failure? ==> exists j :: (0 <= j < |modules| && preExport(modules[j]) == Failure(r.error)
      && forall k :: 0 <= k < j ==> preExport(modules[k]).Success?)
    decreases |modules|
  {
    if modules == [] then Success(map[])
    else
      match preExport(modules[0])
      case Failure(e) => Failure(e)
      case Success(assets) =>
        var tail := modules[1..];
        assert forall j :: 1 <= j < |modules| ==> modules[j] == tail[j - 1];
        match CreateGraph(tail, preExport)
        case Failure(e) =>
          var j :| 0 <= j < |tail| && preExport(tail[j]) == Failure(e)
            && forall k :: 0 <= k < j ==> preExport(tail[k]).Success?;
          assert preExport(modules[j + 1]) == Failure(e);
          Failure(e)
        case Success(g) =>
          GraphInsert(modules, preExport, assets, g);
          Success(g[modules[0] := ExtractSourceModules(assets)])
  }

  /** Adding the first module's entry to the graph of the others. */
  lemma GraphInsert(modules: seq<AssetId>, preExport: PreExportDeps, assets: seq<Asset>, g: map<AssetId, seq<AssetId>>)
    requires |modules| >= 1 && preExport(modules[0]) == Success(assets)
    requires g.Keys == Elems(modules[1..])
    requires forall m :: m in g ==> preExport(m).Success? && g[m] == ExtractSourceModules(preExport(m).value)
    ensures var h := g[modules[0] := ExtractSourceModules(assets)];
      h.Keys == Elems(modules) && forall m :: m in h ==> h[m] == ExtractSourceModules(preExport(m).value)
  {
    assert Elems(modules) == {modules[0]} + Elems(modules[1..]);
  }
}

=== FILE: iso_date_validator.dfy ===
/** `ISODateValidator` (br-validation): a value is valid when it is unset or
    empty, or when it is a calendar date in the ISO 8601 basic form `YYYYMMDD`
    or extended form `YYYY-MM-DD` (section 4.1.2.2 of ISO 8601:2004) that the
    JavaScript `Date` constructor reads back unchanged. */
module IsoDateValidator {
  import opened Wrappers

  // ---------------------------------------------------------------------------
  // The proleptic Gregorian calendar

  predicate IsLeapYear(y: int) {
    y % 4 == 0 && (y % 100 != 0 || y % 400 == 0)
  }

  /** The number of days of month `m` (1 = January) in year `y`. */
  function MonthLength(y: int, m: int): (r: int)
    requires 1 <= m <= 12
    ensures 28 <= r <= 31
    ensures r == 29 <==> m == 2 && IsLeapYear(y)
  {
    if m == 2 then (if IsLeapYear(y) then 29 else 28)
    else if m == 4 || m == 6 || m == 9 || m == 11 then 30
    else 31
  }

  /** Month `m` (1-based) and day `d` name a day of year `y`. */
  predicate IsCalendarDate(y: int, m: int, d: int) {
    1 <= m <= 12 && 1 <= d <= MonthLength(y, m)
  }

  // ---------------------------------------------------------------------------
  // The JavaScript Date constructor, read back

  /** What `getFullYear`, `getMonth` (0 = January) and `getDate` report. */
  datatype DateFields = DateFields(year: int, month: int, date: int)

  /** Fields a `Date` can report: a month index and a day of that month. */
  predicate IsNormal(f: DateFields) {
    0 <= f.month < 12 && 1 <= f.date <= MonthLength(f.year, f.month + 1)
  }

  /** The constructor takes a year from 0 to 99 as 1900 to 1999. */
  function ConstructorYear(y: int): (r: int)
    ensures 0 <= y <= 99 ==> r == 1900 + y && r > y
    ensures !(0 <= y <= 99) ==> r == y
  {
    if 0 <= y <= 99 then 1900 + y else y
  }

  /** Carries a day number that falls outside month `m` of year `y` into the
      months before or after it, one month at a time. */
  function CarryDays(y: int, m: int, d: int): (r: DateFields)
    requires 0 <= m < 12
    ensures IsNormal(r)
    ensures d >= 1 ==> r.year >= y
    ensures IsNormal(DateFields(y, m, d)) ==> r == DateFields(y, m, d)
    decreases if d < 1 then 1 - d else 0, d
  {
    if d < 1 then
      var py := if m == 0 then y - 1 else y;
      var pm := if m == 0 then 11 else m - 1;
      CarryDays(py, pm, d + MonthLength(py, pm + 1))
    else if d > MonthLength(y, m + 1) then
      var ny := if m == 11 then y + 1 else y;
      var nm := if m == 11 then 0 else m + 1;
      CarryDays(ny, nm, d - MonthLength(y, m + 1))
    else DateFields(y, m, d)
  }

  /** `new Date(y, m, d)` read back: the month index is carried into the year
      first (floor division, as `MakeDay` does), then the day into the months.
      Local time, time zones and the time-value range are not modelled. */
  function NewDate(y: int, m: int, d: int): (r: DateFields)
    ensures IsNormal(r)
    ensures 0 <= m && d >= 1 ==> r.year >= ConstructorYear(y)
  {
    CarryDays(ConstructorYear(y) + m / 12, m % 12, d)
  }

  /** The check of the validator: the date read back has the year, month and
      day it was built from. */
  predicate RoundTrips(y: int, m: int, d: int) {
    NewDate(y, m - 1, d) == DateFields(y, m - 1, d)
  }

  /** The `Date` round trip accepts exactly the calendar dates whose year the
      constructor does not remap. */
  lemma RoundTripIsCalendarDate(y: int, m: int, d: int)
    ensures RoundTrips(y, m, d) <==> !(0 <= y <= 99) && IsCalendarDate(y, m, d)
  {
    if RoundTrips(y, m, d) {
      var r := NewDate(y, m - 1, d);
      assert 0 <= m - 1 < 12 && d >= 1;
      assert r.year >= ConstructorYear(y);
    }
    if !(0 <= y <= 99) && IsCalendarDate(y, m, d) {
      assert (m - 1) / 12 == 0 && (m - 1) % 12 == m - 1;
      assert IsNormal(DateFields(y, m - 1, d));
    }
  }

  // ---------------------------------------------------------------------------
  // Digits

  predicate IsDigit(c: char) {
    '0' <= c <= '9'
  }

  predicate AllDigits(s: string) {
    forall i :: 0 <= i < |s| ==> IsDigit(s[i])
  }

  function Pow10(w: nat): (r: nat)
    ensures r >= 1
  {
    if w == 0 then 1 else 10 * Pow10(w - 1)
  }

  /** `Number(s)` of a string of decimal digits. */
  function Number(s: string): (r: nat)
    requires AllDigits(s)
    ensures r < Pow10(|s|)
  {
    if s == [] then 0
    else
      assert AllDigits(s[..|s| - 1]);
      Number(s[..|s| - 1]) * 10 + (s[|s| - 1] as int - '0' as int)
  }

  /** `n` written with exactly `w` decimal digits, zero-padded. */
  function Format(n: nat, w: nat): (r: string)
    ensures |r| == w && AllDigits(r)
  {
    if w == 0 then []
    else Format(n / 10, w - 1) + [('0' as int + n % 10) as char]
  }

  /** Reading back a zero-padded number gives the number. */
  lemma {:induction false} NumberOfFormat(n: nat, w: nat)
    requires n < Pow10(w)
    ensures Number(Format(n, w)) == n
  {
    if w > 0 {
      NumberOfFormat(n / 10, w - 1);
      var s := Format(n, w);
      assert s[..|s| - 1] == Format(n / 10, w - 1);
    }
  }

  /** Formatting the number of a digit string gives the string back. */
  lemma {:induction false} FormatOfNumber(s: string)
    requires AllDigits(s)
    ensures Format(Number(s), |s|) == s
  {
    if s != [] {
      var t := s[..|s| - 1];
      assert AllDigits(t);
      FormatOfNumber(t);
      var n := Number(s);
      assert n / 10 == Number(t) && n % 10 == s[|s| - 1] as int - '0' as int;
      assert s == t + [s[|s| - 1]];
    }
  }

  // ---------------------------------------------------------------------------
  // The two patterns

  /** `/^(\d{4})-(\d{2})-(\d{2})$/`. */
  predicate IsExtendedForm(s: string) {
    |s| == 10 && AllDigits(s[..4]) && s[4] == '-' && AllDigits(s[5..7]) && s[7] == '-' && AllDigits(s[8..])
  }

  /** `/^(\d{4})(\d{2})(\d{2})$/`. */
  predicate IsBasicForm(s: string) {
    |s| == 8 && AllDigits(s)
  }

  /** The three captured groups. */
  datatype Captures = Captures(year: string, month: string, day: string)

  predicate WellCaptured(c: Captures) {
    |c.year| == 4 && |c.month| == 2 && |c.day| == 2 && AllDigits(c.year) && AllDigits(c.month) && AllDigits(c.day)
  }

  /** The extended pattern, and the basic one when that fails; `None` is a
      `null` match. */
  function MatchDate(s: string): (r: Option<Captures>)
    ensures r.Some? <==> IsExtendedForm(s) || IsBasicForm(s)
    ensures r.Some? ==> WellCaptured(r.value)
    ensures r.Some? && IsExtendedForm(s) ==> s == r.value.year + "-" + r.value.month + "-" + r.value.day
    ensures r.Some? && IsBasicForm(s) ==> s == r.value.year + r.value.month + r.value.day
  {
    if IsExtendedForm(s) then
      assert s == s[..4] + "-" + s[5..7] + "-" + s[8..];
      Some(Captures(s[..4], s[5..7], s[8..]))
    else if IsBasicForm(s) then
      assert s == s[..4] + s[4..6] + s[6..];
      Some(Captures(s[..4], s[4..6], s[6..]))
    else None
  }

  // ---------------------------------------------------------------------------
  // validate and isValidISODate

  /** The value handed to the validator: `undefined`, `null`, a string, or
      anything else, which has no `match` method. */
  datatype Value = Undefined | Null | Text(s: string) | WithoutMatch

  /** The message keys the validator looks up; `NoMessage` is `''`. */
  datatype Message = InvalidIsoDateFormat(value: Value) | NullUndefinedOrEmpty | NoMessage

  datatype ValidationResult = ValidationResult(isValid: bool, message: Message)

  predicate IsEmptyValue(v: Value) {
    v == Undefined || v == Null || v == Text("")
  }

  /** An ISO 8601 calendar date from year 100 to 9999, written with four year
      digits, two month digits and two day digits, in the extended or the
      basic form. */
  ghost predicate IsIsoDate(s: string) {
    exists y: nat, m: nat, d: nat :: (100 <= y <= 9999 && IsCalendarDate(y, m, d)
      && (s == Format(y, 4) + "-" + Format(m, 2) + "-" + Format(d, 2)
          || s == Format(y, 4) + Format(m, 2) + Format(d, 2)))
  }

  /** `validate`: the result it records through `setResult`. */
  function Validate(v: Value): (r: ValidationResult)
    ensures IsEmptyValue(v) ==> r == ValidationResult(true, NullUndefinedOrEmpty)
    ensures !IsEmptyValue(v) ==> r.message == (if r.isValid then NoMessage else InvalidIsoDateFormat(v))
    ensures v == WithoutMatch ==> !r.isValid
    ensures r.isValid && !IsEmptyValue(v) ==> v.Text? && (IsExtendedForm(v.s) || IsBasicForm(v.s))
  {
    if IsEmptyValue(v) then ValidationResult(true, NullUndefinedOrEmpty)
    else if v.Text? then
      match MatchDate(v.s)
      case None => ValidationResult(false, InvalidIsoDateFormat(v))
      case Some(c) =>
        if RoundTrips(Number(c.year), Number(c.month), Number(c.day)) then ValidationResult(true, NoMessage)
        else ValidationResult(false, InvalidIsoDateFormat(v))
    else ValidationResult(false, InvalidIsoDateFormat(v))
  }

  /** A string of the right shape is valid exactly when its captured groups
      name a calendar date of a year from 100 on. */
  lemma ShapedStringValidity(s: string)
    requires s != "" && MatchDate(s).Some?
    ensures var c := MatchDate(s).value;
      Validate(Text(s)).isValid <==> Number(c.year) >= 100 && IsCalendarDate(Number(c.year), Number(c.month), Number(c.day))
  {
    var c := MatchDate(s).value;
    RoundTripIsCalendarDate(Number(c.year), Number(c.month), Number(c.day));
  }

  /** A formatted calendar date is valid. */
  lemma IsoDateIsValid(s: string, y: nat, m: nat, d: nat)
    requires 100 <= y <= 9999 && IsCalendarDate(y, m, d)
    requires s == Format(y, 4) + "-" + Format(m, 2) + "-" + Format(d, 2) || s == Format(y, 4) + Format(m, 2) + Format(d, 2)
    ensures Validate(Text(s)).isValid
  {
    var fy, fm, fd := Format(y, 4), Format(m, 2), Format(d, 2);
    if s == fy + "-" + fm + "-" + fd {
      assert s[..4] == fy && s[5..7] == fm && s[8..] == fd;
      assert IsExtendedForm(s);
    } else {
      assert s[..4] == fy && s[4..6] == fm && s[6..] == fd;
      assert IsBasicForm(s);
    }
    var c := MatchDate(s).value;
    assert c == Captures(fy, fm, fd);
    NumberOfFormat(y, 4);
    NumberOfFormat(m, 2);
    NumberOfFormat(d, 2);
    ShapedStringValidity(s);
  }

  /** A valid non-empty string is a formatted calendar date. */
  lemma ValidIsIsoDate(s: string)
    requires s != "" && Validate(Text(s)).isValid
    ensures IsIsoDate(s)
  {
    var c := MatchDate(s).value;
    var y, m, d := Number(c.year), Number(c.month), Number(c.day);
    ShapedStringValidity(s);
    FormatOfNumber(c.year);
    FormatOfNumber(c.month);
    FormatOfNumber(c.day);
    assert y < Pow10(4) == 10000;
    assert 100 <= y <= 9999 && IsCalendarDate(y, m, d);
    assert s == Format(y, 4) + "-" + Format(m, 2) + "-" + Format(d, 2) || s == Format(y, 4) + Format(m, 2) + Format(d, 2);
  }

  /** Validity is exactly an unset or empty value or an ISO 8601 calendar date. */
  lemma ValidIffIsoDate(v: Value)
    ensures Validate(v).isValid <==> IsEmptyValue(v) || (v.Text? && IsIsoDate(v.s))
  {
    if v.Text? && v.s != "" {
      if Validate(v).isValid {
        ValidIsIsoDate(v.s);
      }
      if IsIsoDate(v.s) {
        var y: nat, m: nat, d: nat :| 100 <= y <= 9999 && IsCalendarDate(y, m, d)
          && (v.s == Format(y, 4) + "-" + Format(m, 2) + "-" + Format(d, 2)
              || v.s == Format(y, 4) + Format(m, 2) + Format(d, 2));
        IsoDateIsValid(v.s, y, m, d);
      }
    }
  }

  /** `isValidISODate`: the validity `validate` records. */
  function IsValidIsoDate(v: Value): (r: bool)
    ensures r <==> IsEmptyValue(v) || (v.Text? && IsIsoDate(v.s))
  {
    ValidIffIsoDate(v);
    Validate(v).isValid
  }
}

=== FILE: locale_utility.dfy ===
/** `LocaleUtility` (br-locale-utility): choosing the active locale of a page,
    reading the locale cookie and building the localized page URL. The
    browser objects it reads (`navigator`, `document.cookie`, the parsed
    anchor URL) are parameters. */
module LocaleUtility {
  import opened Wrappers
  import opened Strings

  /** A JavaScript value the functions pass through: `undefined`, `null`, or a string. */
  datatype JsValue = Undefined | Null | Str(s: string)

  /** The key a value is converted to when it indexes an object. */
  function PropertyKey(v: JsValue): string {
    match v
    case Undefined => "undefined"
    case Null => "null"
    case Str(s) => s
  }

  /** The app's supported-locales object: its keys in `for...in` order, each
      with whether its value is truthy. A JavaScript object has each key once. */
  type SupportedLocales = seq<(string, bool)>

  predicate IsObject(sup: SupportedLocales) {
    forall i, j :: 0 <= i < j < |sup| ==> sup[i].0 != sup[j].0
  }

  /** `appSupportedLocales[key]` is truthy. */
  predicate IsSupported(sup: SupportedLocales, key: string) {
    exists i :: 0 <= i < |sup| && sup[i].0 == key && sup[i].1
  }

  predicate HasKey(sup: SupportedLocales, key: string) {
    exists i :: 0 <= i < |sup| && sup[i].0 == key
  }

  // ---------------------------------------------------------------------------
  // getBrowserAcceptedLocales

  /** What the browser reports: `navigator.languages` (`None` when absent),
      `navigator.language` (`None` when absent or empty, both falsy) and
      `navigator.userLanguage`. */
  datatype Navigator = Navigator(languages: Option<seq<string>>, language: Option<string>, userLanguage: string)

  /** `locale.replace('-', '_')`: only the first `-` becomes `_`. */
  function NormaliseLocale(locale: string): (r: string)
    ensures |r| == |locale|
    ensures '-' !in locale ==> r == locale
    ensures '-' in locale ==> exists k :: (0 <= k < |locale| && locale[k] == '-' && '-' !in locale[..k]
      && r == locale[..k] + "_" + locale[k + 1..])
  {
    match IndexOf(locale, '-')
    case None => locale
    case Some(k) => locale[..k] + "_" + locale[k + 1..]
  }

  /** The `userLanguage` fallback: the first subtag, then the second one
      upper-cased; later subtags are dropped. */
  function UserLanguageLocale(userLanguage: string): (r: string)
  {
    var parts := Split(userLanguage, '-');
    if |parts| == 1 then parts[0] else parts[0] + "-" + ToUpperAscii(parts[1])
  }

  /** A `userLanguage` of the form `language-region[-more]` becomes
      `language-REGION`, and one without `-` is kept. */
  lemma UserLanguageKeepsTwoSubtags(lang: string, region: string, more: seq<string>)
    requires '-' !in lang && '-' !in region
    requires forall i :: 0 <= i < |more| ==> '-' !in more[i]
    ensures UserLanguageLocale(Join([lang, region] + more, '-')) == lang + "-" + ToUpperAscii(region)
    ensures UserLanguageLocale(lang) == lang
  {
    var parts := [lang, region] + more;
    SplitJoin(parts, '-');
    SplitJoin([lang], '-');
  }

  /** `getBrowserAcceptedLocales`. */
  function GetBrowserAcceptedLocales(nav: Navigator): (r: seq<string>)
    ensures nav.languages.Some? ==> (|r| == |nav.languages.value|
      && forall i :: 0 <= i < |r| ==> r[i] == NormaliseLocale(nav.languages.value[i]))
    ensures nav.languages.None? && nav.language.Some? ==> r == [NormaliseLocale(nav.language.value)]
    ensures nav.languages.None? && nav.language.None? ==> r == [NormaliseLocale(UserLanguageLocale(nav.userLanguage))]
  {
    var accepted :=
      match nav.languages
      case Some(ls) => ls
      case None =>
        match nav.language
        case Some(l) => [l]
        case None => [UserLanguageLocale(nav.userLanguage)];
    seq(|accepted|, i requires 0 <= i < |accepted| => NormaliseLocale(accepted[i]))
  }

  // ---------------------------------------------------------------------------
  // getFirstMatchingLocale and getActiveLocale

  /** The index of the first accepted locale the app supports. */
  function FirstMatchIndex(sup: SupportedLocales, accepted: seq<string>): (r: Option<nat>)
    ensures r.None? <==> forall i :: 0 <= i < |accepted| ==> !IsSupported(sup, accepted[i])
    ensures r.Some? ==> r.value < |accepted| && IsSupported(sup, accepted[r.value])
    ensures r.Some? ==> forall k :: 0 <= k < r.value ==> !IsSupported(sup, accepted[k])
    decreases |accepted|
  {
    if accepted == [] then None
    else if IsSupported(sup, accepted[0]) then Some(0)
    else
      assert forall i :: 1 <= i < |accepted| ==> accepted[i] == accepted[1..][i - 1];
      match FirstMatchIndex(sup, accepted[1..])
      case None => None
      case Some(k) => Some(k + 1)
  }

  /** `getFirstMatchingLocale`: the earliest accepted locale with a truthy
      supported entry, or `undefined`. */
  function GetFirstMatchingLocale(sup: SupportedLocales, accepted: seq<string>): (r: Option<string>)
    ensures r.None? <==> forall i :: 0 <= i < |accepted| ==> !IsSupported(sup, accepted[i])
    ensures r.Some? ==> IsSupported(sup, r.value)
    ensures r.Some? ==> exists i :: (0 <= i < |accepted| && accepted[i] == r.value
      && forall k :: 0 <= k < i ==> !IsSupported(sup, accepted[k]))
  {
    match FirstMatchIndex(sup, accepted)
    case None => None
    case Some(i) => Some(accepted[i])
  }

  /** `getActiveLocale`: the preferred locale when supported, else the first
      matching accepted locale (an empty string is falsy and does not count),
      else the first key of the supported object, else `undefined`. */
  function GetActiveLocale(preferred: JsValue, accepted: seq<string>, sup: SupportedLocales): (r: JsValue)
    ensures IsSupported(sup, PropertyKey(preferred)) ==> r == preferred
    ensures !IsSupported(sup, PropertyKey(preferred)) ==> r.Str? || r == Undefined
    ensures !IsSupported(sup, PropertyKey(preferred)) && r.Str? ==> HasKey(sup, r.s)
    ensures !IsSupported(sup, PropertyKey(preferred)) ==> (r == Undefined <==> sup == [])
    ensures (!IsSupported(sup, PropertyKey(preferred)) && GetFirstMatchingLocale(sup, accepted).Some? &&
             GetFirstMatchingLocale(sup, accepted).value != "") ==>
      r == Str(GetFirstMatchingLocale(sup, accepted).value)
    ensures (!IsSupported(sup, PropertyKey(preferred)) && sup != [] &&
             (GetFirstMatchingLocale(sup, accepted).None? || GetFirstMatchingLocale(sup, accepted).value == "")) ==>
      r == Str(sup[0].0)
  {
    if IsSupported(sup, PropertyKey(preferred)) then preferred
    else
      var m := GetFirstMatchingLocale(sup, accepted);
      if m.Some? && m.value != "" then Str(m.value)
      else if sup == [] then Undefined
      else Str(sup[0].0)
  }

  /** A supported accepted locale that comes before every other non-empty
      match is chosen when the preferred locale is unsupported. */
  lemma FirstAcceptedMatchWins(preferred: JsValue, accepted: seq<string>, sup: SupportedLocales, i: nat)
    requires !IsSupported(sup, PropertyKey(preferred))
    requires i < |accepted| && IsSupported(sup, accepted[i]) && accepted[i] != ""
    requires forall k :: 0 <= k < i ==> !IsSupported(sup, accepted[k])
    ensures GetActiveLocale(preferred, accepted, sup) == Str(accepted[i])
  {
    var j := FirstMatchIndex(sup, accepted);
    assert j == Some(i);
  }

  /** With the preferred locale unsupported and no accepted locale supported,
      the first key of the supported object is chosen, whatever its flag. */
  lemma NoMatchFallsBackToFirstKey(preferred: JsValue, accepted: seq<string>, sup: SupportedLocales)
    requires !IsSupported(sup, PropertyKey(preferred))
    requires forall k :: 0 <= k < |accepted| ==> !IsSupported(sup, accepted[k])
    requires sup != []
    ensures GetActiveLocale(preferred, accepted, sup) == Str(sup[0].0)
  {
  }

  /** A first match that is the empty string is falsy, so it is passed over
      for the first key even when a later accepted locale is supported. */
  lemma EmptyMatchFallsThrough(preferred: JsValue, accepted: seq<string>, sup: SupportedLocales, i: nat)
    requires !IsSupported(sup, PropertyKey(preferred))
    requires i < |accepted| && accepted[i] == "" && IsSupported(sup, "")
    requires forall k :: 0 <= k < i ==> !IsSupported(sup, accepted[k])
    ensures GetActiveLocale(preferred, accepted, sup) == Str(sup[0].0)
  {
  }

  /** Unless the preferred value is itself an unset value whose key string
      (`"undefined"`, `"null"`) the object supports, the active locale is a
      key of the object, and it is `undefined` exactly when there is none. */
  lemma ActiveLocaleIsAKey(preferred: JsValue, accepted: seq<string>, sup: SupportedLocales)
    requires preferred.Str? || !IsSupported(sup, PropertyKey(preferred))
    ensures GetActiveLocale(preferred, accepted, sup).Str? ==> HasKey(sup, GetActiveLocale(preferred, accepted, sup).s)
    ensures GetActiveLocale(preferred, accepted, sup) == Undefined <==> sup == []
    ensures GetActiveLocale(preferred, accepted, sup) != Null
  {
  }

  /** An `undefined` preference is looked up under the key `"undefined"`,
      so an object with that key truthy makes the result `undefined`. */
  lemma UndefinedPreferenceLooksUpItsName(accepted: seq<string>, sup: SupportedLocales)
    requires IsSupported(sup, "undefined")
    ensures GetActiveLocale(Undefined, accepted, sup) == Undefined
  {
  }

  // ---------------------------------------------------------------------------
  // getCookie

  /** The `while (c.charAt(0) === ' ')` loop: leading spaces (only) removed. */
  function StripLeadingSpaces(s: string): string
  {
    if s != [] && s[0] == ' ' then StripLeadingSpaces(s[1..]) else s
  }

  /** Stripping removes a run of spaces from the front and nothing else. */
  lemma {:induction false} StripLeadingSpacesRemovesSpaces(s: string)
    ensures |StripLeadingSpaces(s)| <= |s| && StripLeadingSpaces(s) == s[|s| - |StripLeadingSpaces(s)|..]
    ensures StripLeadingSpaces(s) == [] || StripLeadingSpaces(s)[0] != ' '
    ensures forall i :: 0 <= i < |s| - |StripLeadingSpaces(s)| ==> s[i] == ' '
  {
    if s != [] && s[0] == ' ' {
      var t := s[1..];
      StripLeadingSpacesRemovesSpaces(t);
      var r := StripLeadingSpaces(t);
      assert StripLeadingSpaces(s) == r;
      assert s[|s| - |r|..] == t[|t| - |r|..];
      forall i | 0 <= i < |s| - |r|
        ensures s[i] == ' '
      {
        if i > 0 {
          assert s[i] == t[i - 1];
        }
      }
    }
  }

  /** The cookie segments with their leading spaces removed. */
  function StrippedSegments(cookie: string): (r: seq<string>)
    ensures |r| == |Split(cookie, ';')|
    ensures forall i :: 0 <= i < |r| ==> r[i] == StripLeadingSpaces(Split(cookie, ';')[i])
  {
    var segments := Split(cookie, ';');
    seq(|segments|, i requires 0 <= i < |segments| => StripLeadingSpaces(segments[i]))
  }

  /** The index of the first stripped segment that starts with `nameEq`. */
  function FirstCookieIndex(stripped: seq<string>, nameEq: string): (r: Option<nat>)
    ensures r.None? <==> forall i :: 0 <= i < |stripped| ==> !StartsWith(stripped[i], nameEq)
    ensures r.Some? ==> r.value < |stripped| && StartsWith(stripped[r.value], nameEq)
    ensures r.Some? ==> forall k :: 0 <= k < r.value ==> !StartsWith(stripped[k], nameEq)
    decreases |stripped|
  {
    if stripped == [] then None
    else if StartsWith(stripped[0], nameEq) then Some(0)
    else
      assert forall i :: 1 <= i < |stripped| ==> stripped[i] == stripped[1..][i - 1];
      match FirstCookieIndex(stripped[1..], nameEq)
      case None => None
      case Some(k) => Some(k + 1)
  }

  /** `getCookie`: the value of the first `;`-separated segment that, without
      its leading spaces, starts with `name=`; `None` (JavaScript `null`)
      when there is no such segment. */
  function GetCookie(cookie: string, name: string): (r: Option<string>)
    ensures r.None? <==> forall i :: 0 <= i < |StrippedSegments(cookie)| ==> !StartsWith(StrippedSegments(cookie)[i], name + "=")
    ensures r.Some? ==> exists i :: (0 <= i < |StrippedSegments(cookie)| && StartsWith(StrippedSegments(cookie)[i], name + "=")
      && r.value == StrippedSegments(cookie)[i][|name| + 1..]
      && forall k :: 0 <= k < i ==> !StartsWith(StrippedSegments(cookie)[k], name + "="))
  {
    var stripped := StrippedSegments(cookie);
    match FirstCookieIndex(stripped, name + "=")
    case None => None
    case Some(i) => Some(stripped[i][|name| + 1..])
  }

  /** A cookie name as browsers store it: no `;`, no `=`, no leading space. */
  predicate IsCookieName(k: string) {
    ';' !in k && '=' !in k && (k == [] || k[0] != ' ')
  }

  /** The `document.cookie` string of name/value pairs: `k1=v1; k2=v2; ...`. */
  function CookieSegments(pairs: seq<(string, string)>): (r: seq<string>)
    ensures |r| == |pairs|
    ensures forall i :: 0 <= i < |pairs| ==> r[i] == (if i == 0 then "" else " ") + pairs[i].0 + "=" + pairs[i].1
  {
    seq(|pairs|, i requires 0 <= i < |pairs| => (if i == 0 then "" else " ") + pairs[i].0 + "=" + pairs[i].1)
  }

  function CookieString(pairs: seq<(string, string)>): string
    requires |pairs| >= 1
  {
    Join(CookieSegments(pairs), ';')
  }

  /** A stored `name=value` segment starts with `name=` for its own name
      and for no other. */
  lemma CookieNamePrefix(k: string, v: string, name: string)
    requires IsCookieName(k) && IsCookieName(name)
    ensures StartsWith(k + "=" + v, name + "=") <==> k == name
  {
    var s := k + "=" + v;
    var m := name + "=";
    assert s[..|k|] == k;
    IndexOfAt(s, '=', |k|);
    if StartsWith(s, m) {
      assert s[..|name|] == m[..|name|] == name;
      IndexOfAt(s, '=', |name|);
      assert k == s[..|k|] == name;
    }
    if k == name {
      assert s[..|m|] == m;
    }
  }

  lemma StripOneSpace(t: string)
    requires t == [] || t[0] != ' '
    ensures StripLeadingSpaces(" " + t) == t
  {
    assert (" " + t)[1..] == t;
  }

  /** Splitting a cookie string at `;` and stripping the leading spaces gives
      back the stored `name=value` segments. */
  lemma StrippedCookieSegments(pairs: seq<(string, string)>)
    requires |pairs| >= 1
    requires forall j :: 0 <= j < |pairs| ==> IsCookieName(pairs[j].0) && ';' !in pairs[j].1
    ensures |StrippedSegments(CookieString(pairs))| == |pairs|
    ensures forall j :: 0 <= j < |pairs| ==> StrippedSegments(CookieString(pairs))[j] == pairs[j].0 + "=" + pairs[j].1
  {
    var segs := CookieSegments(pairs);
    forall j | 0 <= j < |segs| ensures ';' !in segs[j] && StripLeadingSpaces(segs[j]) == pairs[j].0 + "=" + pairs[j].1 {
      var t := pairs[j].0 + "=" + pairs[j].1;
      assert t == [] || t[0] != ' ' by {
        if pairs[j].0 == [] { assert t[0] == '='; } else { assert t[0] == pairs[j].0[0]; }
      }
      if j > 0 {
        assert segs[j] == " " + t;
        StripOneSpace(t);
      } else {
        assert segs[j] == t;
      }
    }
    SplitJoin(segs, ';');
  }

  /** Reading back a cookie string: each stored name gives its own value. */
  lemma CookieRoundTrip(pairs: seq<(string, string)>, i: nat)
    requires |pairs| >= 1 && i < |pairs|
    requires forall j :: 0 <= j < |pairs| ==> IsCookieName(pairs[j].0) && ';' !in pairs[j].1
    requires forall j, k :: 0 <= j < k < |pairs| ==> pairs[j].0 != pairs[k].0
    ensures GetCookie(CookieString(pairs), pairs[i].0) == Some(pairs[i].1)
  {
    StrippedCookieSegments(pairs);
    var name := pairs[i].0;
    var stripped := StrippedSegments(CookieString(pairs));
    forall j | 0 <= j < i ensures !StartsWith(stripped[j], name + "=") {
      CookieNamePrefix(pairs[j].0, pairs[j].1, name);
    }
    CookieNamePrefix(name, pairs[i].1, name);
    assert FirstCookieIndex(stripped, name + "=") == Some(i);
    var t := name + "=" + pairs[i].1;
    assert t[|name| + 1..] == pairs[i].1;
  }

  // ---------------------------------------------------------------------------
  // getLocalizedPageUrl

  /** The parts of the page URL the anchor element parses out. */
  datatype ParsedUrl = ParsedUrl(protocol: string, host: string, pathname: string, search: string, hash: string)

  /** The pathname with a leading and a trailing `/` forced onto it. */
  function SlashedPath(pathname: string): (r: string)
    ensures StartsWith(r, "/") && EndsWith(r, "/")
    ensures |r| <= |pathname| + 2
    ensures StartsWith(pathname, "/") && EndsWith(pathname, "/") && |pathname| >= 1 ==> r == pathname
  {
    var p := if pathname != [] && pathname[0] == '/' then pathname else "/" + pathname;
    if p[|p| - 1] == '/' then p else p + "/"
  }

  /** The localized path: a path ending `.html/` gets the locale as a
      directory in front of the file name; any other gets `locale/` appended. */
  function LocalizedPath(url: string, locale: string): string
    requires StartsWith(url, "/") && EndsWith(url, "/")
  {
    if EndsWith(url, ".html/") then
      var parts := Split(url, '/');
      var popped := parts[..|parts| - 1];
      Join(popped[..|popped| - 1] + [locale] + [popped[|popped| - 1]], '/')
    else url + locale + "/"
  }

  /** `getLocalizedPageUrl`: for a page `dir/file.html` the locale becomes a
      directory in front of the file; any other path gets `locale/` appended.
      Origin, query and fragment are kept around the new path. */
  function GetLocalizedPageUrl(u: ParsedUrl, locale: string): (r: string)
    ensures forall dir, file :: (SlashedPath(u.pathname) == dir + file + "/" && EndsWith(dir, "/") &&
                                 '/' !in file && EndsWith(file, ".html")) ==>
      r == u.protocol + "//" + u.host + (dir + locale + "/" + file) + u.search + u.hash
    ensures !EndsWith(SlashedPath(u.pathname), ".html/") ==>
      r == u.protocol + "//" + u.host + SlashedPath(u.pathname) + locale + "/" + u.search + u.hash
  {
    HtmlPageLocalized(SlashedPath(u.pathname), locale);
    u.protocol + "//" + u.host + LocalizedPath(SlashedPath(u.pathname), locale) + u.search + u.hash
  }

  /** However a page path is cut into a directory ending in `/` and a file
      name ending in `.html`, the localized path is `dir/locale/file.html`. */
  lemma HtmlPageLocalized(url: string, locale: string)
    requires StartsWith(url, "/") && EndsWith(url, "/")
    ensures forall dir, file :: (url == dir + file + "/" && EndsWith(dir, "/") && '/' !in file && EndsWith(file, ".html")) ==>
      LocalizedPath(url, locale) == dir + locale + "/" + file
  {
    forall dir, file | url == dir + file + "/" && EndsWith(dir, "/") && '/' !in file && EndsWith(file, ".html")
      ensures LocalizedPath(url, locale) == dir + locale + "/" + file
    {
      HtmlPageCut(url, locale, dir, file);
    }
  }

  lemma HtmlPageCut(url: string, locale: string, dir: string, file: string)
    requires StartsWith(url, "/")
    requires url == dir + file + "/" && EndsWith(dir, "/") && '/' !in file && EndsWith(file, ".html")
    ensures EndsWith(url, "/") && LocalizedPath(url, locale) == dir + locale + "/" + file
  {
    assert url[|url| - 6..] == file[|file| - 5..] + "/";
    HtmlPageGetsLocaleDirectory(url, locale);
    var parts := Split(url, '/');
    var dir0 := Join(parts[..|parts| - 2], '/') + "/";
    var file0 := parts[|parts| - 2];
    assert EndsWith(dir0, "/");
    assert url[..|url| - 1] == dir + file;
    assert url[..|url| - 1] == dir0 + file0;
    LastSegmentOf(dir, file);
    LastSegmentOf(dir0, file0);
    assert file == file0;
    assert dir == (dir + file)[..|dir|];
    assert dir0 == (dir0 + file0)[..|dir0|];
  }

  /** The characters after the last `/` of `s` (all of `s` if it has none). */
  function LastSegment(s: string): string
  {
    if s == [] || s[|s| - 1] == '/' then [] else LastSegment(s[..|s| - 1]) + [s[|s| - 1]]
  }

  /** A slash-free name after a directory ending in `/` is the last segment. */
  lemma {:induction false} LastSegmentOf(dir: string, file: string)
    requires EndsWith(dir, "/") && '/' !in file
    ensures LastSegment(dir + file) == file
    decreases |file|
  {
    if file == [] {
      assert dir + file == dir;
    } else {
      var init := file[..|file| - 1];
      assert (dir + file)[..|dir + file| - 1] == dir + init;
      assert (dir + file)[|dir + file| - 1] == file[|file| - 1];
      LastSegmentOf(dir, init);
      assert init + [file[|file| - 1]] == file;
    }
  }

  /** For a page path `dir/file.html/`, the locale becomes a directory in
      front of the file: `dir/locale/file.html`. */
  lemma HtmlPageGetsLocaleDirectory(url: string, locale: string)
    requires StartsWith(url, "/") && EndsWith(url, ".html/")
    ensures var parts := Split(url, '/');
      |parts| >= 3 &&
      var dir := Join(parts[..|parts| - 2], '/') + "/";
      var file := parts[|parts| - 2];
      '/' !in file && url == dir + file + "/" && LocalizedPath(url, locale) == dir + locale + "/" + file
  {
    var parts := Split(url, '/');
    var n := |parts|;
    LastSegmentsOfSlashEnded(url, parts);
    var front, file := parts[..n - 2], parts[n - 2];
    assert parts == front + [file] + [""];
    JoinSplit(url, '/');
    JoinDirectoryFile(front, file, '/');
    var popped := parts[..n - 1];
    assert popped[..|popped| - 1] == front && popped[|popped| - 1] == file;
    JoinDirectoryLocaleFile(front, locale, file, '/');
  }

  lemma JoinDirectoryFile(front: seq<string>, file: string, c: char)
    requires |front| >= 1
    ensures Join(front + [file] + [""], c) == Join(front, c) + [c] + file + [c]
  {
    JoinConcat(front, [file] + [""], c);
    assert front + [file] + [""] == front + ([file] + [""]);
    JoinConcat([file], [""], c);
  }

  lemma JoinDirectoryLocaleFile(front: seq<string>, locale: string, file: string, c: char)
    requires |front| >= 1
    ensures Join(front + [locale] + [file], c) == Join(front, c) + [c] + locale + [c] + file
  {
    var tail := [locale, file];
    assert front + [locale] + [file] == front + tail;
    JoinConcat(front, tail, c);
    assert tail[0] == locale && tail[1..] == [file];
    assert Join(tail, c) == locale + [c] + file;
  }

  /** A path that starts with `/` and ends with `.html/` splits into at least
      three segments, of which the last is empty. */
  lemma LastSegmentsOfSlashEnded(url: string, parts: seq<string>)
    requires StartsWith(url, "/") && EndsWith(url, ".html/") && parts == Split(url, '/')
    ensures |parts| >= 3 && parts[|parts| - 1] == ""
  {
    var x := url[..|url| - 1];
    assert url == x + ['/'];
    SplitTrailingSeparator(x, '/');
    assert x == ['/'] + x[1..];
    SplitLeadingSeparator(x[1..], '/');
  }
}

=== FILE: named_node_locator.dfy ===
/** `DirectoryContentsNamedNodeLocator`: the mapping between the logical
    names of child nodes (blades, bladesets, ...) and the directories holding
    them, driven by an optional sub-directory, a name filter and an exclude
    filter. Filters are Java regular expressions; the model fixes their
    meaning only for the literal `^p` and `s$` forms the framework uses. */
module NamedNodeLocator {
  import opened Wrappers
  import opened Strings

  /** The locator's configuration; Java `null` is `None`. */
  datatype Locator = Locator(subDirPath: Option<string>, dirNameFilter: Option<string>, dirNameExcludeFilter: Option<string>)

  /** A child of the listed directory: its name and whether it is a directory. */
  datatype DirEntry = DirEntry(name: string, isDirectory: bool)

  /** The two regular-expression calls the locator makes:
      `name.matches(regex)` and `name.replaceAll(regex, replacement)`. */
  datatype RegexEngine = RegexEngine(matches: (string, string) -> bool, replaceAll: (string, string, string) -> string)

  // ---------------------------------------------------------------------------
  // getDirName, getDirNameMatcher, couldSupportLogicalNodeName

  /** The directory name of a logical name, before the sub-directory: a
      filter `^p` puts `p` in front, a filter `s$` puts `s` behind, any other
      filter and no filter leave the name alone. */
  function FilteredName(filter: Option<string>, logicalName: string): (r: string)
    ensures filter.None? ==> r == logicalName
    ensures filter.Some? && StartsWith(filter.value, "^") ==> r == filter.value[1..] + logicalName
    ensures filter.Some? && !StartsWith(filter.value, "^") && EndsWith(filter.value, "$") ==>
      r == logicalName + filter.value[..|filter.value| - 1]
    ensures filter.Some? && !StartsWith(filter.value, "^") && !EndsWith(filter.value, "$") ==> r == logicalName
    ensures EndsWith(r, logicalName) || StartsWith(r, logicalName)
  {
    match filter
    case None => logicalName
    case Some(f) =>
      if StartsWith(f, "^") then
        var r := f[1..] + logicalName;
        assert r[|r| - |logicalName|..] == logicalName;
        r
      else if EndsWith(f, "$") then
        var r := logicalName + f[..|f| - 1];
        assert r[..|logicalName|] == logicalName;
        r
      else logicalName
  }

  /** `getDirName`: the filtered name, under the sub-directory when there is one. */
  function GetDirName(loc: Locator, logicalName: string): (r: string)
    ensures loc.subDirPath.None? ==> r == FilteredName(loc.dirNameFilter, logicalName)
    ensures loc.subDirPath.Some? ==> StartsWith(r, loc.subDirPath.value + "/")
    ensures loc.subDirPath.Some? ==> r[|loc.subDirPath.value| + 1..] == FilteredName(loc.dirNameFilter, logicalName)
    ensures loc.subDirPath.None? && loc.dirNameFilter.None? ==> r == logicalName
  {
    var dirName := FilteredName(loc.dirNameFilter, logicalName);
    match loc.subDirPath
    case None => dirName
    case Some(sub) =>
      var r := sub + "/" + dirName;
      assert r[..|sub| + 1] == sub + "/";
      assert r[|sub| + 1..] == dirName;
      r
  }

  /** `getDirNameMatcher`: no matcher without a filter; an anchored-at-start
      filter may be followed by anything, any other filter may be preceded
      by anything. */
  function GetDirNameMatcher(filter: Option<string>): (r: Option<string>)
    ensures r.None? <==> filter.None?
    ensures filter.Some? && StartsWith(filter.value, "^") ==> r.value == filter.value + ".*"
    ensures filter.Some? && !StartsWith(filter.value, "^") ==> r.value == ".*" + filter.value
  {
    match filter
    case None => None
    case Some(f) => if StartsWith(f, "^") then Some(f + ".*") else Some(".*" + f)
  }

  /** `couldSupportLogicalNodeName`: every logical name could be supported. */
  function CouldSupportLogicalNodeName(loc: Locator, logicalName: string): (r: bool)
    ensures r
  {
    true
  }

  // ---------------------------------------------------------------------------
  // getLogicalNodeNames

  /** A listed child is kept when it is a directory, matches the name matcher
      (if any), passes the contents filter and misses the exclude matcher (if any). */
  predicate Kept(loc: Locator, engine: RegexEngine, accept: DirEntry -> bool, e: DirEntry) {
    var matcher := GetDirNameMatcher(loc.dirNameFilter);
    var exclude := GetDirNameMatcher(loc.dirNameExcludeFilter);
    e.isDirectory && (matcher.None? || engine.matches(e.name, matcher.value)) && accept(e)
    && !(exclude.Some? && engine.matches(e.name, exclude.value))
  }

  /** The logical name of a kept directory: the name filter removed from it. */
  function LogicalName(loc: Locator, engine: RegexEngine, dirName: string): string {
    match loc.dirNameFilter
    case None => dirName
    case Some(f) => engine.replaceAll(dirName, f, "")
  }

  /** The logical names of the kept entries, in listing order. */
  function ListNames(loc: Locator, engine: RegexEngine, accept: DirEntry -> bool, dirs: seq<DirEntry>): (r: seq<string>)
    ensures |r| <= |dirs|
    ensures forall x :: x in r <==> exists i :: 0 <= i < |dirs| && Kept(loc, engine, accept, dirs[i]) && x == LogicalName(loc, engine, dirs[i].name)
    decreases |dirs|
  {
    if dirs == [] then []
    else
      var rest := ListNames(loc, engine, accept, dirs[1..]);
      assert forall i :: 1 <= i < |dirs| ==> dirs[i] == dirs[1..][i - 1];
      if Kept(loc, engine, accept, dirs[0]) then [LogicalName(loc, engine, dirs[0].name)] + rest else rest
  }

  /** Listing distributes over concatenation: the names keep listing order. */
  lemma {:induction false} ListNamesDistribute(loc: Locator, engine: RegexEngine, accept: DirEntry -> bool, a: seq<DirEntry>, b: seq<DirEntry>)
    ensures ListNames(loc, engine, accept, a + b) == ListNames(loc, engine, accept, a) + ListNames(loc, engine, accept, b)
    decreases |a|
  {
    if a != [] {
      assert (a + b)[0] == a[0] && (a + b)[1..] == a[1..] + b;
      ListNamesDistribute(loc, engine, accept, a[1..], b);
    } else {
      assert a + b == b;
    }
  }

  /** `getLogicalNodeNames`: `listing` is the child directory's contents, or
      `None` when that directory does not exist. */
  function GetLogicalNodeNames(loc: Locator, engine: RegexEngine, accept: DirEntry -> bool, listing: Option<seq<DirEntry>>): (r: seq<string>)
    ensures listing.None? ==> r == []
    ensures listing.Some? ==> |r| <= |listing.value|
    ensures listing.Some? ==> forall x :: x in r <==> exists i :: (0 <= i < |listing.value|
      && Kept(loc, engine, accept, listing.value[i]) && x == LogicalName(loc, engine, listing.value[i].name))
  {
    match listing
    case None => []
    case Some(dirs) => ListNames(loc, engine, accept, dirs)
  }

  // ---------------------------------------------------------------------------
  // Literal anchored filters

  /** The characters with a meaning in a Java regular expression. */
  const RegexMetachars: set<char> := {'\\', '^', '$', '.', '|', '?', '*', '+', '(', ')', '[', ']', '{', '}'}

  /** A pattern that matches exactly its own text. */
  predicate IsLiteral(s: string) {
    forall i :: 0 <= i < |s| ==> s[i] !in RegexMetachars
  }

  /** The two filter forms with a fixed meaning: a literal prefix `^p` and a
      literal suffix `s$`. */
  datatype Anchor = Leading(prefix: string) | Trailing(suffix: string)

  /** Reading a filter as an anchored literal. */
  function AnchorOf(filter: string): (r: Option<Anchor>)
    ensures StartsWith(filter, "^") && IsLiteral(filter[1..]) ==> r == Some(Leading(filter[1..]))
    ensures !StartsWith(filter, "^") && EndsWith(filter, "$") && IsLiteral(filter[..|filter| - 1]) ==>
      r == Some(Trailing(filter[..|filter| - 1]))
    ensures r.Some? && r.value.Leading? ==> StartsWith(filter, "^") && filter == "^" + r.value.prefix && IsLiteral(r.value.prefix)
    ensures r.Some? && r.value.Trailing? ==>
      (!StartsWith(filter, "^") && filter == r.value.suffix + "$" && IsLiteral(r.value.suffix))
  {
    if StartsWith(filter, "^") then
      if IsLiteral(filter[1..]) then Some(Leading(filter[1..])) else None
    else if EndsWith(filter, "$") && IsLiteral(filter[..|filter| - 1]) then Some(Trailing(filter[..|filter| - 1]))
    else None
  }

  /** Reading a matcher as `^p.*` or `.*s$` with `p`, `s` literal. */
  function MatcherAnchor(m: string): Option<Anchor> {
    if |m| >= 3 && m[0] == '^' && m[|m| - 2..] == ".*" && IsLiteral(m[1..|m| - 2]) then Some(Leading(m[1..|m| - 2]))
    else if |m| >= 3 && m[..2] == ".*" && m[|m| - 1] == '$' && IsLiteral(m[2..|m| - 1]) then Some(Trailing(m[2..|m| - 1]))
    else None
  }

  /** The meaning of `matches` and `replaceAll` for anchored literal patterns
      over names without line terminators. Other patterns match nothing and
      replace nothing. */
  function LiteralMatches(name: string, m: string): bool {
    match MatcherAnchor(m)
    case Some(Leading(p)) => StartsWith(name, p)
    case Some(Trailing(s)) => EndsWith(name, s)
    case None => false
  }

  function LiteralReplaceAll(name: string, pattern: string, replacement: string): string {
    match AnchorOf(pattern)
    case Some(Leading(p)) => if StartsWith(name, p) then replacement + name[|p|..] else name
    case Some(Trailing(s)) => if EndsWith(name, s) then name[..|name| - |s|] + replacement else name
    case None => name
  }

  const LiteralEngine: RegexEngine := RegexEngine(LiteralMatches, LiteralReplaceAll)

  /** The matcher built from an anchored literal filter reads back as the
      same anchor. */
  lemma MatcherKeepsAnchor(f: string, a: Anchor)
    requires AnchorOf(f) == Some(a)
    ensures GetDirNameMatcher(Some(f)).Some? && MatcherAnchor(GetDirNameMatcher(Some(f)).value) == Some(a)
  {
    var m := GetDirNameMatcher(Some(f)).value;
    match a
    case Leading(p) =>
      assert m == f + ".*" && f == "^" + p;
      assert m[1..|m| - 2] == p;
    case Trailing(s) =>
      assert f == s + "$";
      assert m == ".*" + s + "$";
      assert m[2..|m| - 1] == s;
  }

  /** For an anchored literal filter, the directory named by `getDirName`
      matches the name matcher, and removing the filter from it (as the
      listing does) gives back the logical name. */
  lemma DirNameRoundTrip(f: string, a: Anchor, n: string)
    requires AnchorOf(f) == Some(a)
    ensures LiteralMatches(FilteredName(Some(f), n), GetDirNameMatcher(Some(f)).value)
    ensures LiteralReplaceAll(FilteredName(Some(f), n), f, "") == n
  {
    MatcherKeepsAnchor(f, a);
    var d := FilteredName(Some(f), n);
    match a
    case Leading(p) =>
      assert d == p + n;
      assert d[..|p|] == p && d[|p|..] == n;
    case Trailing(s) =>
      assert d == n + s;
      assert d[|d| - |s|..] == s && d[..|d| - |s|] == n;
  }

  /** Conversely, a directory that the name matcher accepts is what
      `getDirName` produces for the logical name the listing gives it. */
  lemma ListedNameRoundTrip(f: string, a: Anchor, d: string)
    requires AnchorOf(f) == Some(a)
    requires LiteralMatches(d, GetDirNameMatcher(Some(f)).value)
    ensures FilteredName(Some(f), LiteralReplaceAll(d, f, "")) == d
  {
    MatcherKeepsAnchor(f, a);
    match a
    case Leading(p) => LeadingNameRoundTrip(f, p, d);
    case Trailing(s) => TrailingNameRoundTrip(f, s, d);
  }

  lemma LeadingNameRoundTrip(f: string, p: string, d: string)
    requires AnchorOf(f) == Some(Leading(p)) && StartsWith(d, p)
    ensures FilteredName(Some(f), LiteralReplaceAll(d, f, "")) == d
  {
    var x := d[|p|..];
    assert LiteralReplaceAll(d, f, "") == x;
    assert f[1..] == p;
    assert d == p + x;
  }

  lemma TrailingNameRoundTrip(f: string, s: string, d: string)
    requires AnchorOf(f) == Some(Trailing(s)) && EndsWith(d, s)
    ensures FilteredName(Some(f), LiteralReplaceAll(d, f, "")) == d
  {
    var x := d[..|d| - |s|];
    assert LiteralReplaceAll(d, f, "") == x;
    assert f[..|f| - 1] == s;
    assert d == x + s;
  }

  /** Every name the locator lists for an anchored literal filter leads back,
      through `getDirName` without a sub-directory, to a listed directory. */
  lemma ListedNamesLeadBackToDirectories(loc: Locator, f: string, a: Anchor, accept: DirEntry -> bool, dirs: seq<DirEntry>)
    requires loc.dirNameFilter == Some(f) && loc.subDirPath.None? && AnchorOf(f) == Some(a)
    ensures forall x :: x in GetLogicalNodeNames(loc, LiteralEngine, accept, Some(dirs)) ==>
      exists i :: 0 <= i < |dirs| && dirs[i].isDirectory && GetDirName(loc, x) == dirs[i].name
  {
    forall x | x in GetLogicalNodeNames(loc, LiteralEngine, accept, Some(dirs))
      ensures exists i :: 0 <= i < |dirs| && dirs[i].isDirectory && GetDirName(loc, x) == dirs[i].name
    {
      var i :| 0 <= i < |dirs| && Kept(loc, LiteralEngine, accept, dirs[i]) && x == LogicalName(loc, LiteralEngine, dirs[i].name);
      ListedNameRoundTrip(f, a, dirs[i].name);
    }
  }

  /** The directory `getDirName` names for `n` lists as `n`, when it is
      present, accepted and not excluded. */
  lemma DirectoryOfNameIsListed(loc: Locator, f: string, a: Anchor, accept: DirEntry -> bool, dirs: seq<DirEntry>, n: string)
    requires loc.dirNameFilter == Some(f) && loc.subDirPath.None? && loc.dirNameExcludeFilter.None? && AnchorOf(f) == Some(a)
    requires DirEntry(GetDirName(loc, n), true) in dirs && accept(DirEntry(GetDirName(loc, n), true))
    ensures n in GetLogicalNodeNames(loc, LiteralEngine, accept, Some(dirs))
  {
    DirNameRoundTrip(f, a, n);
    var e := DirEntry(GetDirName(loc, n), true);
    assert Kept(loc, LiteralEngine, accept, e);
    var i :| 0 <= i < |dirs| && dirs[i] == e;
    assert n == LogicalName(loc, LiteralEngine, dirs[i].name);
  }

  /** The bladeset locator's suffix filter turns the bladeset `bs` into the
      directory `bs-bladeset`. */
  lemma BladesetDirectoryName()
    ensures GetDirName(Locator(None, Some("-bladeset$"), None), "bs") == "bs-bladeset"
  {
    var f := "-bladeset$";
    assert f[..1] == "-" && !StartsWith(f, "^");
    assert f[|f| - 1..] == "$" && EndsWith(f, "$");
    assert f[..|f| - 1] == "-bladeset";
    assert FilteredName(Some(f), "bs") == "bs" + "-bladeset";
  }
}

=== FILE: namespaced_js.dfy ===
/** `NamespacedJsSourceModule`: require path and class name derived from the
    file's path relative to its container's `src` directory, and the
    order dependencies inferred from `(caplin|br).(extend|implement)(a, B)`
    calls in the file's text. */
module NamespacedJs {
  import opened Wrappers
  import opened Strings
  import opened AssetModel
  import Aliasing

  /** A namespaced module, identified by its path relative to `src`. */
  datatype NamespacedJsSourceModule = NamespacedJsSourceModule(relativePath: string)

  /** The relative path with one trailing `.js` removed (`replaceAll("\\.js$", "")`). */
  function RelativeRequirePath(rel: string): string {
    if EndsWith(rel, ".js") then rel[..|rel| - 3] else rel
  }

  function RequirePath(m: NamespacedJsSourceModule): string {
    "/" + RelativeRequirePath(m.relativePath)
  }

  function ClassName(m: NamespacedJsSourceModule): string {
    ReplaceChar(RelativeRequirePath(m.relativePath), '/', '.')
  }

  /** `getNamespacedName` is the class name: the require path without its
      leading `/`, with slashes turned into dots. */
  function NamespacedName(m: NamespacedJsSourceModule): (r: string)
    ensures |r| + 1 == |RequirePath(m)| && '/' !in r
    ensures forall i :: 0 <= i < |r| ==> r[i] == if RequirePath(m)[i + 1] == '/' then '.' else RequirePath(m)[i + 1]
  {
    ClassName(m)
  }

  /** Namespaced modules are never encapsulated (CommonJS) modules. */
  function IsEncapsulatedModule(m: NamespacedJsSourceModule): (r: bool)
    ensures !r
  {
    false
  }

  /** The require path is `/` followed by the relative path minus one `.js`;
      the class name is the same text with `/` turned into `.`. */
  lemma DerivedPaths(m: NamespacedJsSourceModule)
    ensures RequirePath(m)[0] == '/'
    ensures EndsWith(m.relativePath, ".js") ==> RequirePath(m)[1..] + ".js" == m.relativePath
    ensures !EndsWith(m.relativePath, ".js") ==> RequirePath(m)[1..] == m.relativePath
    ensures ClassName(m) == ReplaceChar(RequirePath(m)[1..], '/', '.')
  {
    var rel := m.relativePath;
    assert RequirePath(m)[1..] == RelativeRequirePath(rel);
    if EndsWith(rel, ".js") {
      assert rel == rel[..|rel| - 3] + rel[|rel| - 3..];
    }
  }

  /** An alias naming a module's class name leads back to that module's
      require path, provided the path has no dots of its own. */
  lemma {:induction false} AliasOfClassNameReachesModule(m: NamespacedJsSourceModule, aliasName: string)
    requires '.' !in RelativeRequirePath(m.relativePath)
    ensures "/" + Aliasing.RequirePath(Aliasing.AliasDefinition(aliasName, Some(ClassName(m)), None)) == RequirePath(m)
  {
    var rel := RelativeRequirePath(m.relativePath);
    var back := Aliasing.RequirePath(Aliasing.AliasDefinition(aliasName, Some(ClassName(m)), None));
    assert |back| == |rel|;
    forall i | 0 <= i < |rel| ensures back[i] == rel[i] {
      assert rel[i] != '.';
    }
  }

  // ---------------------------------------------------------------------------
  // The extend pattern `(caplin|br)\.(extend|implement)\([^,]+,\s*([^)]+)\)`
  // ---------------------------------------------------------------------------

  /** Java's `\s`: space, tab, newline, vertical tab, form feed, carriage return. */
  predicate IsWhitespace(c: char) {
    c == ' ' || c == '\t' || c == '\n' || c == '\U{B}' || c == '\U{C}' || c == '\r'
  }

  /** The four literal openings of a match. */
  predicate IsCallPrefix(p: string) {
    p == "caplin." + "extend(" || p == "caplin." + "implement(" || p == "br." + "extend(" || p == "br." + "implement("
  }

  /** `(caplin|br)\.` at `i`: the length of the namespace and its dot. */
  function NamespaceLength(s: string, i: nat): (r: Option<nat>)
    ensures r.Some? ==> i + r.value <= |s| && (r.value == 7 || r.value == 3)
  {
    if i + 7 <= |s| && s[i] == 'c' && s[i + 1] == 'a' && s[i + 2] == 'p' && s[i + 3] == 'l'
      && s[i + 4] == 'i' && s[i + 5] == 'n' && s[i + 6] == '.' then Some(7)
    else if i + 3 <= |s| && s[i] == 'b' && s[i + 1] == 'r' && s[i + 2] == '.' then Some(3)
    else None
  }

  /** `(extend|implement)\(` at `j`: the length of the method name and its parenthesis. */
  function MethodLength(s: string, j: nat): (r: Option<nat>)
    ensures r.Some? ==> j + r.value <= |s| && (r.value == 7 || r.value == 10) && s[j + r.value - 1] == '('
  {
    if j + 7 <= |s| && s[j] == 'e' && s[j + 1] == 'x' && s[j + 2] == 't' && s[j + 3] == 'e'
      && s[j + 4] == 'n' && s[j + 5] == 'd' && s[j + 6] == '(' then Some(7)
    else if j + 10 <= |s| && s[j] == 'i' && s[j + 1] == 'm' && s[j + 2] == 'p' && s[j + 3] == 'l'
      && s[j + 4] == 'e' && s[j + 5] == 'm' && s[j + 6] == 'e' && s[j + 7] == 'n' && s[j + 8] == 't'
      && s[j + 9] == '(' then Some(10)
    else None
  }

  /** Length of the call opening starting at `i`, if there is one. At most one
      alternative can match at a position, so the order of the alternatives
      does not matter. */
  function CallPrefixLength(s: string, i: nat): (r: Option<nat>)
    ensures r.Some? ==> 0 < r.value && i + r.value <= |s| && s[i + r.value - 1] == '('
  {
    match NamespaceLength(s, i)
    case None => None
    case Some(a) =>
      match MethodLength(s, i + a)
      case None => None
      case Some(b) => Some(a + b)
  }

  /** The recognised openings are exactly the four literal ones. */
  lemma CallPrefixLengthMeaning(s: string, i: nat)
    ensures CallPrefixLength(s, i).Some? ==> IsCallPrefix(s[i..i + CallPrefixLength(s, i).value])
  {
    if CallPrefixLength(s, i).Some? {
      var n := CallPrefixLength(s, i).value;
      var a := NamespaceLength(s, i).value;
      var t := s[i..i + n];
      assert forall k :: 0 <= k < n ==> t[k] == s[i + k];
      if a == 7 {
        if n == 14 { assert t == "caplin." + "extend("; } else { assert t == "caplin." + "implement("; }
      } else {
        if n == 10 { assert t == "br." + "extend("; } else { assert t == "br." + "implement("; }
      }
    }
  }

  /** Each literal opening is recognised with its own length. */
  lemma CallOpeningRecognised(p: string, rest: string)
    requires IsCallPrefix(p)
    ensures CallPrefixLength(p + rest, 0) == Some(|p|)
  {
    if p == "caplin." + "extend(" {
      OpeningAt("caplin.", 7, "extend(", 7, rest);
    } else if p == "caplin." + "implement(" {
      OpeningAt("caplin.", 7, "implement(", 10, rest);
    } else if p == "br." + "extend(" {
      OpeningAt("br.", 3, "extend(", 7, rest);
    } else {
      OpeningAt("br.", 3, "implement(", 10, rest);
    }
  }

  /** A namespace followed by a method name is an opening of their joint length. */
  lemma OpeningAt(ns: string, a: nat, m: string, b: nat, rest: string)
    requires (ns == "caplin." && a == 7) || (ns == "br." && a == 3)
    requires (m == "extend(" && b == 7) || (m == "implement(" && b == 10)
    ensures CallPrefixLength(ns + m + rest, 0) == Some(a + b)
  {
    var s := ns + m + rest;
    assert forall k :: 0 <= k < |ns| ==> s[k] == ns[k];
    NamespaceAt(s, ns, a);
    assert forall k :: 0 <= k < |m| ==> s[a + k] == m[k];
    MethodAt(s, a, m, b);
  }

  /** Either namespace, followed by anything, is recognised with its length. */
  lemma NamespaceAt(s: string, ns: string, n: nat)
    requires (ns == "caplin." && n == 7) || (ns == "br." && n == 3)
    requires |ns| <= |s| && forall k :: 0 <= k < |ns| ==> s[k] == ns[k]
    ensures NamespaceLength(s, 0) == Some(n)
  {
  }

  /** Either method name, followed by anything, is recognised with its length. */
  lemma MethodAt(s: string, j: nat, m: string, n: nat)
    requires (m == "extend(" && n == 7) || (m == "implement(" && n == 10)
    requires j + |m| <= |s| && forall k :: 0 <= k < |m| ==> s[j + k] == m[k]
    ensures MethodLength(s, j) == Some(n)
  {
    assert s[j] == m[0] && s[j + 1] == m[1] && s[j + 2] == m[2] && s[j + 3] == m[3];
    assert s[j + 4] == m[4] && s[j + 5] == m[5] && s[j + 6] == m[6];
    if n == 10 {
      assert s[j + 7] == m[7] && s[j + 8] == m[8] && s[j + 9] == m[9];
    }
  }

  /** Index of the first `c` at or after `from`, if any. */
  function NextIndexOf(s: string, c: char, from: nat): (r: Option<nat>)
    requires from <= |s|
    ensures r.Some? ==> from <= r.value < |s| && s[r.value] == c
    ensures r.Some? ==> forall j :: from <= j < r.value ==> s[j] != c
    ensures r.None? ==> forall j :: from <= j < |s| ==> s[j] != c
    decreases |s| - from
  {
    if from == |s| then None
    else if s[from] == c then Some(from)
    else NextIndexOf(s, c, from + 1)
  }

  /** The end of the run of `\s` characters starting at `from`, stopping at `to`. */
  function SkipWhitespace(s: string, from: nat, to: nat): (r: nat)
    requires from <= to <= |s|
    ensures from <= r <= to
    ensures forall j :: from <= j < r ==> IsWhitespace(s[j])
    ensures r < to ==> !IsWhitespace(s[r])
    decreases |s| - from
  {
    if from < to && IsWhitespace(s[from]) then SkipWhitespace(s, from + 1, to) else from
  }

  /** One match: the third group and the index just past the closing `)`. */
  datatype ExtendMatch = ExtendMatch(target: string, end: nat)

  /** `[^,]+,` from `a`: the first comma, which must not be at `a` itself. */
  function FirstArgumentEnd(s: string, a: nat): (r: Option<nat>)
    requires a <= |s|
    ensures r.Some? ==> a < r.value < |s| && s[r.value] == ','
    ensures r.Some? ==> forall j :: a <= j < r.value ==> s[j] != ','
    ensures r.None? ==> (forall j :: a <= j < |s| ==> s[j] != ',') || (a < |s| && s[a] == ',')
  {
    match NextIndexOf(s, ',', a)
    case None => None
    case Some(c) => if c == a then None else Some(c)
  }

  /** `[^)]+\)` after the comma at `c`: the first `)`, which must not follow
      the comma directly. */
  function ClosingParen(s: string, c: nat): (r: Option<nat>)
    requires c < |s|
    ensures r.Some? ==> c + 1 < r.value < |s| && s[r.value] == ')'
    ensures r.Some? ==> forall j :: c < j < r.value ==> s[j] != ')'
    ensures r.None? ==> (forall j :: c < j < |s| ==> s[j] != ')') || (c + 1 < |s| && s[c + 1] == ')')
  {
    match NextIndexOf(s, ')', c + 1)
    case None => None
    case Some(q) => if q == c + 1 then None else Some(q)
  }

  /** Start of `([^)]+)` between the comma at `c` and the `)` at `q`: greedy
      `\s*` takes all whitespace, giving back one character when nothing
      else is left for the group. */
  function TargetStart(s: string, c: nat, q: nat): (t: nat)
    requires c + 1 < q <= |s|
    ensures c < t < q
    ensures forall j :: c < j < t ==> IsWhitespace(s[j])
    ensures t + 1 < q ==> !IsWhitespace(s[t])
  {
    var w := SkipWhitespace(s, c + 1, q);
    if w < q then w else q - 1
  }

  /** The rest of a match once the call opening ends at `a`. */
  function MatchAfterOpening(s: string, a: nat): (r: Option<ExtendMatch>)
    requires a <= |s|
    ensures r.Some? ==> a < r.value.end <= |s|
  {
    match FirstArgumentEnd(s, a)
    case None => None
    case Some(c) =>
      match ClosingParen(s, c)
      case None => None
      case Some(q) => Some(ExtendMatch(s[TargetStart(s, c, q)..q], q + 1))
  }

  /** The match of the pattern starting exactly at `i`, with Java's
      backtracking behaviour. */
  function MatchAt(s: string, i: nat): (r: Option<ExtendMatch>)
    requires i <= |s|
    ensures r.Some? ==> i < r.value.end <= |s|
  {
    match CallPrefixLength(s, i)
    case None => None
    case Some(n) => MatchAfterOpening(s, i + n)
  }

  /** A match can only start where a call opening, ending in `(`, starts. */
  lemma MatchStartsWithParenthesis(s: string, i: nat)
    requires i <= |s|
    ensures MatchAt(s, i).Some? ==> '(' in s
  {
    if MatchAt(s, i).Some? {
      var n := CallPrefixLength(s, i).value;
      assert s[i + n - 1] == '(';
    }
  }

  /** Where a match found at `i` sits in the text. */
  lemma MatchShape(s: string, i: nat)
    requires i <= |s| && MatchAt(s, i).Some?
    ensures Shaped(s, MatchAt(s, i).value)
    ensures |MatchAt(s, i).value.target| < MatchAt(s, i).value.end - i
  {
    var n := CallPrefixLength(s, i).value;
    MatchAtOpening(s, i, n);
    AfterOpeningShape(s, i + n);
  }

  /** A match ends with `)` and its target is the non-empty, `)`-free text
      right before it. */
  predicate Shaped(s: string, m: ExtendMatch) {
    |m.target| < m.end <= |s| && s[m.end - 1] == ')'
    && m.target == s[m.end - 1 - |m.target|..m.end - 1]
    && m.target != [] && ')' !in m.target
  }

  lemma AfterOpeningShape(s: string, a: nat)
    requires a <= |s| && MatchAfterOpening(s, a).Some?
    ensures Shaped(s, MatchAfterOpening(s, a).value)
    ensures |MatchAfterOpening(s, a).value.target| < MatchAfterOpening(s, a).value.end - a
  {
    var c := FirstArgumentEnd(s, a).value;
    var q := ClosingParen(s, c).value;
    var t := TargetStart(s, c, q);
    var m := MatchAfterOpening(s, a).value;
    assert m == ExtendMatch(s[t..q], q + 1);
    assert forall k :: 0 <= k < |m.target| ==> m.target[k] == s[t + k];
  }

  lemma MatchAtOpening(s: string, i: nat, n: nat)
    requires i <= |s| && CallPrefixLength(s, i) == Some(n)
    ensures MatchAt(s, i) == MatchAfterOpening(s, i + n)
  {
  }

  /** A call written as opening, non-empty comma-free first argument, comma,
      whitespace, then a class reference not starting with whitespace and
      containing no `)`, is matched with exactly that reference. */
  lemma WrittenCallIsMatched(p: string, first: string, ws: string, target: string, rest: string)
    requires IsCallPrefix(p)
    requires first != [] && ',' !in first
    requires forall j :: 0 <= j < |ws| ==> IsWhitespace(ws[j])
    requires target != [] && ')' !in target && !IsWhitespace(target[0])
    ensures MatchAt(p + first + "," + ws + target + ")" + rest, 0)
      == Some(ExtendMatch(target, |p| + |first| + 1 + |ws| + |target| + 1))
  {
    var t := first + "," + ws + target + ")" + rest;
    assert p + first + "," + ws + target + ")" + rest == p + t;
    CallOpeningRecognised(p, t);
    MatchAtOpening(p + t, 0, |p|);
    WrittenArgumentsMatched(p, first, ws, target, rest);
  }

  /** The arguments of a written call, after any opening `p`. */
  lemma WrittenArgumentsMatched(p: string, first: string, ws: string, target: string, rest: string)
    requires first != [] && ',' !in first
    requires forall j :: 0 <= j < |ws| ==> IsWhitespace(ws[j])
    requires target != [] && ')' !in target && !IsWhitespace(target[0])
    ensures MatchAfterOpening(p + (first + "," + ws + target + ")" + rest), |p|)
      == Some(ExtendMatch(target, |p| + |first| + 1 + |ws| + |target| + 1))
  {
    var t := first + "," + ws + target + ")" + rest;
    var c := |first|;
    var w := c + 1 + |ws|;
    var q := w + |target|;
    ArgumentsLayout(first, ws, target, rest);
    assert t[w..q] == target && t[w] == target[0];
    assert 0 < c < w < q < |t|;
    ShiftedArgumentsMatched(p, t, c, w, q);
    assert |p| + q + 1 == |p| + |first| + 1 + |ws| + |target| + 1;
    assert ExtendMatch(t[w..q], |p| + q + 1) == ExtendMatch(target, |p| + |first| + 1 + |ws| + |target| + 1);
  }

  /** Where the comma, the whitespace, the target and the `)` sit in the
      arguments of a written call. */
  lemma ArgumentsLayout(first: string, ws: string, target: string, rest: string)
    requires ',' !in first
    requires forall j :: 0 <= j < |ws| ==> IsWhitespace(ws[j])
    requires ')' !in target
    ensures var t := first + "," + ws + target + ")" + rest;
      var c := |first|;
      var w := c + 1 + |ws|;
      var q := w + |target|;
      q < |t| && t[c] == ',' && t[q] == ')' && t[w..q] == target
      && (forall j :: 0 <= j < c ==> t[j] != ',')
      && (forall j :: c < j < w ==> IsWhitespace(t[j]))
      && (forall j :: w <= j < q ==> t[j] != ')')
  {
    var tail := ws + target + ")" + rest;
    var t := first + "," + tail;
    assert t == first + "," + ws + target + ")" + rest;
    var c := |first|;
    forall j | 0 <= j < c ensures t[j] != ',' {
      assert t[j] == first[j];
    }
    TailIndices(ws, target, rest);
    forall j | c < j < |t| ensures t[j] == tail[j - c - 1] {
    }
  }

  /** Positions in `ws + target + ")" + rest`. */
  lemma TailIndices(ws: string, target: string, rest: string)
    ensures var t := ws + target + ")" + rest;
      (forall j :: 0 <= j < |ws| ==> t[j] == ws[j])
      && (forall j :: |ws| <= j < |ws| + |target| ==> t[j] == target[j - |ws|])
      && t[|ws| + |target|] == ')'
      && t[|ws|..|ws| + |target|] == target
  {
  }

  /** `ArgumentsMatched` for arguments that follow an opening `p`. */
  lemma ShiftedArgumentsMatched(p: string, t: string, c: nat, w: nat, q: nat)
    requires 0 < c < w <= q < |t|
    requires t[c] == ',' && forall j :: 0 <= j < c ==> t[j] != ','
    requires t[q] == ')' && forall j :: w <= j < q ==> t[j] != ')'
    requires forall j :: c < j < w ==> IsWhitespace(t[j])
    requires w < q && !IsWhitespace(t[w])
    ensures MatchAfterOpening(p + t, |p|) == Some(ExtendMatch(t[w..q], |p| + q + 1))
  {
    var s := p + t;
    var n := |p|;
    forall j | n <= j < |s| ensures s[j] == t[j - n] {
    }
    assert s[n + w..n + q] == t[w..q];
    ArgumentsMatched(s, n, n + c, n + w, n + q);
  }

  /** Index form: opening ending at `a`, comma at `c`, the class reference
      from `w` up to the `)` at `q`, only whitespace between comma and `w`. */
  lemma ArgumentsMatched(s: string, a: nat, c: nat, w: nat, q: nat)
    requires a < c < w < q < |s|
    requires s[c] == ',' && forall j :: a <= j < c ==> s[j] != ','
    requires s[q] == ')' && forall j :: c < j < q ==> s[j] != ')'
    requires !IsWhitespace(s[w]) && forall j :: c < j < w ==> IsWhitespace(s[j])
    ensures MatchAfterOpening(s, a) == Some(ExtendMatch(s[w..q], q + 1))
  {
    assert FirstArgumentEnd(s, a) == Some(c);
    assert ClosingParen(s, c) == Some(q);
    assert SkipWhitespace(s, c + 1, q) == w;
  }

  /** All third groups of `matcher.find()`, left to right and non-overlapping,
      starting the search at `from`. */
  function Candidates(s: string, from: nat): (r: seq<string>)
    requires from <= |s|
    ensures |r| <= |s| - from
    decreases |s| - from
  {
    if from == |s| then []
    else match MatchAt(s, from)
      case Some(m) => [m.target] + Candidates(s, m.end)
      case None => Candidates(s, from + 1)
  }

  /** Every candidate is a non-empty class reference free of `)`. */
  lemma {:induction false} CandidatesShape(s: string, from: nat)
    requires from <= |s|
    ensures forall j :: 0 <= j < |Candidates(s, from)| ==> Candidates(s, from)[j] != [] && ')' !in Candidates(s, from)[j]
    decreases |s| - from
  {
    if from < |s| {
      match MatchAt(s, from)
      case Some(m) =>
        MatchShape(s, from);
        CandidatesShape(s, m.end);
        assert Candidates(s, from) == [m.target] + Candidates(s, m.end);
      case None =>
        CandidatesShape(s, from + 1);
    }
  }

  /** Text without an opening parenthesis holds no match at all. */
  lemma {:induction false} NoParenthesisNoCandidates(s: string, from: nat)
    requires from <= |s|
    ensures '(' !in s ==> Candidates(s, from) == []
    decreases |s| - from
  {
    if '(' !in s && from < |s| {
      MatchStartsWithParenthesis(s, from);
      NoParenthesisNoCandidates(s, from + 1);
    }
  }

  /** Each candidate becomes the require path `/` + dots-to-slashes. */
  function CandidatePaths(targets: seq<string>): (paths: seq<string>)
    ensures |paths| == |targets|
    ensures forall j :: 0 <= j < |targets| ==> paths[j] == "/" + Aliasing.DotsToSlashes(targets[j])
  {
    if targets == [] then [] else ["/" + Aliasing.DotsToSlashes(targets[0])] + CandidatePaths(targets[1..])
  }

  /** A resolution failure that aborts the extraction: anything but unresolvable. */
  predicate HardFailure(r: Result<AssetId, RequirePathError>) {
    r.Failure? && !r.error.Unresolvable?
  }

  /** Resolve the candidate paths in order: keep resolved modules, silently
      drop unresolvable ones, abort on any other require-path error. */
  function ResolveCandidates(paths: seq<string>, getSourceModule: string -> Result<AssetId, RequirePathError>)
    : (r: Result<seq<AssetId>, Cause>)
    ensures r.Success? <==> forall j :: 0 <= j < |paths| ==> !HardFailure(getSourceModule(paths[j]))
    ensures r.Success? ==> |r.value| <= |paths|
    ensures r.Success? ==> forall k :: 0 <= k < |r.value| ==>
      exists j :: 0 <= j < |paths| && getSourceModule(paths[j]) == Success(r.value[k])
    ensures r.Failure? ==> exists j :: (0 <= j < |paths| && HardFailure(getSourceModule(paths[j]))
      && r.error == RequirePathFailure(getSourceModule(paths[j]).error)
      && forall i :: 0 <= i < j ==> !HardFailure(getSourceModule(paths[i])))
  {
    if paths == [] then Success([])
    else
      var tail := paths[1..];
      assert forall j :: 1 <= j < |paths| ==> paths[j] == tail[j - 1];
      var rest := ResolveCandidates(tail, getSourceModule);
      var r := ResolveStep(getSourceModule(paths[0]), rest);
      assert r.Success? && getSourceModule(paths[0]).Success? ==>
        forall k :: 1 <= k < |r.value| ==> r.value[k] == rest.value[k - 1];
      r
  }

  /** One candidate's resolution in front of the rest's. */
  function ResolveStep(head: Result<AssetId, RequirePathError>, rest: Result<seq<AssetId>, Cause>)
    : Result<seq<AssetId>, Cause>
  {
    match head
    case Success(m) => if rest.Failure? then Failure(rest.error) else Success([m] + rest.value)
    case Failure(e) => if e.Unresolvable? then rest else Failure(RequirePathFailure(e))
  }


  /** When every candidate resolves, the result lists them one per match, in order. */
  lemma {:induction false} AllResolvedKeepsEveryMatch(paths: seq<string>, getSourceModule: string -> Result<AssetId, RequirePathError>)
    requires forall j :: 0 <= j < |paths| ==> getSourceModule(paths[j]).Success?
    ensures ResolveCandidates(paths, getSourceModule).Success?
    ensures |ResolveCandidates(paths, getSourceModule).value| == |paths|
    ensures forall j :: 0 <= j < |paths| ==>
      ResolveCandidates(paths, getSourceModule).value[j] == getSourceModule(paths[j]).value
  {
    if paths != [] {
      AllResolvedKeepsEveryMatch(paths[1..], getSourceModule);
    }
  }

  /** Dropping an unresolvable candidate changes nothing. */
  lemma {:induction false} UnresolvableCandidateIsDropped(
    before: seq<string>, p: string, after: seq<string>, getSourceModule: string -> Result<AssetId, RequirePathError>)
    requires getSourceModule(p).Failure? && getSourceModule(p).error.Unresolvable?
    ensures ResolveCandidates(before + [p] + after, getSourceModule) == ResolveCandidates(before + after, getSourceModule)
  {
    if before == [] {
      assert before + [p] + after == [p] + after;
      assert ([p] + after)[1..] == after;
      assert before + after == after;
    } else {
      assert (before + [p] + after)[0] == before[0];
      assert (before + [p] + after)[1..] == before[1..] + [p] + after;
      assert (before + after)[0] == before[0];
      assert (before + after)[1..] == before[1..] + after;
      UnresolvableCandidateIsDropped(before[1..], p, after, getSourceModule);
    }
  }

  /** `getOrderDependentSourceModules`: read the file (`None` is an I/O error),
      match the pattern, resolve each candidate against the bundlable node. */
  function OrderDependentSourceModules(contents: Option<string>, getSourceModule: string -> Result<AssetId, RequirePathError>)
    : (r: Result<seq<AssetId>, Cause>)
    ensures contents.None? ==> r == Failure(ReadFailure)
    ensures contents.Some? ==> r == ResolveCandidates(CandidatePaths(Candidates(contents.value, 0)), getSourceModule)
    ensures contents.Some? && '(' !in contents.value ==> r == Success([])
  {
    match contents
    case None => Failure(ReadFailure)
    case Some(text) =>
      NoParenthesisNoCandidates(text, 0);
      ResolveCandidates(CandidatePaths(Candidates(text, 0)), getSourceModule)
  }
}

=== FILE: ordering.dfy ===
/** `BundleSetBuilder.orderSourceModules`: order the bundle's source modules
    so that each comes after the modules it must be defined after, with the
    bootstrap library first whenever it exists. */
module Ordering {
  import opened Wrappers
  import opened AssetModel
  import opened Sequences

  /** `getOrderDependentSourceModules`, which can fail with a `ModelOperationException`. */
  type OrderDeps = AssetId -> Result<seq<AssetId>, Cause>

  /** Every dependency is already met. */
  predicate DepsMet(ds: seq<AssetId>, met: set<AssetId>) {
    forall d :: d in ds ==> d in met
  }

  /** `dependenciesHaveBeenMet` as a value. */
  function DependenciesMet(m: AssetId, met: set<AssetId>, orderDeps: OrderDeps): Result<bool, Cause> {
    match orderDeps(m)
    case Failure(e) => Failure(e)
    case Success(ds) => Success(DepsMet(ds, met))
  }

  /** `dependenciesHaveBeenMet`: look the dependencies up, then stop at the
      first one that is not met. */
  method DependenciesHaveBeenMet(m: AssetId, met: set<AssetId>, orderDeps: OrderDeps) returns (r: Result<bool, Cause>)
    ensures r.Success? <==> orderDeps(m).Success?
    ensures r.Failure? ==> r.error == orderDeps(m).error
    ensures r.Success? ==> (r.value <==> forall d :: d in orderDeps(m).value ==> d in met)
    ensures r == DependenciesMet(m, met, orderDeps)
  {
    var deps := orderDeps(m);
    if deps.Failure? {
      return Failure(deps.error);
    }
    var ds := deps.value;
    var i := 0;
    while i < |ds|
      invariant 0 <= i <= |ds|
      invariant forall k :: 0 <= k < i ==> ds[k] in met
    {
      if ds[i] !in met {
        return Success(false);
      }
      i := i + 1;
    }
    return Success(true);
  }

  /** The state after one pass of the `while` loop. */
  datatype PassResult = PassResult(ordered: seq<AssetId>, met: set<AssetId>, unprocessed: seq<AssetId>, progress: bool)

  /** One pass over the modules still to place: each module whose dependencies
      are met is appended (unless already there) and counts as met at once,
      the others are kept for the next pass. */
  function Pass(ms: seq<AssetId>, ordered: seq<AssetId>, met: set<AssetId>, orderDeps: OrderDeps)
    : (r: Result<PassResult, Cause>)
    ensures r.Success? <==> forall j :: 0 <= j < |ms| ==> orderDeps(ms[j]).Success?
    ensures r.Failure? ==> exists j :: 0 <= j < |ms| && orderDeps(ms[j]) == Failure(r.error)
    ensures r.Success? ==> ordered <= r.value.ordered
    ensures r.Success? ==> |r.value.unprocessed| <= |ms| && (r.value.progress <==> |r.value.unprocessed| < |ms|)
    ensures r.Success? && !r.value.progress ==>
      r.value.unprocessed == ms && r.value.ordered == ordered && r.value.met == met
    ensures r.Success? ==> forall x :: x in r.value.unprocessed ==> x in ms
    decreases |ms|
  {
    if ms == [] then Success(PassResult(ordered, met, [], false))
    else
      var m := ms[0];
      match DependenciesMet(m, met, orderDeps)
      case Failure(e) => Failure(e)
      case Success(ok) =>
        if ok then
          match Pass(ms[1..], AddUnique(ordered, m), met + {m}, orderDeps)
          case Failure(e) => Failure(e)
          case Success(p) => Success(p.(progress := true))
        else
          match Pass(ms[1..], ordered, met, orderDeps)
          case Failure(e) => Failure(e)
          case Success(p) =>
            assert [m] + ms[1..] == ms;
            Success(p.(unprocessed := [m] + p.unprocessed))
  }

  /** Passes until nothing is left, failing when a pass places nothing. */
  function OrderLoop(remaining: seq<AssetId>, ordered: seq<AssetId>, met: set<AssetId>, orderDeps: OrderDeps)
    : (r: Result<seq<AssetId>, BundlingError>)
    ensures r.Success? ==> ordered <= r.value
    decreases |remaining|
  {
    if remaining == [] then Success(ordered)
    else
      match Pass(remaining, ordered, met, orderDeps)
      case Failure(e) => Failure(ModelOperation(e))
      case Success(p) =>
        if !p.progress then Failure(CircularDependency(p.unprocessed))
        else OrderLoop(p.unprocessed, p.ordered, p.met, orderDeps)
  }

  /** The bootstrap module placed before the loop: only when it resolves and
      there is something to order. */
  function Preamble(modules: seq<AssetId>, bootstrap: Result<AssetId, RequirePathError>): (pre: seq<AssetId>)
    ensures |pre| <= 1
    ensures pre != [] <==> bootstrap.Success? && modules != []
    ensures pre != [] ==> pre[0] == bootstrap.value
  {
    if bootstrap.Success? && modules != [] then [bootstrap.value] else []
  }

  /** Each module after the first `skip` positions has successfully looked-up
      order dependencies, all placed before it. */
  predicate DepsOrdered(out: seq<AssetId>, orderDeps: OrderDeps, skip: nat) {
    forall i :: skip <= i < |out| ==>
      orderDeps(out[i]).Success? && forall d :: d in orderDeps(out[i]).value ==> d in out[..i]
  }

  /** The modules of a circular-dependency error: none of them can be placed,
      since each waits on a dependency that is neither the bootstrap nor one of
      the modules already placed. */
  predicate Stuck(rs: seq<AssetId>, modules: seq<AssetId>, pre: seq<AssetId>, orderDeps: OrderDeps) {
    rs != [] && NoDuplicates(rs) && Elems(rs) <= Elems(modules)
    && forall x :: x in rs ==> (orderDeps(x).Success? &&
      exists d :: d in orderDeps(x).value && d !in pre && (d in rs || d !in modules))
  }

  /** `placed` is a valid partial output leaving exactly `rs` unplaced. */
  predicate Placement(placed: seq<AssetId>, rs: seq<AssetId>, modules: seq<AssetId>, pre: seq<AssetId>, orderDeps: OrderDeps) {
    pre <= placed && NoDuplicates(placed) && DepsOrdered(placed, orderDeps, |pre|)
    && Elems(placed) + Elems(rs) == Elems(modules) + Elems(pre)
    && (forall x :: x in rs && x in placed ==> x in pre)
  }

  /** `rs` is exactly what is left once everything placeable has been placed. */
  ghost predicate Unplaced(rs: seq<AssetId>, modules: seq<AssetId>, pre: seq<AssetId>, orderDeps: OrderDeps) {
    exists placed :: Placement(placed, rs, modules, pre, orderDeps)
  }

  /** `orderSourceModules`. `bootstrap` is the resolution of `br-bootstrap`. */
  function OrderSourceModules(modules: seq<AssetId>, bootstrap: Result<AssetId, RequirePathError>, orderDeps: OrderDeps)
    : (r: Result<seq<AssetId>, BundlingError>)
    requires NoDuplicates(modules)
    ensures modules == [] ==> r == Success([])
    ensures r.Success? ==> NoDuplicates(r.value)
    ensures r.Success? ==> Elems(r.value) == Elems(modules) + Elems(Preamble(modules, bootstrap))
    ensures r.Success? ==> Preamble(modules, bootstrap) <= r.value
    ensures r.Success? ==> DepsOrdered(r.value, orderDeps, |Preamble(modules, bootstrap)|)
    ensures (r.Failure? && r.error.ModelOperation?) <==> exists j :: 0 <= j < |modules| && orderDeps(modules[j]).Failure?
    ensures r.Failure? && r.error.ModelOperation? ==>
      exists j :: 0 <= j < |modules| && orderDeps(modules[j]) == Failure(r.error.cause)
    ensures r.Failure? && r.error.CircularDependency? ==>
      Stuck(r.error.unprocessed, modules, Preamble(modules, bootstrap), orderDeps)
      && Unplaced(r.error.unprocessed, modules, Preamble(modules, bootstrap), orderDeps)
  {
    var pre := Preamble(modules, bootstrap);
    OrderLoopCorrect(modules, pre, modules, pre, Elems(pre), orderDeps);
    OrderLoop(modules, pre, Elems(pre), orderDeps)
  }

  /** What holds between passes. */
  predicate LoopInv(modules: seq<AssetId>, pre: seq<AssetId>, remaining: seq<AssetId>,
                    ordered: seq<AssetId>, met: set<AssetId>, orderDeps: OrderDeps) {
    NoDuplicates(ordered) && met == Elems(ordered) && pre <= ordered
    && DepsOrdered(ordered, orderDeps, |pre|)
    && NoDuplicates(remaining) && Elems(remaining) <= Elems(modules)
    && Elems(ordered) + Elems(remaining) == Elems(modules) + Elems(pre)
    && (forall x :: x in remaining && x in ordered ==> x in pre)
  }

  lemma {:induction false} OrderLoopCorrect(modules: seq<AssetId>, pre: seq<AssetId>, remaining: seq<AssetId>,
                                            ordered: seq<AssetId>, met: set<AssetId>, orderDeps: OrderDeps)
    requires LoopInv(modules, pre, remaining, ordered, met, orderDeps)
    requires remaining != [] ==> modules != []
    ensures var r := OrderLoop(remaining, ordered, met, orderDeps);
      (r.Success? ==> (NoDuplicates(r.value) && pre <= r.value && DepsOrdered(r.value, orderDeps, |pre|)
        && Elems(r.value) == Elems(modules) + Elems(pre)))
      && ((r.Failure? && r.error.ModelOperation?) <==> exists j :: 0 <= j < |remaining| && orderDeps(remaining[j]).Failure?)
      && (r.Failure? && r.error.ModelOperation? ==>
        exists j :: 0 <= j < |remaining| && orderDeps(remaining[j]) == Failure(r.error.cause))
      && (r.Failure? && r.error.CircularDependency? ==>
        Stuck(r.error.unprocessed, modules, pre, orderDeps) && Unplaced(r.error.unprocessed, modules, pre, orderDeps))
    decreases |remaining|
  {
    if remaining != [] {
      var pr := Pass(remaining, ordered, met, orderDeps);
      if pr.Success? {
        var p := pr.value;
        PassKeepsOrder(remaining, ordered, met, orderDeps, |pre|);
        PassElements(remaining, ordered, met, orderDeps);
        if !p.progress {
          PassStuck(remaining, ordered, met, orderDeps);
          StuckAfterPass(modules, pre, remaining, ordered, orderDeps);
        } else {
          assert pre <= p.ordered;
          forall x | x in p.unprocessed && x in p.ordered ensures x in pre {
            assert x in remaining;
          }
          assert Elems(p.unprocessed) <= Elems(modules);
          OrderLoopCorrect(modules, pre, p.unprocessed, p.ordered, p.met, orderDeps);
          forall j | 0 <= j < |p.unprocessed| ensures orderDeps(p.unprocessed[j]).Success? {
            assert p.unprocessed[j] in remaining;
          }
        }
      }
    }
  }

  /** A pass that places nothing leaves exactly the stuck modules. */
  lemma StuckAfterPass(modules: seq<AssetId>, pre: seq<AssetId>, remaining: seq<AssetId>,
                       ordered: seq<AssetId>, orderDeps: OrderDeps)
    requires LoopInv(modules, pre, remaining, ordered, Elems(ordered), orderDeps)
    requires remaining != [] && modules != []
    requires forall j :: 0 <= j < |remaining| ==>
      orderDeps(remaining[j]).Success? && !DepsMet(orderDeps(remaining[j]).value, Elems(ordered))
    ensures Stuck(remaining, modules, pre, orderDeps)
    ensures Unplaced(remaining, modules, pre, orderDeps)
  {
    assert Placement(ordered, remaining, modules, pre, orderDeps);
    forall x | x in remaining
      ensures orderDeps(x).Success? && exists d :: d in orderDeps(x).value && d !in pre && (d in remaining || d !in modules)
    {
      var j :| 0 <= j < |remaining| && remaining[j] == x;
      var d :| d in orderDeps(x).value && d !in Elems(ordered);
      assert d !in pre;
      assert d in modules ==> d in Elems(modules) + Elems(pre);
    }
  }

  /** A pass keeps the placed modules duplicate-free, each after its dependencies. */
  lemma {:induction false} PassKeepsOrder(ms: seq<AssetId>, ordered: seq<AssetId>, met: set<AssetId>,
                                          orderDeps: OrderDeps, skip: nat)
    requires NoDuplicates(ordered) && met == Elems(ordered) && DepsOrdered(ordered, orderDeps, skip)
    requires skip <= |ordered|
    ensures var r := Pass(ms, ordered, met, orderDeps);
      r.Success? ==> (NoDuplicates(r.value.ordered) && r.value.met == Elems(r.value.ordered)
        && DepsOrdered(r.value.ordered, orderDeps, skip))
    decreases |ms|
  {
    if ms != [] && DependenciesMet(ms[0], met, orderDeps) == Success(true) {
      var m := ms[0];
      var o := AddUnique(ordered, m);
      AddUniqueProperties(ordered, m);
      if m !in ordered {
        forall i | skip <= i < |o|
          ensures orderDeps(o[i]).Success? && forall d :: d in orderDeps(o[i]).value ==> d in o[..i]
        {
          if i < |ordered| {
            assert o[..i] == ordered[..i];
          } else {
            assert o[..i] == ordered;
          }
        }
      }
      PassKeepsOrder(ms[1..], o, met + {m}, orderDeps, skip);
    } else if ms != [] {
      PassKeepsOrder(ms[1..], ordered, met, orderDeps, skip);
    }
  }

  /** A pass moves modules from the worklist to the placed list and nothing else. */
  lemma {:induction false} PassElements(ms: seq<AssetId>, ordered: seq<AssetId>, met: set<AssetId>, orderDeps: OrderDeps)
    requires NoDuplicates(ms)
    ensures var r := Pass(ms, ordered, met, orderDeps);
      r.Success? ==> (Elems(r.value.ordered) + Elems(r.value.unprocessed) == Elems(ordered) + Elems(ms)
        && NoDuplicates(r.value.unprocessed)
        && (forall x :: x in r.value.ordered && x !in ordered ==> x in ms && x !in r.value.unprocessed))
    decreases |ms|
  {
    if ms != [] {
      var m := ms[0];
      assert Elems(ms) == {m} + Elems(ms[1..]);
      assert m !in ms[1..];
      if DependenciesMet(m, met, orderDeps) == Success(true) {
        assert Elems(AddUnique(ordered, m)) == Elems(ordered) + {m};
        PassElements(ms[1..], AddUnique(ordered, m), met + {m}, orderDeps);
      } else {
        PassElements(ms[1..], ordered, met, orderDeps);
        var r := Pass(ms, ordered, met, orderDeps);
        if r.Success? {
          var p := Pass(ms[1..], ordered, met, orderDeps).value;
          assert r.value.unprocessed == [m] + p.unprocessed;
          assert Elems(r.value.unprocessed) == {m} + Elems(p.unprocessed);
        }
      }
    }
  }

  /** In a pass that places nothing, every module is waiting on an unmet dependency. */
  lemma {:induction false} PassStuck(ms: seq<AssetId>, ordered: seq<AssetId>, met: set<AssetId>, orderDeps: OrderDeps)
    ensures var r := Pass(ms, ordered, met, orderDeps);
      r.Success? && !r.value.progress ==> forall j :: 0 <= j < |ms| ==>
        orderDeps(ms[j]).Success? && !DepsMet(orderDeps(ms[j]).value, met)
    decreases |ms|
  {
    if ms != [] {
      PassStuck(ms[1..], ordered, met, orderDeps);
      var r := Pass(ms, ordered, met, orderDeps);
      if r.Success? && !r.value.progress {
        assert DependenciesMet(ms[0], met, orderDeps) == Success(false);
        forall j | 1 <= j < |ms| ensures orderDeps(ms[j]).Success? && !DepsMet(orderDeps(ms[j]).value, met) {
          assert ms[j] == ms[1..][j - 1];
        }
      }
    }
  }

  /** With an acyclic dependency relation over the modules (a rank that every
      dependency lowers, apart from the bootstrap), ordering never reports a
      circular dependency and always succeeds. */
  lemma AcyclicNeverCircular(modules: seq<AssetId>, bootstrap: Result<AssetId, RequirePathError>,
                             orderDeps: OrderDeps, rank: AssetId -> nat)
    requires NoDuplicates(modules)
    requires forall m :: m in modules ==> (orderDeps(m).Success? &&
      forall d :: d in orderDeps(m).value ==>
        (bootstrap.Success? && d == bootstrap.value) || (d in modules && rank(d) < rank(m)))
    ensures OrderSourceModules(modules, bootstrap, orderDeps).Success?
  {
    assert forall j :: 0 <= j < |modules| ==> modules[j] in modules;
    var r := OrderSourceModules(modules, bootstrap, orderDeps);
    if r.Failure? && r.error.CircularDependency? {
      AcyclicNotStuck(r.error.unprocessed, modules, bootstrap, orderDeps, rank);
    }
  }

  lemma AcyclicNotStuck(rs: seq<AssetId>, modules: seq<AssetId>, bootstrap: Result<AssetId, RequirePathError>,
                        orderDeps: OrderDeps, rank: AssetId -> nat)
    requires forall m :: m in modules ==> (orderDeps(m).Success? &&
      forall d :: d in orderDeps(m).value ==>
        (bootstrap.Success? && d == bootstrap.value) || (d in modules && rank(d) < rank(m)))
    ensures !Stuck(rs, modules, Preamble(modules, bootstrap), orderDeps)
  {
    if rs != [] && Elems(rs) <= Elems(modules) {
      var pre := Preamble(modules, bootstrap);
      var x := MinimumRank(rs, rank);
      assert x in Elems(rs);
      assert modules != [];
      forall d | d in orderDeps(x).value ensures d in pre || (d !in rs && d in modules) {
        if bootstrap.Success? && d == bootstrap.value {
          assert pre == [bootstrap.value];
        }
      }
    }
  }

  /** A module (other than the bootstrap) with an order dependency outside the
      discovered modules and the bootstrap is never placed: ordering fails with
      a circular-dependency error that names it. */
  lemma ExternalDependencyIsCircular(modules: seq<AssetId>, bootstrap: Result<AssetId, RequirePathError>,
                                     orderDeps: OrderDeps, m: AssetId, d: AssetId)
    requires NoDuplicates(modules)
    requires forall j :: 0 <= j < |modules| ==> orderDeps(modules[j]).Success?
    requires m in modules && m !in Preamble(modules, bootstrap)
    requires d in orderDeps(m).value && d !in modules && d !in Preamble(modules, bootstrap)
    ensures var r := OrderSourceModules(modules, bootstrap, orderDeps);
      r.Failure? && r.error.CircularDependency? && m in r.error.unprocessed
  {
    var r := OrderSourceModules(modules, bootstrap, orderDeps);
    var pre := Preamble(modules, bootstrap);
    var rs := if r.Failure? && r.error.CircularDependency? then r.error.unprocessed else [];
    if r.Success? {
      assert Placement(r.value, [], modules, pre, orderDeps);
    }
    var placed :| Placement(placed, rs, modules, pre, orderDeps);
    NeverPlaced(placed, rs, modules, pre, orderDeps, m, d);
    assert m in Elems(modules);
  }

  lemma NeverPlaced(placed: seq<AssetId>, rs: seq<AssetId>, modules: seq<AssetId>, pre: seq<AssetId>,
                    orderDeps: OrderDeps, m: AssetId, d: AssetId)
    requires Placement(placed, rs, modules, pre, orderDeps)
    requires m !in pre && orderDeps(m).Success? && d in orderDeps(m).value && d !in modules && d !in pre
    ensures m !in placed
  {
    forall i | 0 <= i < |placed| ensures placed[i] != m {
      if i < |pre| {
        assert placed[i] == pre[i];
      } else {
        assert forall x :: x in placed[..i] ==> x in Elems(placed);
      }
    }
  }

  /** An element of a non-empty list with the least rank. */
  lemma {:induction false} MinimumRank(xs: seq<AssetId>, rank: AssetId -> nat) returns (x: AssetId)
    requires xs != []
    ensures x in xs && forall y :: y in xs ==> rank(x) <= rank(y)
    decreases |xs|
  {
    if |xs| == 1 {
      x := xs[0];
    } else {
      var y := MinimumRank(xs[1..], rank);
      x := if rank(xs[0]) <= rank(y) then xs[0] else y;
      forall z | z in xs ensures rank(x) <= rank(z) {
        if z != xs[0] {
          assert z in xs[1..];
        }
      }
    }
  }
}

=== FILE: require_resolution.dfy ===
/** `DefaultRequirePlugin.getAsset`: resolve a require-path suffix against the
    ordered asset containers visible from a bundlable node, falling back to the
    whole app only to tell an out-of-scope asset from a missing one. */
module RequireResolution {
  import opened Wrappers
  import opened AssetModel

  /** An asset container, reduced to its `asset(requirePath)` lookup. */
  datatype AssetContainer = AssetContainer(name: string, assets: map<string, AssetId>)

  /** `assetContainer.asset(suffix)`, with Java `null` as `None`. */
  function AssetFor(c: AssetContainer, suffix: string): Option<AssetId> {
    if suffix in c.assets then Some(c.assets[suffix]) else None
  }

  /** Reference definition: the assets answering `suffix`, one per container
      that has one, in container order. */
  function Matches(cs: seq<AssetContainer>, suffix: string): seq<AssetId>
  {
    if cs == [] then []
    else
      var last := AssetFor(cs[|cs| - 1], suffix);
      Matches(cs[..|cs| - 1], suffix) + (if last.Some? then [last.value] else [])
  }

  lemma {:induction false} MatchesOfPrefix(cs: seq<AssetContainer>, i: nat, suffix: string)
    requires i <= |cs|
    ensures Matches(cs[..i], suffix) <= Matches(cs, suffix)
    decreases |cs| - i
  {
    if i < |cs| {
      MatchesOfPrefix(cs, i + 1, suffix);
      assert cs[..i + 1][..i] == cs[..i];
    } else {
      assert cs[..i] == cs;
    }
  }

  /** The message of `AmbiguousRequirePathException`. */
  function AmbiguityMessage(first: AssetId, second: AssetId, suffix: string): string {
    "'" + first + "' and '" + second + "' source files both available via require path '" + suffix + "'."
  }

  /** Scoped resolution: unique, ambiguous, out of scope, or unresolvable. The
      app-wide search only runs when nothing in scope matched. */
  method GetAsset(scope: seq<AssetContainer>, appContainers: seq<AssetContainer>, suffix: string)
    returns (r: Result<AssetId, RequirePathError>)
    ensures |Matches(scope, suffix)| == 1 ==> r == Success(Matches(scope, suffix)[0])
    ensures |Matches(scope, suffix)| >= 2 ==>
      r == Failure(Ambiguous(AmbiguityMessage(Matches(scope, suffix)[0], Matches(scope, suffix)[1], suffix)))
    ensures |Matches(scope, suffix)| == 0 && |Matches(appContainers, suffix)| > 0 ==>
      r == Failure(OutOfBundleScope(suffix, Matches(appContainers, suffix)[0]))
    ensures |Matches(scope, suffix)| == 0 && |Matches(appContainers, suffix)| == 0 ==>
      r == Failure(Unresolvable(suffix))
  {
    var asset: Option<AssetId> := None;
    var i := 0;
    while i < |scope|
      invariant 0 <= i <= |scope|
      invariant asset.None? <==> Matches(scope[..i], suffix) == []
      invariant asset.Some? ==> Matches(scope[..i], suffix) == [asset.value]
    {
      assert scope[..i + 1][..i] == scope[..i];
      var locationAsset := AssetFor(scope[i], suffix);
      if locationAsset.Some? {
        if asset.None? {
          asset := locationAsset;
        } else {
          MatchesOfPrefix(scope, i + 1, suffix);
          return Failure(Ambiguous(AmbiguityMessage(asset.value, locationAsset.value, suffix)));
        }
      }
      i := i + 1;
    }
    assert scope[..i] == scope;
    if asset.None? {
      var j := 0;
      while j < |appContainers|
        invariant 0 <= j <= |appContainers|
        invariant Matches(appContainers[..j], suffix) == []
      {
        assert appContainers[..j + 1][..j] == appContainers[..j];
        var locationAsset := AssetFor(appContainers[j], suffix);
        if locationAsset.Some? {
          MatchesOfPrefix(appContainers, j + 1, suffix);
          return Failure(OutOfBundleScope(suffix, locationAsset.value));
        }
        j := j + 1;
      }
      assert appContainers[..j] == appContainers;
      return Failure(Unresolvable(suffix));
    }
    return Success(asset.value);
  }
}

=== FILE: sequences.dfy ===
/** Insertion-ordered sets (`LinkedHashSet`) as duplicate-free sequences. */
module Sequences {

  predicate NoDuplicates<T(==)>(s: seq<T>) {
    forall i, j :: 0 <= i < j < |s| ==> s[i] != s[j]
  }

  function Elems<T>(s: seq<T>): set<T> {
    set x | x in s
  }

  /** `LinkedHashSet.add`: append unless already present. */
  function AddUnique<T(==)>(s: seq<T>, x: T): (r: seq<T>)
    ensures x in s ==> r == s
    ensures x !in s ==> r == s + [x]
  {
    if x in s then s else s + [x]
  }

  /** `addAll` of a list into a `LinkedHashSet`, in the list's order. */
  function AddAllUnique<T(==)>(s: seq<T>, xs: seq<T>): (r: seq<T>)
    decreases |xs|
  {
    if xs == [] then s else AddAllUnique(AddUnique(s, xs[0]), xs[1..])
  }

  /** Adding keeps the set duplicate-free, keeps its order, and adds exactly `x`. */
  lemma AddUniqueProperties<T>(s: seq<T>, x: T)
    requires NoDuplicates(s)
    ensures NoDuplicates(AddUnique(s, x))
    ensures s <= AddUnique(s, x)
    ensures Elems(AddUnique(s, x)) == Elems(s) + {x}
    ensures forall y :: y in AddUnique(s, x) <==> y in s || y == x
  {
  }

  /** `addAll` keeps the set duplicate-free, keeps its order, and adds exactly the list's elements. */
  lemma {:induction false} AddAllUniqueProperties<T>(s: seq<T>, xs: seq<T>)
    requires NoDuplicates(s)
    ensures NoDuplicates(AddAllUnique(s, xs))
    ensures s <= AddAllUnique(s, xs)
    ensures Elems(AddAllUnique(s, xs)) == Elems(s) + Elems(xs)
    decreases |xs|
  {
    if xs != [] {
      AddUniqueProperties(s, xs[0]);
      AddAllUniqueProperties(AddUnique(s, xs[0]), xs[1..]);
      assert Elems(xs) == {xs[0]} + Elems(xs[1..]);
    }
  }
}

=== FILE: service_data.dfy ===
/** `ServiceDataSerializer`: the JSON document that maps every service
    require path in a bundle set to the module implementing it and to that
    module's own service dependencies. */
module ServiceData {
  import opened Wrappers
  import opened Strings
  import opened AssetModel
  import opened Aliasing

  /** The scheme prefix of service require paths. */
  const ServicePrefix: string := "service!"

  /** The separator written after every entry; the last one is cut off again. */
  const EntrySeparator: string := ",\n"

  /** An asset of the bundle set as the serialiser sees it: its primary
      require path and whether it is a source module. */
  datatype BundledAsset = BundledAsset(primaryRequirePath: string, isSourceModule: bool)

  /** The two ways `AliasingUtility.resolveAlias` can fail. */
  datatype AliasLookupError = AliasNotFound | ContentFileError

  /** Why `createJson` fails: a `ModelOperationException` from reading a
      module's dependencies, or the `RuntimeException` wrapping a content-file
      error met while re-resolving an alias. */
  datatype SerializeError = ModelOperationFailure(cause: Cause) | RuntimeFailure

  /** The bundle set, reduced to the queries the serialiser makes. */
  datatype BundleView = BundleView(
    /** `bundleSet.assets("service!")`, in bundle order. */
    serviceAssets: seq<BundledAsset>,
    /** `getAliasDefinition()` of each alias source module of the bundle set. */
    aliasModules: seq<AliasDefinition>,
    /** `AliasingUtility.resolveAlias(name, bundlableNode)`. */
    resolveAlias: string -> Result<AliasDefinition, AliasLookupError>,
    /** `bundleSet.assets([SourceModule.class], prefix)`: the assets whose
        require path starts with `prefix`, in bundle order. */
    assetsWithPrefix: string -> seq<BundledAsset>,
    /** The primary require paths of `getDependentAssets` of the module with
        the given primary require path. */
    dependentAssets: string -> Result<seq<string>, Cause>,
    /** `ServiceDataSourceModule.PRIMARY_REQUIRE_PATH`; that class is not
        part of this model, so its value is a parameter. */
    serviceDataModulePath: string)

  /** One written entry of the document. */
  datatype ServiceEntry = ServiceEntry(servicePath: string, requirePath: string, dependencies: seq<string>)

  // ---------------------------------------------------------------------------
  // getAliasDefinitions

  /** The definition actually used for an alias module: the re-resolved one,
      or the module's own when re-resolution reports a missing alias. */
  predicate ChosenDefinition(b: BundleView, own: AliasDefinition, chosen: AliasDefinition) {
    match b.resolveAlias(own.name)
    case Success(d) => chosen == d
    case Failure(AliasNotFound) => chosen == own
    case Failure(ContentFileError) => false
  }

  function GetAliasDefinitions(b: BundleView): (r: Result<seq<AliasDefinition>, SerializeError>)
    ensures r.Success? <==> forall i :: 0 <= i < |b.aliasModules| ==> b.resolveAlias(b.aliasModules[i].name) != Failure(ContentFileError)
    ensures r.Failure? ==> r.error == RuntimeFailure
    ensures r.Success? ==> |r.value| == |b.aliasModules|
    ensures r.Success? ==> forall i :: 0 <= i < |r.value| ==> ChosenDefinition(b, b.aliasModules[i], r.value[i])
  {
    ChooseDefinitions(b, b.aliasModules)
  }

  function ChooseDefinitions(b: BundleView, own: seq<AliasDefinition>): (r: Result<seq<AliasDefinition>, SerializeError>)
    ensures r.Success? <==> forall i :: 0 <= i < |own| ==> b.resolveAlias(own[i].name) != Failure(ContentFileError)
    ensures r.Failure? ==> r.error == RuntimeFailure
    ensures r.Success? ==> |r.value| == |own|
    ensures r.Success? ==> forall i :: 0 <= i < |r.value| ==> ChosenDefinition(b, own[i], r.value[i])
    decreases |own|
  {
    if own == [] then Success([])
    else
      assert forall i :: 1 <= i < |own| ==> own[i] == own[1..][i - 1];
      var d :=
        match b.resolveAlias(own[0].name)
        case Success(d) => Success(d)
        case Failure(AliasNotFound) => Success(own[0])
        case Failure(ContentFileError) => Failure(RuntimeFailure);
      match d
      case Failure(e) => Failure(e)
      case Success(first) =>
        match ChooseDefinitions(b, own[1..])
        case Failure(e) => Failure(e)
        case Success(rest) => Success([first] + rest)
  }

  // ---------------------------------------------------------------------------
  // resolveService

  /** The service name an alias must carry: the require path with its first
      `service!` removed. */
  function ServiceName(servicePath: string): string {
    ReplaceFirst(servicePath, ServicePrefix, "")
  }

  /** `alias` implements the service `name`: it is named `name`, some source
      module's require path starts with the alias's require path, and the
      first such module is not the unknown-class placeholder. */
  predicate Serves(b: BundleView, alias: AliasDefinition, name: string) {
    var matching := b.assetsWithPrefix(RequirePath(alias));
    alias.name == name && |matching| > 0 && matching[0].isSourceModule
    && matching[0].primaryRequirePath != UnknownClassRequirePath
  }

  /** The loop of `resolveService`: the index of the first alias, in list
      order, that serves `name`. */
  function FirstServing(b: BundleView, aliases: seq<AliasDefinition>, name: string): (r: Option<nat>)
    ensures r.None? <==> forall i :: 0 <= i < |aliases| ==> !Serves(b, aliases[i], name)
    ensures r.Some? ==> r.value < |aliases| && Serves(b, aliases[r.value], name)
    ensures r.Some? ==> forall k :: 0 <= k < r.value ==> !Serves(b, aliases[k], name)
    decreases |aliases|
  {
    if aliases == [] then None
    else if Serves(b, aliases[0], name) then Some(0)
    else
      var rest := aliases[1..];
      assert forall i :: 1 <= i < |aliases| ==> aliases[i] == rest[i - 1];
      match FirstServing(b, rest, name)
      case None => None
      case Some(k) => Some(k + 1)
  }

  /** `resolveService`: the primary require path of the module implementing
      the service, found through the first alias that serves it. */
  function ResolveService(b: BundleView, aliases: seq<AliasDefinition>, servicePath: string): (r: Option<string>)
    ensures r.None? <==> forall i :: 0 <= i < |aliases| ==> !Serves(b, aliases[i], ServiceName(servicePath))
    ensures r.Some? ==> exists i :: (0 <= i < |aliases| && Serves(b, aliases[i], ServiceName(servicePath))
      && (forall k :: 0 <= k < i ==> !Serves(b, aliases[k], ServiceName(servicePath)))
      && r.value == b.assetsWithPrefix(RequirePath(aliases[i]))[0].primaryRequirePath)
  {
    match FirstServing(b, aliases, ServiceName(servicePath))
    case None => None
    case Some(i) => Some(b.assetsWithPrefix(RequirePath(aliases[i]))[0].primaryRequirePath)
  }

  // ---------------------------------------------------------------------------
  // stringifyDependantAssets

  /** The service dependencies of a module: the dependent require paths that
      start with `service!`, in order, with that prefix removed. */
  function ServiceDependencies(paths: seq<string>): (r: seq<string>)
    ensures |r| <= |paths|
    ensures forall x :: x in r <==> ServicePrefix + x in paths
    decreases |paths|
  {
    if paths == [] then []
    else
      var rest := ServiceDependencies(paths[1..]);
      assert forall x :: x in paths <==> x == paths[0] || x in paths[1..];
      if StartsWith(paths[0], ServicePrefix) then
        assert paths[0] == ServicePrefix + paths[0][|ServicePrefix|..];
        assert forall x :: ServicePrefix + x == paths[0] ==> x == paths[0][|ServicePrefix|..] by {
          forall x | ServicePrefix + x == paths[0] ensures x == paths[0][|ServicePrefix|..] {
            assert (ServicePrefix + x)[|ServicePrefix|..] == x;
          }
        }
        [paths[0][|ServicePrefix|..]] + rest
      else
        assert forall x :: ServicePrefix + x != paths[0] by {
          forall x ensures ServicePrefix + x != paths[0] {
            assert (ServicePrefix + x)[..|ServicePrefix|] == ServicePrefix;
          }
        }
        rest
  }

  /** Selecting service dependencies distributes over concatenation, so their
      order is the order of the dependent assets. */
  lemma {:induction false} ServiceDependenciesDistribute(a: seq<string>, b: seq<string>)
    ensures ServiceDependencies(a + b) == ServiceDependencies(a) + ServiceDependencies(b)
    decreases |a|
  {
    if a != [] {
      assert (a + b)[0] == a[0] && (a + b)[1..] == a[1..] + b;
      ServiceDependenciesDistribute(a[1..], b);
    } else {
      assert a + b == b;
    }
  }

  /** The body of the `"dependencies"` array: nothing for no dependencies, so
      the array renders as `[]`; otherwise one quoted name per line. */
  function DependenciesText(deps: seq<string>): (r: string)
    ensures r == "" <==> deps == []
    ensures deps != [] ==> StartsWith(r, "\n") && EndsWith(r, "\n\t\t")
  {
    if deps == [] then ""
    else "\n" + JoinWith(Quoted(deps), EntrySeparator) + "\n\t\t"
  }

  function Quoted(deps: seq<string>): (r: seq<string>)
    ensures |r| == |deps|
    ensures forall i :: 0 <= i < |deps| ==> r[i] == "\t\t\t\"" + deps[i] + "\""
  {
    seq(|deps|, i requires 0 <= i < |deps| => "\t\t\t\"" + deps[i] + "\"")
  }

  // ---------------------------------------------------------------------------
  // addSourceModuleData and createJson

  /** A service asset that is skipped before resolution: not a source module,
      or the service-data module itself. */
  predicate Skipped(b: BundleView, a: BundledAsset) {
    !a.isSourceModule || a.primaryRequirePath == b.serviceDataModulePath
  }

  /** A service asset that produces an entry. */
  predicate Written(b: BundleView, aliases: seq<AliasDefinition>, a: BundledAsset) {
    !Skipped(b, a) && ResolveService(b, aliases, a.primaryRequirePath).Some?
  }

  /** `addSourceModuleData` for one service asset: no entry when it is
      skipped or no alias serves it, otherwise the entry naming the resolved
      module and its service dependencies. */
  function EntryFor(b: BundleView, aliases: seq<AliasDefinition>, a: BundledAsset): (r: Result<Option<ServiceEntry>, SerializeError>)
    ensures r == Success(None) <==> !Written(b, aliases, a)
    ensures r.Success? && r.value.Some? ==> r.value.value.servicePath == a.primaryRequirePath
    ensures r.Success? && r.value.Some? ==> ResolveService(b, aliases, a.primaryRequirePath) == Some(r.value.value.requirePath)
    ensures r.Success? && r.value.Some? ==> b.dependentAssets(r.value.value.requirePath).Success?
    ensures r.Success? && r.value.Some? ==>
      r.value.value.dependencies == ServiceDependencies(b.dependentAssets(r.value.value.requirePath).value)
    ensures r.Failure? ==> Written(b, aliases, a)
    ensures r.Failure? ==> b.dependentAssets(ResolveService(b, aliases, a.primaryRequirePath).value).Failure?
    ensures r.Failure? ==>
      r.error == ModelOperationFailure(b.dependentAssets(ResolveService(b, aliases, a.primaryRequirePath).value).error)
  {
    if Skipped(b, a) then Success(None)
    else match ResolveService(b, aliases, a.primaryRequirePath)
      case None => Success(None)
      case Some(resolved) =>
        match b.dependentAssets(resolved)
        case Failure(c) => Failure(ModelOperationFailure(c))
        case Success(paths) => Success(Some(ServiceEntry(a.primaryRequirePath, resolved, ServiceDependencies(paths))))
  }

  /** The outcome of `addSourceModuleData` for each asset, in order. */
  function Outcomes(b: BundleView, aliases: seq<AliasDefinition>, assets: seq<BundledAsset>): (r: seq<Result<Option<ServiceEntry>, SerializeError>>)
    ensures |r| == |assets|
    ensures forall i :: 0 <= i < |assets| ==> r[i] == EntryFor(b, aliases, assets[i])
  {
    seq(|assets|, i requires 0 <= i < |assets| => EntryFor(b, aliases, assets[i]))
  }

  /** The entries of a run of outcomes, in order, stopping at the first
      failure (the exception that leaves `createJson`). */
  function Collect(outcomes: seq<Result<Option<ServiceEntry>, SerializeError>>): (r: Result<seq<ServiceEntry>, SerializeError>)
    ensures r.Success? <==> forall i :: 0 <= i < |outcomes| ==> outcomes[i].Success?
    ensures r.Success? ==> |r.value| <= |outcomes|
    ensures r.Success? ==> (r.value == [] <==> forall i :: 0 <= i < |outcomes| ==> outcomes[i] == Success(None))
    ensures r.Success? ==> forall e :: e in r.value ==> exists i :: 0 <= i < |outcomes| && outcomes[i] == Success(Some(e))
    ensures r.Success? ==> forall i :: 0 <= i < |outcomes| && outcomes[i].value.Some? ==> outcomes[i].value.value in r.value
    ensures r.Failure? ==> exists i :: (0 <= i < |outcomes| && outcomes[i] == Failure(r.error)
      && forall k :: 0 <= k < i ==> outcomes[k].Success?)
    decreases |outcomes|
  {
    if outcomes == [] then Success([])
    else
      assert forall i :: 1 <= i < |outcomes| ==> outcomes[i] == outcomes[1..][i - 1];
      match outcomes[0]
      case Failure(e) => Failure(e)
      case Success(written) =>
        match Collect(outcomes[1..])
        case Failure(e) =>
          var j :| 0 <= j < |outcomes[1..]| && outcomes[1..][j] == Failure(e)
            && forall k :: 0 <= k < j ==> outcomes[1..][k].Success?;
          assert outcomes[j + 1] == Failure(e);
          Failure(e)
        case Success(rest) =>
          if written.Some? then Success([written.value] + rest) else Success(rest)
  }

  /** One outcome: its entry, nothing for a skipped asset, or its failure. */
  lemma OneOutcome(o: Result<Option<ServiceEntry>, SerializeError>)
    ensures o.Failure? ==> Collect([o]) == Failure(o.error)
    ensures o == Success(None) ==> Collect([o]) == Success([])
    ensures o.Success? && o.value.Some? ==> Collect([o]) == Success([o.value.value])
  {
    assert [o][1..] == [];
    if o.Success? && o.value.Some? {
      assert [o.value.value] + [] == [o.value.value];
    }
  }

  /** Collecting a concatenation collects its parts, in order: together with
      `OneOutcome` this pins the result to one entry per written outcome, in
      outcome order. */
  lemma {:induction false} CollectDistribute(a: seq<Result<Option<ServiceEntry>, SerializeError>>, b: seq<Result<Option<ServiceEntry>, SerializeError>>)
    ensures Collect(a + b).Success? <==> Collect(a).Success? && Collect(b).Success?
    ensures Collect(a + b).Success? ==> Collect(a + b).value == Collect(a).value + Collect(b).value
    decreases |a|
  {
    if a == [] {
      assert a + b == b;
    } else {
      var ab := a + b;
      assert ab[0] == a[0] && ab[1..] == a[1..] + b;
      CollectDistribute(a[1..], b);
      CollectStep(ab);
      CollectStep(a);
      if Collect(ab).Success? {
        var x, y := Collect(a[1..]).value, Collect(b).value;
        var head := EntryOf(a[0]);
        assert Collect(ab).value == head + (x + y);
        assert Collect(a).value == head + x;
        AppendAssoc(head, x, y);
      }
    }
  }

  /** The entry an outcome contributes: none, or the one it carries. */
  function EntryOf(o: Result<Option<ServiceEntry>, SerializeError>): seq<ServiceEntry> {
    if o.Success? && o.value.Some? then [o.value.value] else []
  }

  lemma CollectStep(s: seq<Result<Option<ServiceEntry>, SerializeError>>)
    requires s != []
    ensures Collect(s).Success? <==> s[0].Success? && Collect(s[1..]).Success?
    ensures Collect(s).Success? ==> Collect(s).value == EntryOf(s[0]) + Collect(s[1..]).value
  {
  }

  /** The entries written for `assets`, in order, stopping at the first asset
      whose dependencies cannot be read. */
  function Entries(b: BundleView, aliases: seq<AliasDefinition>, assets: seq<BundledAsset>): (r: Result<seq<ServiceEntry>, SerializeError>)
    ensures r.Success? <==> forall i :: 0 <= i < |assets| ==> EntryFor(b, aliases, assets[i]).Success?
    ensures r.Success? ==> |r.value| <= |assets|
    ensures r.Success? ==> forall e :: e in r.value ==>
      exists i :: 0 <= i < |assets| && EntryFor(b, aliases, assets[i]) == Success(Some(e))
    ensures r.Success? ==> forall i :: 0 <= i < |assets| && EntryFor(b, aliases, assets[i]).value.Some? ==>
      EntryFor(b, aliases, assets[i]).value.value in r.value
    ensures r.Failure? ==> exists i :: (0 <= i < |assets| && EntryFor(b, aliases, assets[i]) == Failure(r.error)
      && forall k :: 0 <= k < i ==> EntryFor(b, aliases, assets[k]).Success?)
  {
    var outcomes := Outcomes(b, aliases, assets);
    assert forall i :: 0 <= i < |assets| ==> outcomes[i] == EntryFor(b, aliases, assets[i]);
    Collect(outcomes)
  }

  /** The entries of concatenated asset lists are the two lists' entries, in
      order, and the concatenation succeeds iff both parts do. */
  lemma EntriesDistribute(b: BundleView, aliases: seq<AliasDefinition>, x: seq<BundledAsset>, y: seq<BundledAsset>)
    ensures Entries(b, aliases, x + y).Success? <==> Entries(b, aliases, x).Success? && Entries(b, aliases, y).Success?
    ensures Entries(b, aliases, x + y).Success? ==>
      Entries(b, aliases, x + y).value == Entries(b, aliases, x).value + Entries(b, aliases, y).value
  {
    assert Outcomes(b, aliases, x + y) == Outcomes(b, aliases, x) + Outcomes(b, aliases, y);
    CollectDistribute(Outcomes(b, aliases, x), Outcomes(b, aliases, y));
  }

  /** One asset: its entry, nothing when it writes none, or its failure. */
  lemma EntriesOfOneAsset(b: BundleView, aliases: seq<AliasDefinition>, a: BundledAsset)
    ensures EntryFor(b, aliases, a).Failure? ==> Entries(b, aliases, [a]) == Failure(EntryFor(b, aliases, a).error)
    ensures EntryFor(b, aliases, a) == Success(None) ==> Entries(b, aliases, [a]) == Success([])
    ensures EntryFor(b, aliases, a).Success? && EntryFor(b, aliases, a).value.Some? ==>
      Entries(b, aliases, [a]) == Success([EntryFor(b, aliases, a).value.value])
  {
    assert Outcomes(b, aliases, [a]) == [EntryFor(b, aliases, a)];
    OneOutcome(EntryFor(b, aliases, a));
  }

  /** No entry is written exactly when no service asset is both eligible and
      served by an alias; every written asset has an entry under its own
      require path. */
  lemma EntriesMatchWrittenAssets(b: BundleView, aliases: seq<AliasDefinition>, assets: seq<BundledAsset>)
    requires Entries(b, aliases, assets).Success?
    ensures Entries(b, aliases, assets).value == [] <==> forall i :: 0 <= i < |assets| ==> !Written(b, aliases, assets[i])
    ensures forall i :: 0 <= i < |assets| && Written(b, aliases, assets[i]) ==>
      exists e :: e in Entries(b, aliases, assets).value && e.servicePath == assets[i].primaryRequirePath
  {
    var es := Entries(b, aliases, assets).value;
    forall i | 0 <= i < |assets| && Written(b, aliases, assets[i])
      ensures exists e :: e in es && e.servicePath == assets[i].primaryRequirePath
    {
      assert EntryFor(b, aliases, assets[i]).value.value in es;
    }
    if es != [] {
      assert es[0] in es;
    }
  }

  /** The text written for one entry. */
  function EntryText(e: ServiceEntry): (r: string)
    ensures StartsWith(r, "\t\"" + e.servicePath + "\": {\n")
    ensures EndsWith(r, "]\n\t}")
  {
    var head := "\t\"" + e.servicePath + "\": {\n";
    var r := head + "\t\t\"requirePath\": \"" + e.requirePath + "\",\n"
      + "\t\t\"dependencies\": [" + DependenciesText(e.dependencies) + "]\n\t}";
    assert r[..|head|] == head;
    r
  }

  /** The entries of the whole bundle set, after choosing the alias definitions. */
  function ServiceEntries(b: BundleView): Result<seq<ServiceEntry>, SerializeError> {
    var aliases :- GetAliasDefinitions(b);
    Entries(b, aliases, b.serviceAssets)
  }

  /** The document for a list of entry texts: `{ }` when there is none,
      otherwise the entries joined by `,\n` between `{\n` and `\n}`. */
  function Document(texts: seq<string>): string {
    if texts == [] then "{ }" else "{\n" + JoinWith(texts, EntrySeparator) + "\n}"
  }

  function EntryTexts(entries: seq<ServiceEntry>): (r: seq<string>)
    ensures |r| == |entries|
    ensures forall i :: 0 <= i < |entries| ==> r[i] == EntryText(entries[i])
  {
    seq(|entries|, i requires 0 <= i < |entries| => EntryText(entries[i]))
  }

  /** Every text followed by the separator, concatenated: the buffer the
      source fills before cutting off the final separator. */
  function Accumulated(texts: seq<string>): string
    decreases |texts|
  {
    if texts == [] then "" else texts[0] + EntrySeparator + Accumulated(texts[1..])
  }

  /** The buffer is the joined texts plus one trailing separator. */
  lemma {:induction false} AccumulatedIsJoinPlusSeparator(texts: seq<string>)
    requires texts != []
    ensures Accumulated(texts) == JoinWith(texts, EntrySeparator) + EntrySeparator
    decreases |texts|
  {
    if |texts| > 1 {
      AccumulatedIsJoinPlusSeparator(texts[1..]);
    } else {
      assert Accumulated(texts[1..]) == "";
    }
  }

  /** Cutting the final separator off the buffer leaves the joined texts. */
  lemma StripFinalSeparator(texts: seq<string>)
    requires texts != []
    ensures |Accumulated(texts)| >= |EntrySeparator|
    ensures Accumulated(texts)[..|Accumulated(texts)| - |EntrySeparator|] == JoinWith(texts, EntrySeparator)
  {
    AccumulatedIsJoinPlusSeparator(texts);
    var j := JoinWith(texts, EntrySeparator);
    assert (j + EntrySeparator)[..|j|] == j;
  }

  /** Every entry text is non-empty, so the buffer is empty exactly when no
      entry was written. */
  lemma AccumulatedEmptyIff(entries: seq<ServiceEntry>)
    ensures Accumulated(EntryTexts(entries)) == "" <==> entries == []
  {
    if entries != [] {
      var texts := EntryTexts(entries);
      assert Accumulated(texts) == texts[0] + EntrySeparator + Accumulated(texts[1..]);
    }
  }

  /** `createJson`: the entries are appended one by one, each followed by the
      separator; a non-empty buffer loses its final separator and is wrapped
      in braces, and an empty one gives `{ }`. */
  method CreateJson(b: BundleView) returns (r: Result<string, SerializeError>)
    ensures ServiceEntries(b).Failure? ==> r == Failure(ServiceEntries(b).error)
    ensures ServiceEntries(b).Success? ==> r == Success(Document(EntryTexts(ServiceEntries(b).value)))
  {
    var all := ServiceEntries(b);
    if all.Failure? {
      return Failure(all.error);
    }
    var texts := EntryTexts(all.value);
    var output := FillBuffer(texts);
    AccumulatedEmptyIff(all.value);
    if |output| > 0 {
      StripFinalSeparator(texts);
      return Success("{\n" + output[..|output| - |EntrySeparator|] + "\n}");
    }
    return Success("{ }");
  }

  /** The loop of `createJson`: every text is appended to the buffer,
      followed by the separator. */
  method FillBuffer(texts: seq<string>) returns (output: string)
    ensures output == Accumulated(texts)
  {
    output := "";
    var i := 0;
    while i < |texts|
      invariant 0 <= i <= |texts|
      invariant output == Accumulated(texts[..i])
    {
      AccumulatedAppend(texts[..i], texts[i]);
      assert texts[..i + 1] == texts[..i] + [texts[i]];
      output := output + texts[i] + EntrySeparator;
      i := i + 1;
    }
    assert texts[..i] == texts;
  }

  /** Appending one text to the buffer. */
  lemma {:induction false} AccumulatedAppend(texts: seq<string>, t: string)
    ensures Accumulated(texts + [t]) == Accumulated(texts) + t + EntrySeparator
    decreases |texts|
  {
    if texts == [] {
      assert [] + [t] == [t];
      assert Accumulated([t][1..]) == "";
    } else {
      assert (texts + [t])[0] == texts[0] && (texts + [t])[1..] == texts[1..] + [t];
      AccumulatedAppend(texts[1..], t);
    }
  }

  /** The document is `{ }` exactly when there is no entry text. */
  lemma DocumentEmptyIff(texts: seq<string>)
    ensures Document(texts) == "{ }" <==> texts == []
  {
    if texts != [] {
      assert Document(texts)[1] == '\n';
    }
  }

  /** The document is `{ }` exactly when no service asset is written. */
  lemma EmptyDocumentIffNothingWritten(b: BundleView, aliases: seq<AliasDefinition>)
    requires GetAliasDefinitions(b) == Success(aliases)
    requires Entries(b, aliases, b.serviceAssets).Success?
    ensures Document(EntryTexts(ServiceEntries(b).value)) == "{ }"
      <==> forall i :: 0 <= i < |b.serviceAssets| ==> !Written(b, aliases, b.serviceAssets[i])
  {
    EntriesMatchWrittenAssets(b, aliases, b.serviceAssets);
    DocumentEmptyIff(EntryTexts(ServiceEntries(b).value));
  }
}

=== FILE: strings.dfy ===
/** String helpers with the exact semantics of the Java and JavaScript library
    calls the source uses (`replaceAll` of a single literal character,
    `startsWith`, `split` on one character, `trim`, `replaceFirst` of a literal). */
module Strings {
  import opened Wrappers

  predicate StartsWith(s: string, prefix: string) {
    |prefix| <= |s| && s[..|prefix|] == prefix
  }

  predicate EndsWith(s: string, suffix: string) {
    |suffix| <= |s| && s[|s| - |suffix|..] == suffix
  }

  /** `s.replaceAll("\\" + from, to)` for a single literal character. */
  function ReplaceChar(s: string, from: char, to: char): (r: string)
    ensures |r| == |s|
    ensures forall i :: 0 <= i < |s| ==> r[i] == if s[i] == from then to else s[i]
  {
    if s == [] then [] else [if s[0] == from then to else s[0]] + ReplaceChar(s[1..], from, to)
  }

  /** Index of the first occurrence of `c` in `s`, if any. */
  function IndexOf(s: string, c: char): (r: Option<nat>)
    ensures r.None? <==> c !in s
    ensures r.Some? ==> r.value < |s| && s[r.value] == c && c !in s[..r.value]
  {
    if s == [] then None
    else if s[0] == c then Some(0)
    else match IndexOf(s[1..], c)
      case None => None
      case Some(k) =>
        assert s[..k + 1] == [s[0]] + s[1..][..k];
        Some(k + 1)
  }

  /** `s.split(c)` as JavaScript defines it: every separator splits, empty
      segments are kept, and the result always has at least one element. */
  function Split(s: string, c: char): (parts: seq<string>)
    ensures |parts| >= 1
    ensures forall i :: 0 <= i < |parts| ==> c !in parts[i]
    decreases |s|
  {
    match IndexOf(s, c)
    case None => [s]
    case Some(k) => [s[..k]] + Split(s[k + 1..], c)
  }

  /** `parts.join(c)`. */
  function Join(parts: seq<string>, c: char): string
    requires |parts| >= 1
  {
    if |parts| == 1 then parts[0] else parts[0] + [c] + Join(parts[1..], c)
  }

  /** `StringUtils.join(parts, sep)` for a separator string: the empty list
      joins to the empty string. */
  function JoinWith(parts: seq<string>, sep: string): string
    decreases |parts|
  {
    if parts == [] then "" else if |parts| == 1 then parts[0] else parts[0] + sep + JoinWith(parts[1..], sep)
  }

  /** `IndexOf` finds the separator at `k` when nothing before `k` is one. */
  lemma IndexOfAt(s: string, c: char, k: nat)
    requires k < |s| && s[k] == c && c !in s[..k]
    ensures IndexOf(s, c) == Some(k)
  {
    assert forall i :: 0 <= i < k ==> s[..k][i] == s[i];
    var r := IndexOf(s, c);
    assert r.Some?;
    assert forall i :: 0 <= i < r.value ==> s[..r.value][i] == s[i];
  }

  /** Joining the segments of a split gives back the original string. */
  lemma {:induction false} JoinSplit(s: string, c: char)
    ensures Join(Split(s, c), c) == s
    decreases |s|
  {
    match IndexOf(s, c)
    case None =>
    case Some(k) =>
      var rest := Split(s[k + 1..], c);
      assert Split(s, c) == [s[..k]] + rest;
      JoinSplit(s[k + 1..], c);
      assert ([s[..k]] + rest)[1..] == rest;
      assert Join([s[..k]] + rest, c) == s[..k] + [c] + Join(rest, c);
      assert s == s[..k] + [c] + s[k + 1..];
  }

  /** Splitting strings that contain no separator at all gives them back as
      the segments, so `Split` inverts `Join`. */
  lemma {:induction false} SplitJoin(parts: seq<string>, c: char)
    requires |parts| >= 1
    requires forall i :: 0 <= i < |parts| ==> c !in parts[i]
    ensures Split(Join(parts, c), c) == parts
  {
    if |parts| > 1 {
      var rest := Join(parts[1..], c);
      var s := parts[0] + [c] + rest;
      assert s[..|parts[0]|] == parts[0];
      IndexOfAt(s, c, |parts[0]|);
      assert s[|parts[0]| + 1..] == rest;
      SplitJoin(parts[1..], c);
    } else {
      assert Join(parts, c) == parts[0];
    }
  }

  /** Joining two non-empty lists is joining each and putting one separator
      between them. */
  lemma {:induction false} JoinConcat(a: seq<string>, b: seq<string>, c: char)
    requires |a| >= 1 && |b| >= 1
    ensures Join(a + b, c) == Join(a, c) + [c] + Join(b, c)
    decreases |a|
  {
    if |a| > 1 {
      assert (a + b)[0] == a[0] && (a + b)[1..] == a[1..] + b;
      JoinConcat(a[1..], b, c);
    } else {
      assert (a + b)[0] == a[0] && (a + b)[1..] == b;
    }
  }

  /** A trailing separator adds one empty last segment. */
  lemma {:induction false} SplitTrailingSeparator(x: string, c: char)
    ensures Split(x + [c], c) == Split(x, c) + [""]
    decreases |x|
  {
    match IndexOf(x, c)
    case None => SplitTrailingSeparatorOnly(x, c);
    case Some(k) =>
      SplitTrailingSeparator(x[k + 1..], c);
      SplitTrailingSeparatorCons(x, c, k);
  }

  /** The inductive step: the first segment is shared by both splits. */
  lemma SplitTrailingSeparatorCons(x: string, c: char, k: nat)
    requires IndexOf(x, c) == Some(k)
    requires Split(x[k + 1..] + [c], c) == Split(x[k + 1..], c) + [""]
    ensures Split(x + [c], c) == Split(x, c) + [""]
  {
    SplitTrailingSeparatorStep(x, c, k);
    AppendAssoc([x[..k]], Split(x[k + 1..], c), [""]);
  }

  lemma AppendAssoc<T>(a: seq<T>, b: seq<T>, c: seq<T>)
    ensures a + (b + c) == (a + b) + c
  {
  }

  lemma SplitTrailingSeparatorOnly(x: string, c: char)
    requires c !in x
    ensures Split(x + [c], c) == [x, ""]
  {
    var s := x + [c];
    assert s[..|x|] == x;
    IndexOfAt(s, c, |x|);
    assert s[|x| + 1..] == [];
    assert Split(s, c) == [x] + Split([], c);
  }

  lemma SplitTrailingSeparatorStep(x: string, c: char, k: nat)
    requires IndexOf(x, c) == Some(k)
    ensures Split(x + [c], c) == [x[..k]] + Split(x[k + 1..] + [c], c)
    ensures Split(x, c) == [x[..k]] + Split(x[k + 1..], c)
  {
    var s := x + [c];
    assert s[..k] == x[..k];
    assert s[k] == c;
    IndexOfAt(s, c, k);
    SplitAt(s, c, k);
    assert s[k + 1..] == x[k + 1..] + [c];
    SplitAt(x, c, k);
  }

  /** One unfolding of `Split` at the first separator. */
  lemma SplitAt(s: string, c: char, k: nat)
    requires IndexOf(s, c) == Some(k)
    ensures Split(s, c) == [s[..k]] + Split(s[k + 1..], c)
  {
  }

  /** A leading separator gives an empty first segment and at least one more. */
  lemma SplitLeadingSeparator(y: string, c: char)
    ensures |Split([c] + y, c)| >= 2 && Split([c] + y, c)[0] == ""
  {
    IndexOfAt([c] + y, c, 0);
  }

  /** Java's `Character.isWhitespace`-free notion used by `String.trim`: every
      character at or below U+0020 is stripped. */
  predicate IsTrimmed(c: char) {
    c <= ' '
  }

  function TrimStart(s: string): (r: string)
    ensures |r| <= |s| && r == s[|s| - |r|..]
    ensures r == [] || !IsTrimmed(r[0])
    ensures forall i :: 0 <= i < |s| - |r| ==> IsTrimmed(s[i])
  {
    if s != [] && IsTrimmed(s[0]) then TrimStart(s[1..]) else s
  }

  function TrimEnd(s: string): (r: string)
    ensures |r| <= |s| && r == s[..|r|]
    ensures r == [] || !IsTrimmed(r[|r| - 1])
    ensures forall i :: |r| <= i < |s| ==> IsTrimmed(s[i])
  {
    if s != [] && IsTrimmed(s[|s| - 1]) then TrimEnd(s[..|s| - 1]) else s
  }

  /** Java's `String.trim()`. */
  function Trim(s: string): string {
    TrimEnd(TrimStart(s))
  }

  /** The literal `pat` occurs in `s` starting at index `j`. */
  predicate OccursAt(s: string, pat: string, j: int) {
    0 <= j && j + |pat| <= |s| && s[j..j + |pat|] == pat
  }

  /** Index of the first occurrence of the literal `pat` in `s` at or after `from`. */
  function Find(s: string, pat: string, from: nat := 0): (r: Option<nat>)
    requires from <= |s|
    ensures r.Some? ==> from <= r.value && OccursAt(s, pat, r.value)
    ensures r.Some? ==> forall j :: from <= j < r.value ==> !OccursAt(s, pat, j)
    ensures r.None? ==> forall j :: from <= j ==> !OccursAt(s, pat, j)
    decreases |s| - from
  {
    if from + |pat| > |s| then None
    else if s[from..from + |pat|] == pat then Some(from)
    else if from == |s| then None
    else Find(s, pat, from + 1)
  }

  /** `s.replaceFirst(pat, rep)` for a pattern with no regular-expression
      metacharacters. */
  function ReplaceFirst(s: string, pat: string, rep: string): string {
    match Find(s, pat)
    case None => s
    case Some(k) => s[..k] + rep + s[k + |pat|..]
  }

  /** ASCII upper-casing (`String.prototype.toUpperCase` restricted to ASCII). */
  function ToUpperAscii(s: string): (r: string)
    ensures |r| == |s|
    ensures forall i :: 0 <= i < |s| ==> r[i] == if 'a' <= s[i] <= 'z' then (s[i] as int - 32) as char else s[i]
  {
    if s == [] then [] else [if 'a' <= s[0] <= 'z' then (s[0] as int - 32) as char else s[0]] + ToUpperAscii(s[1..])
  }
}

=== FILE: test_runner_config.dfy ===
/** `TestRunnerConfiguration.getBrowsers`: which browser executables a test
    run starts, chosen from the configured per-operating-system paths by the
    browser names given on the command line. */
module TestRunnerConfig {
  import opened Wrappers
  import opened Strings

  /** The browser-name to executable-path map of one operating system, as its
      entries in iteration order. */
  type PathMap = seq<(string, string)>

  /** A Java map has each key once. */
  predicate IsMap(pm: PathMap) {
    forall i, j :: 0 <= i < j < |pm| ==> pm[i].0 != pm[j].0
  }

  predicate HasKey(pm: PathMap, k: string) {
    exists i :: 0 <= i < |pm| && pm[i].0 == k
  }

  /** `Map.get`: the value under `k`, or `None` (Java `null`) when absent. */
  function Lookup(pm: PathMap, k: string): (r: Option<string>)
    ensures r.Some? <==> HasKey(pm, k)
    ensures IsMap(pm) ==> forall i :: 0 <= i < |pm| && pm[i].0 == k ==> r == Some(pm[i].1)
    decreases |pm|
  {
    if pm == [] then None
    else if pm[0].0 == k then Some(pm[0].1)
    else
      assert forall i :: 1 <= i < |pm| ==> pm[i] == pm[1..][i - 1];
      Lookup(pm[1..], k)
  }

  /** The configuration read from the YAML file, plus the command-line names
      and the operating system the run is on. */
  datatype Config = Config(
    defaultBrowser: string,
    browserNames: seq<string>,
    browserPaths: map<string, PathMap>,
    operatingSystem: string,
    relativeDir: string)

  /** `NoBrowsersDefinedException`: no paths for this operating system. */
  datatype NoBrowsersDefined = NoBrowsersDefined(relativeDir: string, operatingSystem: string)

  /** The name that asks for no browser at all. */
  const NoBrowser: string := "none"

  /** The name that asks for every configured browser. */
  const AllBrowsers: string := "ALL"

  /** `getBrowserPathsForOS`. */
  function GetBrowserPathsForOS(c: Config): (r: Result<PathMap, NoBrowsersDefined>)
    ensures r.Success? <==> c.operatingSystem in c.browserPaths
    ensures r.Success? ==> r.value == c.browserPaths[c.operatingSystem]
    ensures r.Failure? ==> r.error == NoBrowsersDefined(c.relativeDir, c.operatingSystem)
  {
    if c.operatingSystem in c.browserPaths then Success(c.browserPaths[c.operatingSystem])
    else Failure(NoBrowsersDefined(c.relativeDir, c.operatingSystem))
  }

  /** `addAllBrowsers`: every path of the map, in iteration order. */
  function AddAllBrowsers(pm: PathMap): (r: seq<Option<string>>)
    ensures |r| == |pm|
    ensures forall i :: 0 <= i < |pm| ==> r[i] == Some(pm[i].1)
  {
    seq(|pm|, i requires 0 <= i < |pm| => Some(pm[i].1))
  }

  /** A trimmed command-line name that selects a browser: a key of the map
      other than `none`. */
  predicate Selects(pm: PathMap, key: string) {
    HasKey(pm, key) && key != NoBrowser
  }

  /** Every command-line name, trimmed. */
  function TrimmedNames(names: seq<string>): (r: seq<string>)
    ensures |r| == |names|
    ensures forall i :: 0 <= i < |names| ==> r[i] == Trim(names[i])
  {
    seq(|names|, i requires 0 <= i < |names| => Trim(names[i]))
  }

  /** The loop of `addBrowsersFromArguments` over the trimmed names: the path
      of every selecting name, in argument order; unknown names (warned
      about) and `none` add nothing. */
  function SelectedPaths(pm: PathMap, keys: seq<string>): (r: seq<Option<string>>)
    ensures |r| <= |keys|
    ensures forall p :: p in r <==> exists i :: 0 <= i < |keys| && Selects(pm, keys[i]) && p == Lookup(pm, keys[i])
    ensures r == [] <==> forall i :: 0 <= i < |keys| ==> !Selects(pm, keys[i])
    decreases |keys|
  {
    if keys == [] then []
    else
      var rest := SelectedPaths(pm, keys[1..]);
      assert forall i :: 1 <= i < |keys| ==> keys[i] == keys[1..][i - 1];
      if Selects(pm, keys[0]) then [Lookup(pm, keys[0])] + rest else rest
  }

  /** `addBrowsersFromArguments`: every added path is a real one. */
  function AddBrowsersFromArguments(pm: PathMap, names: seq<string>): (r: seq<Option<string>>)
    ensures |r| <= |names|
    ensures forall p :: p in r ==> p.Some?
    ensures forall p :: p in r <==> exists i :: 0 <= i < |names| && Selects(pm, Trim(names[i])) && p == Lookup(pm, Trim(names[i]))
    ensures r == [] <==> forall i :: 0 <= i < |names| ==> !Selects(pm, Trim(names[i]))
  {
    SelectedPaths(pm, TrimmedNames(names))
  }

  /** The browsers the arguments add distribute over the argument list. */
  lemma {:induction false} ArgumentsDistribute(pm: PathMap, a: seq<string>, b: seq<string>)
    ensures SelectedPaths(pm, a + b) == SelectedPaths(pm, a) + SelectedPaths(pm, b)
    decreases |a|
  {
    if a != [] {
      assert (a + b)[0] == a[0] && (a + b)[1..] == a[1..] + b;
      ArgumentsDistribute(pm, a[1..], b);
    } else {
      assert a + b == b;
    }
  }

  /** The first untrimmed name asks for no browser. */
  predicate AsksForNone(names: seq<string>) {
    |names| > 0 && names[0] == NoBrowser
  }

  /** `addDefaultBrowserIfNoBrowserDefinedInArgumentsAndArgumentDoesntAskForNone`:
      the default browser's path (`None` when the map lacks it) is added when
      nothing was added and the first untrimmed name is not `none`. */
  function AddDefaultBrowser(pm: PathMap, names: seq<string>, defaultBrowser: string, browsers: seq<Option<string>>): (r: seq<Option<string>>)
    ensures browsers <= r
    ensures browsers != [] || AsksForNone(names) ==> r == browsers
    ensures browsers == [] && !AsksForNone(names) ==> r == [Lookup(pm, defaultBrowser)]
  {
    if browsers == [] && (names == [] || names[0] != NoBrowser) then browsers + [Lookup(pm, defaultBrowser)]
    else browsers
  }

  /** `getBrowsers`. */
  function GetBrowsers(c: Config): (r: Result<seq<Option<string>>, NoBrowsersDefined>)
    ensures r.Failure? <==> c.operatingSystem !in c.browserPaths
    ensures r.Failure? ==> r.error == NoBrowsersDefined(c.relativeDir, c.operatingSystem)
  {
    var pm :- GetBrowserPathsForOS(c);
    if c.browserNames == [AllBrowsers] then Success(AddAllBrowsers(pm))
    else Success(AddDefaultBrowser(pm, c.browserNames, c.defaultBrowser, AddBrowsersFromArguments(pm, c.browserNames)))
  }

  /** Exactly `["ALL"]` gives every configured path of the operating system,
      and no default. */
  lemma AllGivesEveryPath(c: Config)
    requires c.operatingSystem in c.browserPaths && c.browserNames == [AllBrowsers]
    ensures GetBrowsers(c).Success?
    ensures |GetBrowsers(c).value| == |c.browserPaths[c.operatingSystem]|
    ensures forall i :: 0 <= i < |GetBrowsers(c).value| ==>
      GetBrowsers(c).value[i] == Some(c.browserPaths[c.operatingSystem][i].1)
  {
  }

  /** When some name selects a browser, the result is exactly the selected
      paths: the default is never added, and every entry is a real path. */
  lemma SelectedNamesExcludeDefault(c: Config, i: nat)
    requires c.operatingSystem in c.browserPaths && c.browserNames != [AllBrowsers]
    requires i < |c.browserNames| && Selects(c.browserPaths[c.operatingSystem], Trim(c.browserNames[i]))
    ensures GetBrowsers(c) == Success(AddBrowsersFromArguments(c.browserPaths[c.operatingSystem], c.browserNames))
    ensures Lookup(c.browserPaths[c.operatingSystem], Trim(c.browserNames[i])) in GetBrowsers(c).value
    ensures forall p :: p in GetBrowsers(c).value ==> p.Some?
  {
  }

  /** Without any selecting name the result is the default browser alone,
      unless the first name is `none`, which gives no browser at all. */
  lemma NoSelectionGivesDefaultOrNothing(c: Config)
    requires c.operatingSystem in c.browserPaths && c.browserNames != [AllBrowsers]
    requires forall i :: 0 <= i < |c.browserNames| ==> !Selects(c.browserPaths[c.operatingSystem], Trim(c.browserNames[i]))
    ensures AsksForNone(c.browserNames) ==> GetBrowsers(c) == Success([])
    ensures !AsksForNone(c.browserNames) ==>
      GetBrowsers(c) == Success([Lookup(c.browserPaths[c.operatingSystem], c.defaultBrowser)])
  {
  }

  /** The result is empty only for `["ALL"]` over an empty map, or when no
      name selects a browser and the first name is `none`. */
  lemma EmptyResultIff(c: Config)
    requires c.operatingSystem in c.browserPaths
    ensures GetBrowsers(c) == Success([]) <==>
      (c.browserNames == [AllBrowsers] && c.browserPaths[c.operatingSystem] == [])
      || (c.browserNames != [AllBrowsers] && AsksForNone(c.browserNames)
          && forall i :: 0 <= i < |c.browserNames| ==> !Selects(c.browserPaths[c.operatingSystem], Trim(c.browserNames[i])))
  {
  }
}

=== FILE: wrappers.dfy ===
/** Failure-compatible result types shared by every module of the model.
    Java exceptions and JavaScript `null`/`undefined` returns become values of
    these types instead of control flow. */
module Wrappers {

  /** A value that may be absent (Java `null`). */
  datatype Option<+T> = None | Some(value: T)

  /** Either a computed value or the error the source would have thrown. */
  datatype Result<+R, +E> = Success(value: R) | Failure(error: E) {
    predicate IsFailure() {
      Failure?
    }

    function PropagateFailure<U>(): Result<U, E>
      requires Failure?
    {
      Failure(error)
    }

    function Extract(): R
      requires Success?
    {
      value
    }
  }
}
